=== FILE: README.md ===
# Wordle server core, modelled in Dafny

This project models the game logic of a two-player, turn-based word-guessing server. Players
are paired by a matchmaking queue or meet in a lobby by code. Each player picks secret words, and
the two take turns guessing the opponent's word for the current round. Every guess is scored
letter by letter (correct, misplaced, absent). Power-ups spend a use. A game ends on a winning
guess in the last round, on a turn timeout or on expiry, and after-game handlers then pay out
experience and coins and store the remaining power-ups. Bots can stand in for a player.

The model follows the source module by module:

| file | module | what it models |
|---|---|---|
| `game_algorithm.dfy` | `GameAlgorithm` | the two-pass guess evaluator, as an array method proved equal to a count-based reference rule |
| `game_session.dfy` | `GameSessionModel` | the session record, its lookups and its turn and round steps |
| `game_manager.dfy` | `GameManagerModel` | the session manager: create, start, play, power-ups, end, cleanup and the two sweeps |
| `match_making_queue.dfy` | `MatchmakingQueueModel` | the waiting queue, the pending-match table and one polling iteration |
| `lobby.dfy` | `LobbyModel` | the in-memory lobbies and code generation |
| `lobby_record.dfy` | `LobbyRecordModel` | the stored lobby record and the parsing of its word strings |
| `lobbies_route.dfy` | `LobbiesRoute` | the `join_lobby` decision tree and the host-only delete |
| `bot_player.dfy` | `BotPlayerModel` | the random and the knowledge-folding bot strategies and the bot's turn guard |
| `bot_manager.dfy` | `BotManagerModel` | word-list selection, the difficulty table and bot creation |
| `websocket_manager.dfy` | `WebSocketManagerModel` | the connection registry, the send filter and broadcasts |
| `scoring_handler.dfy` | `ScoringHandlerModel` | the experience and coin formulas and the score update per player |
| `power_up_persistence.dfy` | `PowerUpPersistenceModel` | the stored remaining power-ups per player |
| `query_manager.dfy` | `QueryManagerModel` | the SQL text builder, with placeholders always matching values |
| `leaderboards.dfy` | `LeaderboardsRoute` | the stable experience sort, ranks and pagination of the leaderboard |
| `store.dfy` | `StoreRoute` | the catalogue and the purchase rule |
| `ai_service.dfy` | `AiServiceModel` | the word check and reply cleaning of the definition service |
| `challenges.dfy` | `ChallengesRoute` | creating, accepting, finding, updating and deleting challenges |
| `wrappers.dfy`, `strings.dfy` | `Wrappers`, `Strings` | `Option`/`Result`, HTTP errors, and Python string operations on ASCII (case, `strip`, `split`, `join`, `str(int)`) |

Objects whose fields the source updates in place are classes: the game session, the session
manager, the queue, the lobbies, the bots and their strategies, and the connection registry.
Everything else is a function over values. Python's insertion-ordered dictionaries become
sequences of pairs where order matters and maps where it does not. Clocks, random draws,
repository rows and socket outcomes are parameters.

A session has exactly three states, waiting, in progress and over
(`src/models/game_session.py:49-52`). The connection registry only sends or fails: a message for
a device that is not connected is not kept.

## Model

| member | source | states |
|---|---|---|
| GameAlgorithm.EvaluateGuess | src/game/game_algorithm.py:27-72 | the result of the two-pass evaluation equals `Evaluate`, the reference result defined letter by letter from counts |
| GameAlgorithm.ScoreGuess | src/game/game_algorithm.py:31-72 | the array-based two passes (with the set of consumed secret positions) and the tally compute exactly `Score` of the upper-cased words |
| GameAlgorithm.TallyResult | src/game/game_algorithm.py:63-72 | the stats loop counts each state over the filled result array |
| GameAlgorithm.ScoreFromRule | src/game/game_algorithm.py:45-61 | a result whose states follow the second-pass rule at every position is the reference result |
| GameAlgorithm.RuleUnique | src/game/game_algorithm.py:45-61 | the reference states are the only state sequence that follows the rule at every position |
| GameAlgorithm.StepFound | src/game/game_algorithm.py:53-58 | finding the first free secret position holding the letter marks it misplaced and consumes exactly that position |
| GameAlgorithm.StepNotFound | src/game/game_algorithm.py:60-61 | with no free secret position holding the letter, the letter is absent and nothing is consumed |
| GameAlgorithm.EvaluateShape | src/game/game_algorithm.py:28-44 | one result per guess position, carrying the upper-cased guess letter |
| GameAlgorithm.CorrectIff | src/game/game_algorithm.py:38-42 | a position is correct exactly when the letters agree ignoring ASCII case |
| GameAlgorithm.MisplacedIff | src/game/game_algorithm.py:46-61 | a non-correct letter is misplaced exactly when fewer earlier copies were misplaced than pass one left free copies in the secret |
| GameAlgorithm.MisplacedWithinAvail | src/game/game_algorithm.py:53-56 | pass two never marks more copies of a letter misplaced than pass one left free |
| GameAlgorithm.LetterBound | src/game/game_algorithm.py:35-56 | each secret position is used at most once: correct plus misplaced copies of a letter never exceed its occurrences in the secret |
| GameAlgorithm.StatsSum | src/game/game_algorithm.py:63-70 | each tally counts the letters in its state, and the three add up to the guess length |
| GameAlgorithm.CountAll | src/game/game_algorithm.py:21-22 | a tally reaches the length exactly when every letter is in that state |
| GameAlgorithm.IsCorrectIff | src/game/game_algorithm.py:21-22 | for equal lengths, `is_correct` holds exactly when the words are equal up to ASCII case |
| GameAlgorithm.SelfIsCorrect | src/game/game_algorithm.py:21-42 | a word evaluated against itself is all correct |
| GameSessionModel.OtherRole | src/models/game_session.py:154-158 | the opponent role is never the player's own |
| GameSessionModel.FindById | src/models/game_session.py:187-189 | the dictionary lookup by device id: the first entry with that id, or None exactly when no entry has it |
| GameSessionModel.FindByRole | src/models/game_session.py:141-146 | the linear search by role: the first entry in insertion order with that role, or None exactly when none has it |
| GameSessionModel.Replace | src/game/game_manager.py:341 | assigning `players[id]` replaces that entry and keeps length and order |
| GameSessionModel.SessionData.GetPlayerById | src/models/game_session.py:187-189 | found exactly when some player has the id, and then that player |
| GameSessionModel.SessionData.GetPlayerByRole | src/models/game_session.py:141-146 | None exactly when no player has the role; otherwise a player holding it |
| GameSessionModel.SessionData.GetOpponent | src/models/game_session.py:148-159 | None for an unknown device; otherwise the lookup of the other role |
| GameSessionModel.SessionData.GetCurrentWord | src/models/game_session.py:161-169 | None exactly for an unknown device or an empty word list; otherwise the word at `min(round-1, len-1)` |
| GameSessionModel.SessionData.GetCurrentPlayer | src/models/game_session.py:183-185 | a player holding the role that has the turn, None exactly when nobody holds it |
| GameSessionModel.SessionData.WithNextRound | src/models/game_session.py:123-127 | advances exactly when the round is below `rounds`, by one, and changes nothing else |
| GameSessionModel.AdvancesUnlessLast | src/models/game_session.py:119-127 | in a valid session the round advances exactly when `is_last_round` is false, and on the last round nothing changes |
| GameSessionModel.NextRoundKeepsValid | src/models/game_session.py:123-127 | `next_round` keeps the round within 1..rounds |
| GameSessionModel.TurnIsCurrentPlayer | src/models/game_session.py:171-185 | in a valid session `is_player_turn` holds exactly for the player `get_current_player` returns |
| GameSessionModel.CurrentWordOfRound | src/models/game_session.py:161-169 | in a valid session a known player's current word is the word of the current round and has the session's word length |
| GameSessionModel.OpponentIsOther | src/models/game_session.py:148-159 | in a valid session the opponent exists exactly when there are two players, and is the other entry with the other role |
| GameSessionModel.NextTurnFields | src/models/game_session.py:129-139 | `next_turn` gives the turn to the other role, sets the timer to now plus the turn limit, and changes nothing else |
| GameSessionModel.NextTurnTwice | src/models/game_session.py:129-135 | two turn flips give the turn back, and a flip keeps validity both ways |
| GameSessionModel.FindByIdValid | src/models/game_session.py:108 | device ids are dictionary keys: each player is found at its own entry |
| GameSessionModel.SetPlayerLookups | src/game/game_manager.py:341 | replacing a player makes it the one found under its id and leaves the other lookups unchanged |
| GameSessionModel.SetPlayerKeepsValid | src/game/game_manager.py:341 | replacing a player by one with the same id, role and words keeps the session valid |
| GameSessionModel.SetPlayerKeepsRest | src/game/game_manager.py:341 | replacing a player changes nothing but the player list |
| GameSessionModel.SamePlayers | src/models/game_session.py:148-189 | the lookups depend on the players only |
| GameSessionModel.GameSession.constructor | src/models/game_session.py:103-114 | a fresh session starts in round 1, waiting, with no timer and no outcome |
| GameSessionModel.GameSession.NextTurn | src/models/game_session.py:129-139 | the object's new state is the value after `next_turn` |
| GameSessionModel.GameSession.NextRound | src/models/game_session.py:123-127 | the object's new state and the result are those of `next_round` on the value |
| GameManagerModel.RegisterFreshKeepsConsistent | src/game/game_manager.py:196-199 | filing a session under an unused id with two unmapped players keeps the session table and the device table consistent |
| GameManagerModel.FixedSessionIdStrandsPlayers | src/game/game_manager.py:129-131 | with the constant session id, a second game replaces the first while its players stay mapped to the id: the tables stop being consistent |
| GameManagerModel.RemoveKeepsConsistent | src/game/game_manager.py:582-595 | dropping a session with its players' mappings keeps the tables consistent |
| GameManagerModel.ReplaceKeepsConsistent | src/game/game_manager.py:250-259 | writing back a session with the same players keeps the tables consistent |
| GameManagerModel.MappedToSession | src/game/game_manager.py:196-199 | in consistent tables every player of a session is mapped to it |
| GameManagerModel.MappedPlayerIn | src/game/game_manager.py:508-514 | in consistent tables a mapped device plays in the session it is mapped to |
| GameManagerModel.FirstWrongLength | src/game/game_manager.py:117-127 | the first word of the wrong length, None exactly when all words have the length |
| GameManagerModel.CreateCheck | src/game/game_manager.py:101-127 | `create_game`'s checks pass exactly when both word counts equal `rounds`, neither device is in a game, all words have the word length and there is at least one word; a wrong count is reported for player 1 before player 2 |
| GameManagerModel.NewSessionValid | src/game/game_manager.py:133-194 | a session built after the input checks pass is valid, keeps its id, and holds exactly the two devices |
| GameManagerModel.NewSessionFacts | src/game/game_manager.py:133-194 | a new session is valid, waiting, in round 1, holds both devices with score 0 and no attempts, player 1 and player 2 each in their role with their own secret words, name and power-up counts, only player 2's entry when both share a device, and gives player 1 the first turn when a bot plays |
| GameManagerModel.TargetWord | src/game/game_manager.py:329 | the word a guess is scored against has the session's word length |
| GameManagerModel.PlayRejects | src/game/game_manager.py:284-327 | a guess is turned away, with the session unchanged, exactly when the opponent is missing, the game is not in progress, it is not the caller's turn or the length is wrong; the first two give "Opponent not found" and the waiting notice |
| GameManagerModel.PlayKeepsValid | src/game/game_manager.py:268-398 | every guess leaves a valid session valid |
| GameManagerModel.AfterGuessKeepsValid | src/game/game_manager.py:335-389 | recording a scored guess keeps the session valid |
| GameManagerModel.AfterGuessPlayers | src/game/game_manager.py:335-344 | after a scored guess the caller has the attempt appended (and a point when correct) and the opponent is untouched |
| GameManagerModel.PlayIncorrect | src/game/game_manager.py:387-389 | an incorrect guess appends the attempt, passes the turn with a fresh timer and keeps scores and round |
| GameManagerModel.PlayCorrect | src/game/game_manager.py:343-367 | a correct guess adds a point; before the last round it passes the turn and advances the round; in the last round the winner is the caller when strictly ahead, otherwise the opponent |
| GameManagerModel.RecordAttemptFields | src/game/game_manager.py:336-344 | the attempt is appended and a correct one scores a point; nothing else of the player changes |
| GameManagerModel.FindPowerUp | src/game/game_manager.py:420-422 | the first power-up of the kind, None exactly when there is none |
| GameManagerModel.SpendUse | src/game/game_manager.py:447 | one use is taken from that entry and every other entry is kept |
| GameManagerModel.UsePowerUpRefuses | src/game/game_manager.py:413-427 | `use_power_up` raises, changing nothing, when it is not the caller's turn, the power-up is missing or it has no uses left |
| GameManagerModel.UsePowerUpSpends | src/game/game_manager.py:420-452 | a successful use takes exactly one use from the first power-up of the kind, which had one to spare, and changes nothing else |
| GameManagerModel.Started | src/game/game_manager.py:224-228 | the session goes in progress with the timer at now plus the turn limit; nothing else changes |
| GameManagerModel.Ended | src/game/game_manager.py:466-472 | the session is over with the given outcome; players, turn and round are kept |
| GameManagerModel.Snapshot | src/game/game_manager.py:645 | the sessions listed in table order |
| GameManagerModel.TimeoutCall | src/game/game_manager.py:646-663 | at most one `end_game` call, for this session, and only when its turn timed out past `waiting` |
| GameManagerModel.VerdictOf | src/game/game_manager.py:645-668 | the sweep's view of one session: its timeout call and expiry, or a stop exactly when the turn timed out and nobody holds the current role |
| GameManagerModel.ExpiryCalls | src/game/game_manager.py:670-675 | one `session_expired` call per noted id, in order |
| GameManagerModel.PassAborted | src/game/game_manager.py:679-680 | once the first loop has stopped on an error, later sessions add nothing |
| GameManagerModel.PassComplete | src/game/game_manager.py:645-668 | without a stop every session's calls are made and its expiry noted |
| GameManagerModel.PassSound | src/game/game_manager.py:645-668 | every call and noted id of the first loop comes from some session's verdict |
| GameManagerModel.SweepEndsExpired | src/game/game_manager.py:665-675 | without a stop every session older than two hours is ended with `session_expired` |
| GameManagerModel.SweepEndsTimedOut | src/game/game_manager.py:646-663 | without a stop every timed-out session whose current player has an opponent is ended in the opponent's favour |
| GameManagerModel.SweepCallsSound | src/game/game_manager.py:645-675 | every call of a pass is a timeout call or an expiry call for a session of the snapshot |
| GameManagerModel.MapPlayers | src/game/game_manager.py:258-259 | each player of the session is mapped to its id and every other entry is kept |
| GameManagerModel.GameManager.constructor | src/game/game_manager.py:30-42 | a new manager has no sessions, no device mappings and no handlers |
| GameManagerModel.GameManager.CreateGame | src/game/game_manager.py:88-212 | errors leave the manager unchanged; success files the new session under a fresh id and maps both devices to it, keeping the invariant |
| GameManagerModel.GameManager.UpdateGameSession | src/game/game_manager.py:250-266 | the session is filed under its id and the device table is unchanged |
| GameManagerModel.GameManager.StartGame | src/game/game_manager.py:214-239 | unknown session and non-waiting session raise with nothing changed; a waiting one is started |
| GameManagerModel.GameManager.RegisterAfterGameHandler | src/game/game_manager.py:241-248 | the handler is appended to the session's list |
| GameManagerModel.GameManager.CleanupGameSession | src/game/game_manager.py:582-595 | the session and its players' mappings are removed; an unknown id changes nothing |
| GameManagerModel.GameManager.EndGame | src/game/game_manager.py:454-498 | false for an unknown session; otherwise every handler runs on the ended session in order, the handler list is dropped and the session and its mappings are removed |
| GameManagerModel.GameManager.Play | src/game/game_manager.py:268-398 | an unknown session raises; otherwise the outcome is `PlayRule`'s, a last-round win ends the game with the winner, and any other outcome writes the session back |
| GameManagerModel.GameManager.ApplyGuess | src/game/game_manager.py:329-398 | the scored guess is recorded; a last-round win ends the game, anything else writes the session back |
| GameManagerModel.GameManager.EndInPlace | src/game/game_manager.py:345-363 | the handlers see the changed session ended, and it is removed with its mappings |
| GameManagerModel.GameManager.PlayerSession | src/game/game_manager.py:508-514 | the session the device is mapped to when it is active, otherwise None |
| GameManagerModel.GameManager.UsePowerUp | src/game/game_manager.py:400-452 | no session raises; otherwise the result and new session are `UsePowerUpRule`'s, written back only on success |
| GameManagerModel.GameManager.EndIfTimedOut | src/game/game_manager.py:646-663 | the session's timeout call is made, or the pass stops; only sessions it ends disappear |
| GameManagerModel.GameManager.TimeoutSweep | src/game/game_manager.py:645-668 | the first loop makes exactly `TimeoutPass`'s calls and notes its ids; only ended sessions disappear |
| GameManagerModel.GameManager.ExpirySweep | src/game/game_manager.py:670-675 | every noted session is ended in order; only those disappear |
| GameManagerModel.GameManager.CleanupExpiredGames | src/game/game_manager.py:635-680 | one pass over every session, each listed once, makes exactly `SweepCalls`; the sessions named are gone and every other one is as it was; unless the pass stops early, no session older than two hours remains |
| GameManagerModel.GameManager.PassTurn | src/game/game_manager.py:709-712 | the session's turn passes with a fresh timer and is written back |
| GameManagerModel.GameManager.CheckAiTurns | src/game/game_manager.py:683-734 | exactly the games against the AI waiting on player 2's expired timer pass the turn; nothing else changes |
| MatchmakingQueueModel.Without | src/game/match_making_queue.py:120 | the filtered queue is no longer and holds no entry of the player |
| MatchmakingQueueModel.WithoutAppend | src/game/match_making_queue.py:120 | filtering distributes over concatenation, so the others keep their relative order |
| MatchmakingQueueModel.WithoutKeepsOthers | src/game/match_making_queue.py:120 | every entry of another player is kept as often as it occurred |
| MatchmakingQueueModel.WithoutAbsent | src/game/match_making_queue.py:120 | a queue without the player is left as it is |
| MatchmakingQueueModel.WithoutIdempotent | src/game/match_making_queue.py:117-123 | removing twice is removing once |
| MatchmakingQueueModel.FirstPosition | src/game/match_making_queue.py:73-81 | the first index holding the player, None exactly when there is none |
| MatchmakingQueueModel.Pairing | src/game/match_making_queue.py:79-106 | a pair forms exactly when the queue has two entries and the caller is first or second, and it is always the two front entries in order |
| MatchmakingQueueModel.PollTimesOut | src/game/match_making_queue.py:58-60 | once the time is up an iteration answers None and changes nothing |
| MatchmakingQueueModel.PollCollectsOnce | src/game/match_making_queue.py:62-68 | a pending match is returned and removed, so it is collected once, and the queue is untouched |
| MatchmakingQueueModel.PollPairsFront | src/game/match_making_queue.py:79-106 | in the corrected `Poll`, a caller first or second is paired with the front two, both leave the queue, and the match is filed for the partner |
| MatchmakingQueueModel.PollWaits | src/game/match_making_queue.py:78-109 | a caller further back, or not queued, keeps waiting and nothing changes |
| MatchmakingQueueModel.PartnerCollectsMatch | src/game/match_making_queue.py:62-106 | after a pairing the partner's next iteration before the timeout returns the same match |
| MatchmakingQueueModel.PollAsWritten | src/game/match_making_queue.py:56-109 | an iteration as written leaves the same queue and gives the same answer as `Poll`; a match it forms is filed under the front entry's player, whoever called |
| MatchmakingQueueModel.PartnerStrandedAsWritten | src/game/match_making_queue.py:84-90 | as written, a front caller files the match under itself, so its partner left the queue matched but waits until it times out |
| MatchmakingQueueModel.MatchmakingQueue.constructor | src/game/match_making_queue.py:14-19 | an empty queue, no secret words and no pending matches |
| MatchmakingQueueModel.MatchmakingQueue.AddPlayer | src/game/match_making_queue.py:23-31 | the player joins at the back and its word (possibly none) is recorded |
| MatchmakingQueueModel.MatchmakingQueue.GetPair | src/game/match_making_queue.py:33-37 | the two front entries leave in order; with fewer than two nothing changes |
| MatchmakingQueueModel.MatchmakingQueue.Positions | src/game/match_making_queue.py:73-76 | every index holding the player, increasing, starting at the first one |
| MatchmakingQueueModel.MatchmakingQueue.SetPendingMatch | src/game/match_making_queue.py:111-114 | the match is filed under the player; nothing else changes |
| MatchmakingQueueModel.MatchmakingQueue.WaitForMatchStep | src/game/match_making_queue.py:56-109 | one polling iteration changes the queue and the pending table as the corrected `Poll` says and answers its result |
| MatchmakingQueueModel.MatchmakingQueue.RemovePlayer | src/game/match_making_queue.py:117-123 | every entry of the player leaves the queue and its word is dropped |
| LobbyModel.CustomLobby.constructor | src/game/lobby.py:7-11 | a new lobby has its code, no players, no words and the flag down |
| LobbyModel.CustomLobby.AddPlayer | src/game/lobby.py:13-23 | the socket is recorded under the player, the word only when one is given and non-empty, and the flag is raised once two players are in; the player count grows by one only for a new player |
| LobbyModel.LobbyManager.constructor | src/game/lobby.py:26-28 | a new manager holds no lobbies |
| LobbyModel.LobbyManager.CreateLobby | src/game/lobby.py:30-33 | a new empty lobby is filed under the code, replacing any earlier one |
| LobbyModel.LobbyManager.GetLobby | src/game/lobby.py:35-36 | found exactly when the code is filed, and then the lobby with that code |
| LobbyModel.LobbyManager.RemoveLobby | src/game/lobby.py:38-39 | the code is forgotten; an unknown code changes nothing |
| LobbyModel.LobbyManager.GenerateCode | src/game/lobby.py:41-47 | the first drawn code not in use, four digits long; none exactly when every draw is taken |
| LobbyRecordModel.LobbyRecord.P1WordsList | src/models/lobby.py:60-64 | player 1's words: none while the list is unset or empty, and never an empty or padded word |
| LobbyRecordModel.LobbyRecord.P2WordsList | src/models/lobby.py:66-70 | player 2's words, in the same way |
| LobbyRecordModel.LobbyRecord.IsReady | src/models/lobby.py:72-79 | ready exactly when both players and both word lists are set, so never with a free second slot |
| LobbyRecordModel.ParseWords | src/models/lobby.py:60-70 | a missing or empty string parses to no words, and no parsed word is empty or padded |
| LobbyRecordModel.KeepStripped | src/models/lobby.py:64 | the comprehension keeps at most one stripped word per piece, none empty |
| LobbyRecordModel.KeepStrippedClean | src/models/lobby.py:64 | clean pieces pass through the comprehension unchanged |
| LobbyRecordModel.RStripCharAppended | src/models/lobby.py:64 | `rstrip(',')` removes an appended comma along with those before it |
| LobbiesRoute.WordsString | src/routes/lobbies.py:99 | the stored form always ends with a comma |
| LobbiesRoute.ParseWordsString | src/routes/lobbies.py:99 | storing clean words and parsing them back (src/models/lobby.py:64) gives the same list |
| LobbiesRoute.ValidRequest | src/routes/lobbies.py:25-35 | a request FastAPI lets through has a four-character code and at least one word, and a turn limit of 0 is refused, so the handler never meets one |
| LobbiesRoute.JoinLobby | src/routes/lobbies.py:25-35 | the intended route: 422 exactly when the request fails validation (a code not of four characters, no words, or a turn limit below 1); a refused request, an unknown caller or words of different lengths store nothing and create no game; a success comes only from a valid request and returns the lobby as stored under the code, marked as host exactly when the caller is its first player |
| LobbiesRoute.JoinRejectsBadWords | src/routes/lobbies.py:88-93 | a valid request whose words differ in length is refused with 400 "All words must be the same length" and nothing is stored |
| LobbiesRoute.JoinCreatesLobby | src/routes/lobbies.py:107-121 | in the intended route, a valid join under an unknown code creates the lobby and answers with it, with the caller as host, rounds = number of words, the common length and the asked turn limit or 120 |
| LobbiesRoute.JoinLobbyAsWritten | src/routes/lobbies.py:107-121 | the route as written stores and requests exactly what the intended route does, and its reply differs only for a valid first join under an unknown code |
| LobbiesRoute.JoinRepliesWithRowOne | src/repositories/lobbies_repository.py:58-70 | as written, a first join answers with the lobby whose id is 1 (the insert's row count, src/database/mysql_connection_manager.py:104, taken for the new id at src/routes/lobbies.py:119-120), marked as hosted by the caller, or with 500 "Internal server error: 'NoneType' object has no attribute 'is_ready'" when there is none; the reply is the intended one exactly when lobby 1 is the one just created |
| LobbiesRoute.JoinAnswersOtherLobbyAsWritten | src/routes/lobbies.py:119-120 | as written, user 8 creating "BBBB" while "AAAA" of user 7 has id 1 is told it hosts "AAAA" |
| LobbiesRoute.JoinRejoinsHost | src/routes/lobbies.py:136-147 | a host rejoining changes only its device id and words |
| LobbiesRoute.JoinRejoinsSecond | src/routes/lobbies.py:221-232 | a second player rejoining changes only its device id and words, and no game is created |
| LobbiesRoute.JoinRejectsMismatch | src/routes/lobbies.py:156-166 | a second player whose word count or length differs from the lobby's is refused with 400 and nothing is stored |
| LobbiesRoute.JoinSeatsSecondPlayer | src/routes/lobbies.py:168-212 | a matching second player is stored, and the game is created from the two stored word lists and the lobby's settings, not against the AI; the reply succeeds exactly when the game was created |
| LobbiesRoute.JoinRejectsWhenFull | src/routes/lobbies.py:238-243 | a lobby held by two other users answers 400 "Lobby is full" |
| LobbiesRoute.DeleteRefusal | src/routes/lobbies.py:319-332 | no refusal exactly when the caller is known and hosts an existing lobby; a non-host gets 403 "Only the lobby host can delete the lobby" |
| LobbiesRoute.DeleteLobbyAsWritten | src/routes/lobbies.py:299-345 | as written, never a success and never a deletion: the lobby table is unchanged, and the reply is a 500 "Internal server error" exactly when the caller is the host, because the repository's delete raises |
| LobbiesRoute.DeleteLobby | src/routes/lobbies.py:299-345 | the intended route: the lobby is deleted exactly when the caller is known and is its host; otherwise nothing changes, and a non-host gets 403 |
| LobbiesRoute.DeleteLobbyFailsAsWritten | src/repositories/lobbies_repository.py:114-129 | both routes refuse alike; wherever the intended route deletes the lobby, the route as written answers 500 and the lobby stays |
| BotPlayerModel.WordList.constructor | src/game/bot/bot_player.py:37-38 | the shared word list holds the words it was given |
| BotPlayerModel.Keep | src/game/bot/bot_player.py:47-51 | a word is kept exactly when it is in the list, has length n and is unused |
| BotPlayerModel.RandomPool | src/game/bot/bot_player.py:41-58 | offered words are used as given when there are any; otherwise the pool is empty exactly when the list has no word of the length |
| BotPlayerModel.RandomGuessPrefersUnused | src/game/bot/bot_player.py:47-56 | without offered words the random bot guesses a listed word of length n, and an unused one unless all are used |
| BotPlayerModel.RandomBotStrategy.constructor | src/game/bot/bot_player.py:37-39 | the strategy holds the list and no used words |
| BotPlayerModel.RandomBotStrategy.MakeGuess | src/game/bot/bot_player.py:41-58 | the guess is a member of the pool, none exactly when the pool is empty, and the guess is remembered as used |
| BotPlayerModel.LearnEliminated | src/game/bot/bot_player.py:105-106 | the eliminated letters grow by exactly the absent letters |
| BotPlayerModel.LearnConfirmed | src/game/bot/bot_player.py:99-100 | every correct position is confirmed with its letter, and every other position keeps what it had |
| BotPlayerModel.LearnWrong | src/game/bot/bot_player.py:101-104 | each letter's wrong positions grow by exactly the positions where it was misplaced |
| BotPlayerModel.LearnIdempotent | src/game/bot/bot_player.py:82-83 | folding the same attempt in twice learns nothing new, so re-reading every previous attempt each turn is harmless |
| BotPlayerModel.LearnKeepsSecretUpTo | src/game/bot/bot_player.py:94-104 | folding in a prefix of a score against the secret keeps the secret consistent with the confirmed and misplaced letters |
| BotPlayerModel.LearnKeepsSecret | src/game/bot/bot_player.py:94-131 | knowledge learnt from a score against a lower-case secret never contradicts the secret's confirmed or misplaced letters |
| BotPlayerModel.CaseMismatchRejectsSecret | src/game/bot/bot_player.py:94-131 | as written, scoring "cot" against "cat" confirms upper-case 'C', so the secret "cat" is judged invalid |
| BotPlayerModel.RepeatedLetterRejectsSecret | src/game/bot/bot_player.py:105-122 | a letter guessed twice and present once is eliminated, which rules out the secret ("tat" against "cat") |
| BotPlayerModel.LearnAsWrittenUpper | src/game/bot/bot_player.py:94-106 | folding upper-case scored letters in as written keeps every letter of the knowledge upper-case |
| BotPlayerModel.LearnAllAsWrittenUpper | src/game/bot/bot_player.py:77-83 | the same over a whole list of attempts, folded in order |
| BotPlayerModel.UpperKnowledgeFiltersNothing | src/game/bot/bot_player.py:85-131 | against lower-case words, upper-case knowledge leaves the pool equal to every possible word (or, with none, every listed word of the length): a confirmed or misplaced letter rejects every word and the fallback takes them all, and otherwise every word agrees |
| BotPlayerModel.AsWrittenDrawsFromEveryWord | src/game/bot/bot_player.py:71-131 | as written, after any scored attempts the smart bot draws from every possible word, never from a narrowed pool |
| BotPlayerModel.SmartBotStrategy.constructor | src/game/bot/bot_player.py:64-69 | no possible words and no knowledge |
| BotPlayerModel.SmartBotStrategy.UpdateKnowledge | src/game/bot/bot_player.py:94-106 | the knowledge after the loop is the attempt folded in position by position, each letter in lower case (the corrected `Learn`) |
| BotPlayerModel.SmartBotStrategy.FilterValidWords | src/game/bot/bot_player.py:108-131 | exactly the possible words that agree with the knowledge, each once |
| BotPlayerModel.SmartBotStrategy.Prepare | src/game/bot/bot_player.py:77-83 | the possible words are filled when empty, and every attempt is folded in order |
| BotPlayerModel.SmartBotStrategy.MakeGuess | src/game/bot/bot_player.py:71-92 | the guess is a member of the pool of agreeing words (or the fallbacks), of the word length, none exactly when the pool is empty |
| BotPlayerModel.BotPlayer.constructor | src/game/bot/bot_player.py:166-183 | the bot holds its id, name, secret, strategy, difficulty and delay, and no session |
| BotPlayerModel.BotPlayer.SetGameContext | src/game/bot/bot_player.py:195-198 | the session id and secret are set |
| BotPlayerModel.BotPlayer.LeadingResults | src/game/bot/bot_player.py:239 | the results of the attempts in order, up to the first attempt that has no result |
| BotPlayerModel.BotPlayer.Play | src/game/bot/bot_player.py:216-251 | no guess and no change unless the session is in progress, the bot plays in it and has the turn; then the random bot guesses from `RandomPool` exactly when it is non-empty and records the word as used, and the smart bot fills its possible words, learns (`LearnAll`) from the attempts up to the first one without a result, and guesses from `SmartPool` exactly when every attempt has a result and the pool is non-empty; a guess has the word length |
| BotManagerModel.BotIdIsBot | src/game/bot/bot_manager.py:59 | every id `create_bot` draws is nine characters long and is recognised by `is_bot` (src/game/bot/bot_manager.py:92-93) |
| BotManagerModel.IsBot | src/game/bot/bot_manager.py:92-93 | an id is a bot's exactly when its first four characters are "bot_" |
| BotManagerModel.Plan | src/game/bot/bot_manager.py:62-70 | random play exactly for "easy"; every delay range is increasing; "hard" waits 1 to 3 seconds |
| BotManagerModel.BotManager.constructor | src/game/bot/bot_manager.py:17-40 | the four word lists, no bots and eight names |
| BotManagerModel.BotManager.WordsList | src/game/bot/bot_manager.py:42-50 | a list exactly for lengths 3 to 6, and the one for that length |
| BotManagerModel.BotManager.GetBot | src/game/bot/bot_manager.py:89-90 | the registered bot, none exactly when the id is unknown |
| BotManagerModel.BotManager.CreateBot | src/game/bot/bot_manager.py:52-87 | a registered bot with a "bot_" id, the difficulty's strategy over the length's list and the delay range `Plan` gives it (3 to 7 seconds for "easy", 1 to 3 for "hard", 2 to 5 otherwise), a name with a two-digit suffix and a secret from the list; the opponent's word, lower-cased, is appended when missing; none where the source raises |
| WebSocketManagerModel.Send | src/game/websocket_manager.py:247-286 | a bot or excluded device is reported as reached with nothing changed; an unknown device fails with nothing changed; for a known device that may be sent to, success exactly on delivery, which refreshes the heartbeat to now; the entry is dropped exactly when the socket is found closed or the peer leaves during the send, and any other failure changes nothing; no other device's entry changes, and a kept entry keeps its socket |
| WebSocketManagerModel.Broadcast | src/game/websocket_manager.py:288-300 | the reported ids are drawn from the input and are no more than it |
| WebSocketManagerModel.BroadcastReachesUnsendable | src/game/websocket_manager.py:240-251 | every bot or excluded device in the input is reported as reached |
| WebSocketManagerModel.BroadcastReachesOnlyConnected | src/game/websocket_manager.py:252-254 | a reported device that can be sent to was connected before the broadcast |
| WebSocketManagerModel.WebSocketManager.constructor | src/game/websocket_manager.py:40-48 | the manager starts with no connections and no excluded devices |
| WebSocketManagerModel.WebSocketManager.CleanupConnection | src/game/websocket_manager.py:227-238 | the device's entry is removed and every other entry kept; an unknown device changes nothing |
| WebSocketManagerModel.WebSocketManager.SendToDevice | src/game/websocket_manager.py:247-286 | the result and the new table are those `Send` describes, and every entry stays filed under its own id |
| WebSocketManagerModel.WebSocketManager.Connect | src/game/websocket_manager.py:83-130 | true exactly when the socket is accepted; then the device's entry is a fresh one for the new socket, greeted as `Send` describes; otherwise nothing changes |
| WebSocketManagerModel.WebSocketManager.RefreshConnection | src/game/websocket_manager.py:132-173 | true exactly when the socket is connected; then the device's entry is replaced by a fresh one for the socket, otherwise nothing changes |
| WebSocketManagerModel.WebSocketManager.Disconnect | src/game/websocket_manager.py:175-201 | the device's entry is dropped whatever the notification did, and every other entry is kept |
| WebSocketManagerModel.WebSocketManager.BroadcastToDevices | src/game/websocket_manager.py:288-300 | the reported ids and the new table are those `Broadcast` describes |
| ScoringHandlerModel.CalculateXp | src/game/scoring_handler.py:16-28 | a loss earns 10; a win earns 100 less 15 per extra attempt, never below 20 and, from one attempt on, never above 100 |
| ScoringHandlerModel.CalculateCoins | src/game/scoring_handler.py:31-43 | a loss earns 5; a win earns 20 less 3 per extra attempt, never below 5 and, from one attempt on, never above 20 |
| ScoringHandlerModel.RewardsMonotone | src/game/scoring_handler.py:16-43 | fewer attempts never earn less, and a loss never earns more than any win |
| ScoringHandlerModel.RewardsFloor | src/game/scoring_handler.py:27-43 | experience reaches its floor of 20 from the seventh attempt on and not before; coins reach 5 from the sixth |
| ScoringHandlerModel.ScoreUpdatesExact | src/game/scoring_handler.py:49-66 | every update belongs to a player with a user row and carries that player's new totals, and every such player gets one |
| ScoringHandlerModel.UpdatesRaiseTotals | src/game/scoring_handler.py:53-66 | every update raises the stored experience by at least 10 and the stored coins by at least 5, a missing column counting as 0 |
| ScoringHandlerModel.Handle | src/game/scoring_handler.py:45-66 | nothing is written unless the game is over with an outcome; otherwise exactly the updates `ScoreUpdates` lists, in player order |
| PowerUpPersistenceModel.LastRemaining | src/game/power_up_persistence_after_game_handler.py:21-29 | 0 when the player holds no power-up of the kind, otherwise the remaining count of the last one of that kind |
| PowerUpPersistenceModel.PowerUpMap | src/game/power_up_persistence_after_game_handler.py:21-29 | the map has exactly the three kinds, each holding the remaining count of its last entry, or 0 |
| PowerUpPersistenceModel.UpdateFor | src/game/power_up_persistence_after_game_handler.py:31-39 | the update is filed under the player's id and sets exactly the three columns, each to its kind's last remaining count |
| PowerUpPersistenceModel.PlayerUpdate | src/game/power_up_persistence_after_game_handler.py:20-39 | the update built from the power-up map is the one `UpdateFor` describes |
| PowerUpPersistenceModel.Handle | src/game/power_up_persistence_after_game_handler.py:15-40 | nothing is written unless the game is over; otherwise exactly one update per player, in player order |
| PowerUpPersistenceModel.NoPowerUpsStoresZeros | src/game/power_up_persistence_after_game_handler.py:21-25 | a player without power-ups has every column set to 0 |
| PowerUpPersistenceModel.LaterEntryWins | src/game/power_up_persistence_after_game_handler.py:28-29 | a later entry of a kind overrides earlier ones and leaves the other kinds as they were |
| QueryManagerModel.QueryManager.WhereClause | src/database/query_manager.py:54-57 | the values are the filters' values in key order, and with column names free of `%` the clause holds exactly one placeholder per filter |
| QueryManagerModel.AssignmentsMarked | src/database/query_manager.py:55 | every `column = %s` piece holds exactly one placeholder when the column name holds none |
| QueryManagerModel.QueryManager.SelectHead | src/database/query_manager.py:24 | the statement starts "SELECT * FROM <table> WHERE " and goes on with the clause, and that prefix adds no placeholder to the clause |
| QueryManagerModel.QueryManager.SelectOne | src/database/query_manager.py:8-11 | the values are the filters' values; the statement is "SELECT * FROM <table> WHERE ", the conditions of `WhereClause`, and " LIMIT 1;", and it holds one placeholder per value |
| QueryManagerModel.QueryManager.OrderPart | src/database/query_manager.py:26-28 | the ORDER BY part adds no placeholder unless the column name holds one |
| QueryManagerModel.QueryManager.PagePart | src/database/query_manager.py:30-33 | the LIMIT and OFFSET part never holds a placeholder |
| QueryManagerModel.QueryManager.ManyTail | src/database/query_manager.py:26-35 | everything after the WHERE clause ends with ";" and adds no placeholder; it starts " ORDER BY <column> ASC" or " DESC" when a column is named, and is only the LIMIT and OFFSET part and ";" otherwise |
| QueryManagerModel.QueryManager.SelectMany | src/database/query_manager.py:13-36 | no filters, or an empty filter dictionary, means no values and the condition "1"; otherwise the filters' values and the conditions of `WhereClause`; the statement is "SELECT * FROM <table> WHERE ", that condition and the tail `ManyTail` describes, and holds one placeholder per value |
| QueryManagerModel.QueryManager.OffsetNeedsLimit | src/database/query_manager.py:30-33 | without a limit the offset has no effect on the statement |
| QueryManagerModel.QueryManager.DirectionNeedsOrder | src/database/query_manager.py:26-28 | without an order column, or with an empty one, the direction has no effect |
| QueryManagerModel.QueryManager.Insert | src/database/query_manager.py:38-43 | the values are the data's values in key order; the statement is "INSERT INTO <table> (", the column names in key order, ") VALUES (", one "%s" per column, and ");", and it holds one placeholder per value |
| QueryManagerModel.QueryManager.Update | src/database/query_manager.py:45-52 | the SET values come before the WHERE values; the statement starts "UPDATE <table> SET " with one "column = %s" per update, and ends " WHERE " with the conditions of `WhereClause` and ";"; it holds one placeholder per value |
| LeaderboardsRoute.Insert | src/routes/leaderboards.py:140 | one insertion step of the sort: the row is added once and nothing else changes |
| LeaderboardsRoute.InsertDescending | src/routes/leaderboards.py:140 | inserting a row into a board ordered by non-increasing experience keeps it ordered |
| LeaderboardsRoute.SortByXp | src/routes/leaderboards.py:140 | the result is a permutation of the board ordered by non-increasing experience |
| LeaderboardsRoute.InsertStable | src/routes/leaderboards.py:140 | an inserted row goes after every row of its own experience and leaves their order alone |
| LeaderboardsRoute.SortStable | src/routes/leaderboards.py:140 | the sort is stable: the rows of any one experience keep their input order, as Python's sort does with `reverse=True` |
| LeaderboardsRoute.RankedKeepsOrder | src/routes/leaderboards.py:143-144 | ranking keeps every row's place and fields and numbers the rows from 1, so an ordered board stays ordered |
| LeaderboardsRoute.SortLeaderboardByXp | src/routes/leaderboards.py:129-146 | the result is the sorted board with every rank set to its position from 1: as long as the input, ordered by non-increasing experience |
| LeaderboardsRoute.RankOf | src/routes/leaderboards.py:57-60 | no rank exactly when no user has the device id; otherwise one more than the position of the first such user |
| LeaderboardsRoute.PageOf | src/routes/leaderboards.py:63-64 | the page holds the users from the offset on, at most a page's worth, clamped to the list as a Python slice is |
| LeaderboardsRoute.PageRows | src/routes/leaderboards.py:67-76 | one row per user of the page, ranked from the offset plus 1, marked as the caller's exactly when its device id is the caller's |
| LeaderboardsRoute.GenerateFakeLeaderboard | src/routes/leaderboards.py:111-126 | at most 30 rows, each with rank 0, never the caller's, a "device_" id and the drawn experience |
| LeaderboardsRoute.GetXpLeaderboard | src/routes/leaderboards.py:29-101 | 422 exactly for out-of-range paging, then 404 exactly without a stored caller; otherwise the total, page and page size, the page rows plus 25 generated rows sorted and ranked, and the caller's own row at its rank exactly when it has one and no row of the board is marked as the caller's |
| LeaderboardsRoute.OnPageNotRepeated | src/routes/leaderboards.py:63-90 | a caller whose rank falls on the requested page is marked on the board, so no separate caller row is added |
| StoreRoute.GetStoreItems | src/routes/store.py:25-51 | the catalogue has three items, one per power-up kind, each with a positive price and amount |
| StoreRoute.PurchaseItem | src/routes/store.py:68-133 | 404 exactly for an index outside the catalogue and 400 exactly for a balance below the price, neither writing anything; otherwise one update of exactly the balance and the item's column that takes the price off, adds the item's amount and leaves the other kinds alone, and the purchase succeeds exactly when the repository reports a changed row, else 500 |
| StoreRoute.PurchaseSpendsPrice | src/routes/store.py:93-113 | a successful purchase takes exactly the price from the balance and never leaves it negative |
| StoreRoute.TooPoorForAnything | src/routes/store.py:101-106 | a buyer with fewer coins than the cheapest item, 150, can buy nothing and nothing is written |
| AiServiceModel.ValidateWordAsWritten | src/core/ai_service.py:93-106 | the validator as written passes exactly the words `re.match` lets through the pattern, trailing newline included, whose lower-case form is not banned |
| AiServiceModel.ValidateWord | src/core/ai_service.py:93-106 | a word passes exactly when it is 3 to 12 ASCII letters and its lower-case form is not banned, and has an error exactly when it fails: "invalid_word" exactly for a pattern failure, "restricted" exactly for a banned word |
| AiServiceModel.TrailingNewlineSlipsThrough | src/core/ai_service.py:99 | the as-written check accepts "hell\n", whose letters are banned, where the full-match check rejects it as invalid |
| AiServiceModel.ValidateAgreesWithoutNewline | src/core/ai_service.py:99 | the two checks agree on every word that does not end in a newline |
| AiServiceModel.ValidateIgnoresCase | src/core/ai_service.py:99-104 | a word and its lower-case form get the same verdict |
| AiServiceModel.CleanReply | src/core/ai_service.py:178-183 | the cleaned reply has no leading or trailing whitespace |
| AiServiceModel.CleanRemovesFence | src/core/ai_service.py:178-183 | a reply wrapped in a "```json" ... "```" block is cleaned to its stripped contents |
| AiServiceModel.CleanKeepsUnfenced | src/core/ai_service.py:178-183 | a reply with no fence is only stripped |
| AiServiceModel.GetWordDefinition | src/core/ai_service.py:108-210 | a word that fails the corrected validation (`ValidateWord`) is answered invalid with no definitions and the validator's error; otherwise 503 for a failed connection, 500 "Internal server error" for a non-200 status or a reply without candidates, and for a 200 reply the parsed cleaned text or, when it does not parse, an invalid answer with "not_in_dictionary"; a valid answer only ever follows a word that passed |
| AiServiceModel.InvalidWordAsksNobody | src/core/ai_service.py:120-128 | a word that fails validation gets the same answer whatever the model would have replied |
| ChallengesRoute.ValidateWords | src/routes/challenges.py:41-48 | the words pass exactly when they are present, non-empty, and all as long as the first |
| ChallengesRoute.CreateChallengeAsWritten | src/routes/challenges.py:28-92 | as written, never a success: always a 500 with no notice; when the words pass and player 2 exists, the new record is stored under the new id and the error is the missing `device_reg_token` field; otherwise the table is unchanged |
| ChallengesRoute.CreateChallenge | src/routes/challenges.py:28-92 | the corrected route: success exactly when the words pass and player 2 exists; every failure, the 404 for a missing player 2 included, is a 500 with no notice and stores nothing; a success stores and returns a record with both players' ids and names, player 1's words, no words for player 2, the given code and turn limit and a word length every word of player 1 has, and invites player 2 when it has a device token |
| ChallengesRoute.CreateFailsAfterStoring | src/routes/challenges.py:56-92 | the route as written stores the same table as the corrected one, answers the same error where that one fails, and answers the missing-field 500 wherever that one succeeds |
| ChallengesRoute.CheckAcceptWords | src/routes/challenges.py:177-186 | the offered words pass exactly when player 1 has words, and they match them in number and in the length of player 1's first word |
| ChallengesRoute.AcceptRefusal | src/routes/challenges.py:173-190 | no refusal exactly when the challenge exists, the offered words pass and the caller is player 2 |
| ChallengesRoute.AcceptChallengeAsWritten | src/routes/challenges.py:160-228 | as written, never a success: always a 400 with no notice; a refused request changes nothing and carries the refusal's text; otherwise player 2's words are stored and the error is the 404 for a missing player 1 or else the missing `device_reg_token` field |
| ChallengesRoute.AcceptChallenge | src/routes/challenges.py:160-228 | the corrected route: success exactly when nothing is refused and player 1 exists; every failure is a 400 with no notice; a refused request changes nothing, otherwise player 2's words are stored (even when player 1 is missing); a success returns the stored record and notifies player 1 when it has a device token |
| ChallengesRoute.AcceptFailsAfterStoring | src/routes/challenges.py:195-228 | the route as written stores the same table as the corrected one, answers the same error where that one fails, and answers the missing-field 400 wherever that one succeeds |
| ChallengesRoute.AcceptedIsPlayable | src/routes/challenges.py:174-198 | after an accept that nothing refuses, whatever its reply, the stored challenge has the same non-zero number of words for both players, all of the challenge's word length |
| ChallengesRoute.CreateThenAccept | src/routes/challenges.py:28-228 | a valid create followed by an accept by player 2 with words of the right number and length leaves a playable record holding both players' words; as written both replies are errors, as corrected both succeed when player 1 is a known user |
| ChallengesRoute.FindChallenge | src/routes/challenges.py:110-133 | the record exactly when it exists and the caller is one of its players; every failure, its own 404 and 403 included, is a 500 |
| ChallengesRoute.AccessRefusal | src/routes/challenges.py:145-150 | no refusal exactly for a player of an existing challenge; 404 for an unknown id, 403 for anyone else |
| ChallengesRoute.UpdateChallenge | src/routes/challenges.py:136-153 | 404 for an unknown id and 403 for a non-player; a body that sets no field gets FastAPI's 500; these change nothing. A success writes exactly the fields the body sets, a null one as none, keeps every other field and record, and returns the stored record |
| ChallengesRoute.NullClearsOnlyItsField | src/repositories/challenges_repository.py:57-83 | a body giving only player 1's words as null clears them and keeps player 2's |
| ChallengesRoute.UpdateIdempotent | src/routes/challenges.py:136-153 | sending the same update twice stores what sending it once does |
| ChallengesRoute.DeleteChallengeAsWritten | src/routes/challenges.py:231-245 | as written, never a success and never a deletion: the table is unchanged, 404 for an unknown id, and FastAPI's 500 exactly for a player of the challenge, because the repository's delete raises |
| ChallengesRoute.DeleteChallenge | src/routes/challenges.py:231-245 | the intended route: success exactly for a player of an existing challenge, removing only that record and returning its id; 404 for an unknown id; a failure changes nothing |
| ChallengesRoute.DeleteChallengeFailsAsWritten | src/repositories/challenges_repository.py:85-93 | both routes refuse alike; wherever the intended route deletes the record, the route as written answers 500 and the record stays |
| ChallengesRoute.OutsidersChangeNothing | src/routes/challenges.py:110-245 | someone who plays neither side of a challenge can neither see, change, accept nor delete it (accepting and deleting as written too) |

## Left out

- Redis, MySQL, Firebase messaging, the WebSocket transport, locks and `asyncio` sleeps are not modelled. Each repository or cache call becomes a parameter, or a map the route reads and writes. The service singletons and their wiring are left out.
- Per-session locks and concurrent sweeps are not modelled: every operation runs to completion on its own.
- Sessions in the manager are values that are written back after each change. Two names for one session object (aliasing) are not modelled.
- GameSessionModel.SessionData.GetCurrentWord: requires `current_round >= 1`. A round of 0 would make Python index from the end of the list, and that is not modelled.
- GameAlgorithm.EvaluateGuess: requires the guess to be no longer than the secret. A longer guess makes the source raise `IndexError` in its second pass.
- GameAlgorithm.EvaluateGuess and BotManagerModel.BotManager.CreateBot fold case with `Upper`/`Lower` from `Strings`, which change the ASCII letters only. Python's `str.upper` and `str.lower` fold every cased letter and can change a word's length (`'ß'.upper()` is `"SS"`), so for words outside ASCII the model's scores and lists may differ from the source's. The same holds for the other uses of `UpperStr` and `LowerStr`.
- GameManagerModel.GameManager.Play: requires the caller to be a player of a known session. The source indexes `players[player_id]` first and raises `KeyError` otherwise.
- BotPlayerModel.SmartBotStrategy.FilterValidWords: requires every confirmed position to lie inside every possible word. The source would raise `IndexError` there.
- GameManagerModel.NewSession, GameManagerModel.Expired and GameManagerModel.VerdictOf take their times as plain integers, read as one clock. The source stamps a session's creation with `datetime.utcnow()` and the cleanup sweep reads `datetime.now()`, the local clock. On a server whose local time is not UTC, the real age limit is two hours shifted by that offset; the model states nothing about the offset between the two clocks, and with a local clock ahead of UTC by two hours or more every session counts as expired at its first sweep.
- GameManagerModel.GameManager.CreateGame: an unexpected exception inside `create_game` is modelled as an error result. The session id is a parameter that must be fresh, because the id the source uses is the subject of a finding below.
- `fishout`, `reveal_letter` and `ai_meaning` are called by `use_power_up` but are not part of this model. The model records which of them is called and with which arguments (a `PowerUpCall`), and does not model what they return.
- `reconnect_bot`, the bots' virtual WebSocket, `start_playing` and `stop_playing` are not modelled: they only drive I/O and timing.
- The heartbeat monitor, the stale-connection cleanup, `disconnect_all`, `_force_disconnect_device` apart from its effect in `connect`, and the Redis mirror of connections are not modelled. Socket states and send outcomes are parameters.
- The payloads of WebSocket messages (welcome, game state, broadcasts) are not modelled. Only who a message reaches is.
- `_restore_active_games` and the session snapshots in Redis are not modelled.
- The `get_lobby` route and `list_challenges` are not modelled: they only read a repository.
- LobbyModel.LobbyManager.GenerateCode: the random draws are a finite parameter. The source draws until it finds a free code; the model reports none when every draw is taken.
- JoinLobby (LobbiesRoute.JoinLobby) is the intended route: a first join answers with the lobby it creates. As written it answers with the lobby whose id is 1; that is `JoinLobbyAsWritten` (see Findings).
- JoinCreatesLobby (LobbiesRoute.JoinCreatesLobby) states the reply of the intended route; for the route as written see `JoinRepliesWithRowOne`, which states the same stored record and the reply with lobby 1.
- LobbiesRoute.JoinLobby: when `create_game` fails, the model gives a 500 with "Internal server error" and leaves out the text of the original error that follows it.
- FastAPI's request validation (422) is modelled for the join request (`LobbiesRoute.ValidRequest`) and the leaderboard's paging parameters, as an error with the fixed text "Unprocessable Entity"; the body FastAPI sends lists the failed fields, and that is not modelled. The other routes' request bodies are taken as already valid. For `create_challenge` that means FastAPI has already checked that the body holds `p1_id`, `p2_id`, both usernames and `p1_secret_words` (possibly null), and a `lobby_code` of four characters when it gives one; the route reads only `p2_id`, the words and the turn limit.
- WaitForMatchStep (MatchmakingQueueModel.MatchmakingQueue.WaitForMatchStep) follows the corrected `Poll`, which files a front caller's match under its partner. The code as written files it under the caller; that is `PollAsWritten` (see Findings).
- PollPairsFront (MatchmakingQueueModel.PollPairsFront) states the pairing of the corrected `Poll`; for the code as written see `PollAsWritten` and `PartnerStrandedAsWritten` (Findings).
- Prepare (BotPlayerModel.SmartBotStrategy.Prepare) folds the attempts in with the corrected `Learn`. The code as written stores upper-case letters; that fold is `LearnAllAsWritten`, and `AsWrittenDrawsFromEveryWord` states what it leads to.
- MakeGuess (BotPlayerModel.SmartBotStrategy.MakeGuess) draws from `SmartPool` over the corrected knowledge. As written the pool is always every possible word of the length (`AsWrittenDrawsFromEveryWord`), so the source's smart bot never narrows its guesses.
- Play (BotPlayerModel.BotPlayer.Play) learns with the corrected `LearnAll` and guesses from `SmartPool` on the smart branch, as `MakeGuess` does; the as-written behaviour is the one `AsWrittenDrawsFromEveryWord` states.
- UpdateKnowledge (BotPlayerModel.SmartBotStrategy.UpdateKnowledge) folds each letter to lower case (`Learn`), the corrected behaviour. The code as written stores the scorer's upper-case letters; that is `LearnAsWritten` (see Findings).
- GetWordDefinition (AiServiceModel.GetWordDefinition) validates with the corrected `ValidateWord`, which refuses a trailing newline. The code as written uses `re.match` with `$`; that is `ValidateWordAsWritten` (see Findings).
- AiServiceModel.GetWordDefinition: the model's JSON parsing and the call to the language model are parameters. JSON that decodes to something other than an object (a list, a string) makes `WordDefinitionResponse(**data)` raise a TypeError, which ends in a 500; the model takes every parse failure as "not_in_dictionary". `_validate_word`'s branch for a word that is not a string has no counterpart, because words are strings here.
- ChallengesRoute.CreateChallenge: the lobby code is a parameter. The repositories' row counts and their own exceptions are not modelled. It is the corrected route: it reads the device tokens from a map from user id, a field the stored user does not have. The route as written is CreateChallengeAsWritten (see Findings).
- ChallengesRoute.UpdateChallenge: the repository's row count is taken as positive, so a success always returns the stored record. MySQL may count a row whose values do not change as unaffected, and then the source returns no record.
- ChallengesRoute.AcceptChallenge is the corrected route in the same way, with the tokens as a map; the route as written is AcceptChallengeAsWritten (see Findings).
- AcceptedIsPlayable (ChallengesRoute.AcceptedIsPlayable) speaks of the record the accept route as written stores, whatever it answers, because that route never answers Ok.
- CreateThenAccept (ChallengesRoute.CreateThenAccept) states the Ok replies of the corrected routes only; for the routes as written it states the two error replies and the stored record.
- GetXpLeaderboard (LeaderboardsRoute.GetXpLeaderboard): `users` stands for what `list_users` returns, and that is at most the first 100 users by XP, its default limit (src/repositories/user_repository.py:127, 161-162). The model does not bound `users`. So in the source the total, the caller's rank and the caller's own row count only those first 100.
- StoreRoute.PurchaseItem and LeaderboardsRoute.GetXpLeaderboard: an exception raised by the user repository itself, beyond the purchase update's outcome, is not modelled.
- LeaderboardsRoute.GenerateFakeLeaderboard: the random draws are parameters, and the model does not check that they fall in the source's ranges.

## Findings

| source | as written | input that shows it | evidently intended | confidence | as-written member | corrected member |
|---|---|---|---|---|---|---|
| src/game/game_manager.py:131 | every game gets the same constant session id | games A–B, then C–D: the second replaces the first in the session table, while A and B stay mapped to it | a fresh id per game, so that the session table and the device table stay consistent | not executed | GameManagerModel.FixedSessionIdStrandsPlayers | GameManagerModel.GameManager.CreateGame |
| src/game/match_making_queue.py:84-90 | a caller at the front of the queue files the match under itself | queue [A, B], and A polls: A gets the match, B has left the queue and waits until it times out | the match filed under the partner, who collects it on its next poll (`Poll`) | not executed | MatchmakingQueueModel.PartnerStrandedAsWritten | MatchmakingQueueModel.PartnerCollectsMatch |
| src/game/bot/bot_player.py:94-131 | the smart bot stores the scorer's upper-case letters and compares them with lower-case words | secret "cat", guess "cot": 'C' is confirmed at 0, so "cat" is judged invalid | letters folded in lower case, so the confirmed and misplaced letters learnt never contradict the secret (a letter guessed twice and present once can still eliminate it, see `RepeatedLetterRejectsSecret`) | not executed | BotPlayerModel.CaseMismatchRejectsSecret | BotPlayerModel.LearnKeepsSecret |
| src/core/ai_service.py:99 | `re.match` with `$` accepts a trailing newline | "hell\n" passes, although "hell" is banned | the whole word must be 3 to 12 letters | not executed | AiServiceModel.TrailingNewlineSlipsThrough | AiServiceModel.ValidateWord |
| src/routes/lobbies.py:119-120 | a first join fetches the new lobby by the value `create_lobby` returns, which is the insert's row count (1), not the new row's id | lobby "AAAA" of user 7 has id 1, and user 8 joins under "BBBB": "BBBB" is stored, and the reply says user 8 hosts "AAAA"; with no lobby of id 1 the reply is 500 "Internal server error: 'NoneType' object has no attribute 'is_ready'" | the reply carries the lobby just created (the insert's new id) | not executed | LobbiesRoute.JoinRepliesWithRowOne | LobbiesRoute.JoinCreatesLobby |
| src/routes/challenges.py:71 | `create_challenge` reads `p2.device_reg_token`, a field `WordleUser` does not define, after the record is stored | any valid request naming an existing player 2: the record is stored and the reply is 500 "Error creating challenge: 'WordleUser' object has no attribute 'device_reg_token'" | the record returned with a success, and player 2 invited when it has a device token | not executed | ChallengesRoute.CreateChallengeAsWritten | ChallengesRoute.CreateChallenge |
| src/routes/challenges.py:206 | `accept_challenge` reads `p1.device_reg_token` the same way, after player 2's words are stored | player 2 accepts with matching words and player 1 exists: the words are stored and the reply is a 400 with the same missing-field text | the record returned with a success, and player 1 notified when it has a device token | not executed | ChallengesRoute.AcceptChallengeAsWritten | ChallengesRoute.AcceptChallenge |
| src/repositories/lobbies_repository.py:124 | `delete_lobby` builds its statement with `QueryManager.delete`, which the query manager does not define | the host deletes its own lobby: the call raises `AttributeError`, the route answers 500 "Internal server error" and the lobby stays | the lobby row deleted and true returned | not executed | LobbiesRoute.DeleteLobbyFailsAsWritten | LobbiesRoute.DeleteLobby |
| src/repositories/challenges_repository.py:88 | `delete_challenge` calls the same missing `QueryManager.delete` | a player deletes its challenge: the call raises, the route has no handler, FastAPI answers 500 and the record stays | the record deleted and its id returned | not executed | ChallengesRoute.DeleteChallengeFailsAsWritten | ChallengesRoute.DeleteChallenge |

=== FILE: ai_service.dfy ===
/**
 * The word-definition service behind the AI-meaning power-up: a local check of the word
 * (letters only, 3 to 12 of them, not a banned word) that answers without any request when it
 * fails, and the cleaning and parsing of the model's reply. The HTTP exchange is a parameter,
 * and so is the JSON decoding of the cleaned reply into a response record.
 */
module AiServiceModel {
  import opened Wrappers
  import opened Strings

  /** The game's banned words. */
  const BannedWords: set<string> := {"fuck", "shit", "damn", "hell", "bitch", "ass", "crap"}

  const InvalidWord := "invalid_word"
  const Restricted := "restricted"
  const NotInDictionary := "not_in_dictionary"

  /** ASCII letters only, as `[a-zA-Z]` accepts. */
  predicate Letters(s: string)
  {
    forall i | 0 <= i < |s| :: IsAsciiLetter(s[i])
  }

  /** `^[a-zA-Z]{3,12}$` matched in full: 3 to 12 ASCII letters and nothing else. */
  predicate WordPattern(w: string)
  {
    3 <= |w| <= 12 && Letters(w)
  }

  /**
   * What `re.match` with `^[a-zA-Z]{3,12}$` accepts: Python's `$` also matches just before a
   * newline that ends the string, so one trailing "\n" gets through.
   */
  predicate WordPatternAsWritten(w: string)
  {
    WordPattern(w) || (|w| >= 1 && w[|w| - 1] == '\n' && WordPattern(w[..|w| - 1]))
  }

  /** `_validate_word` as written, with the pattern test that lets a trailing newline through. */
  function ValidateWordAsWritten(word: string): (r: (bool, Option<string>))
    ensures r.0 <==> WordPatternAsWritten(word) && LowerStr(word) !in BannedWords
  {
    if word == [] then (false, Some(InvalidWord))
    else if !WordPatternAsWritten(word) then (false, Some(InvalidWord))
    else if LowerStr(word) in BannedWords then (false, Some(Restricted))
    else (true, None)
  }

  /**
   * `_validate_word`: "invalid_word" unless the word is 3 to 12 ASCII letters, "restricted"
   * when its lower-case form is banned, and valid otherwise.
   */
  function ValidateWord(word: string): (r: (bool, Option<string>))
    ensures r.0 <==> WordPattern(word) && LowerStr(word) !in BannedWords
    ensures r.0 <==> r.1.None?
    ensures r == (false, Some(InvalidWord)) <==> !WordPattern(word)
    ensures r == (false, Some(Restricted)) <==> WordPattern(word) && LowerStr(word) in BannedWords
  {
    if word == [] then (false, Some(InvalidWord))
    else if !WordPattern(word) then (false, Some(InvalidWord))
    else if LowerStr(word) in BannedWords then (false, Some(Restricted))
    else (true, None)
  }

  /** The as-written check accepts a banned word followed by a newline. */
  lemma TrailingNewlineSlipsThrough()
    ensures ValidateWordAsWritten("hell\n") == (true, None)
    ensures ValidateWord("hell\n") == (false, Some(InvalidWord))
    ensures LowerStr("hell") in BannedWords
  {
    var w := "hell\n";
    assert w[..|w| - 1] == "hell";
    assert LowerStr(w) == w;
    assert w !in BannedWords;
    assert LowerStr("hell") == "hell";
  }

  /** The two checks agree on every word that does not end in a newline. */
  lemma ValidateAgreesWithoutNewline(word: string)
    requires word == [] || word[|word| - 1] != '\n'
    ensures ValidateWordAsWritten(word) == ValidateWord(word)
  {
  }

  /** The check ignores letter case: a word and its lower-case form get the same verdict. */
  lemma ValidateIgnoresCase(word: string)
    ensures ValidateWord(LowerStr(word)) == ValidateWord(word)
  {
    var low := LowerStr(word);
    assert WordPattern(low) <==> WordPattern(word) by {
      if Letters(word) {
        forall i | 0 <= i < |low|
          ensures IsAsciiLetter(low[i])
        {
          assert IsAsciiLetter(word[i]);
        }
      }
      if Letters(low) {
        forall i | 0 <= i < |word|
          ensures IsAsciiLetter(word[i])
        {
          assert IsAsciiLetter(low[i]);
        }
      }
    }
    assert LowerStr(low) == low by {
      forall i | 0 <= i < |low|
        ensures LowerStr(low)[i] == low[i]
      {
        assert Lower(Lower(word[i])) == Lower(word[i]);
      }
    }
  }

  /** The opening and closing fences of a Markdown code block the model may wrap its reply in. */
  const OpenFence := "```json"
  const CloseFence := "```"

  /**
   * The reply cleaning of `get_word_definition`: strip, drop a leading "```json", drop a
   * trailing "```", strip again.
   */
  function CleanReply(text: string): (r: string)
    ensures Unpadded(r)
  {
    var t := Strip(text);
    var t1 := if StartsWith(t, OpenFence) then t[|OpenFence|..] else t;
    var t2 := if EndsWith(t1, CloseFence) then t1[..|t1| - |CloseFence|] else t1;
    Strip(t2)
  }

  /** A reply wrapped in a fenced block is cleaned to its stripped contents. */
  lemma CleanRemovesFence(body: string)
    ensures CleanReply(OpenFence + body + CloseFence) == Strip(body)
  {
    var text := OpenFence + body + CloseFence;
    StripUnpadded(text);
    assert text[..|OpenFence|] == OpenFence;
    var t1 := text[|OpenFence|..];
    assert t1 == body + CloseFence;
    assert t1[|t1| - |CloseFence|..] == CloseFence;
    assert t1[..|t1| - |CloseFence|] == body;
  }

  /** A reply without fences is only stripped. */
  lemma CleanKeepsUnfenced(text: string)
    requires !StartsWith(Strip(text), OpenFence) && !EndsWith(Strip(text), CloseFence)
    ensures CleanReply(text) == Strip(text)
  {
    StripUnpadded(Strip(text));
  }

  datatype Definition = Definition(partOfSpeech: string, meaning: string, example: string)

  datatype WordDefinitionResponse = WordDefinitionResponse(
    word: string, valid: bool, definitions: seq<Definition>, error: Option<string>)

  /**
   * How the request to the model ends: the connection fails, or a reply comes back with its
   * status and the text of its first candidate, if it has any candidate.
   */
  datatype ApiReply = ConnectionFailed | Reply(status: int, text: Option<string>)

  /**
   * `get_word_definition`: a word that fails validation is answered at once, invalid, with no
   * definitions and the validator's error. Otherwise a failed connection gives 503; a non-200
   * status and a reply without candidates give 500 (the blanket handler also turns the
   * status error's own detail into "Internal server error"); a cleaned reply that `parse`
   * cannot decode gives an invalid answer with "not_in_dictionary".
   */
  function GetWordDefinition(word: string, reply: ApiReply, parse: string -> Option<WordDefinitionResponse>)
    : (r: Result<WordDefinitionResponse, HttpError>)
    ensures !ValidateWord(word).0 ==> r == Ok(WordDefinitionResponse(word, false, [], ValidateWord(word).1))
    ensures ValidateWord(word).0 && reply.ConnectionFailed? ==> r == Err(HttpError(503, "AI service unavailable"))
    ensures ValidateWord(word).0 && reply.Reply? && (reply.status != 200 || reply.text.None?) ==>
              r == Err(HttpError(500, "Internal server error"))
    ensures ValidateWord(word).0 && reply.Reply? && reply.status == 200 && reply.text.Some? ==>
              r == Ok(parse(CleanReply(reply.text.value)).GetOr(WordDefinitionResponse(word, false, [], Some(NotInDictionary))))
    ensures r.Ok? && r.value.valid ==> ValidateWord(word).0
  {
    var (ok, error) := ValidateWord(word);
    if !ok then Ok(WordDefinitionResponse(word, false, [], error))
    else match reply
      case ConnectionFailed => Err(HttpError(503, "AI service unavailable"))
      case Reply(status, text) =>
        if status != 200 || text.None? then Err(HttpError(500, "Internal server error"))
        else match parse(CleanReply(text.value))
          case Some(answer) => Ok(answer)
          case None => Ok(WordDefinitionResponse(word, false, [], Some(NotInDictionary)))
  }

  /** A word that fails validation gets the same answer whatever the model would have said. */
  lemma InvalidWordAsksNobody(word: string, reply1: ApiReply, reply2: ApiReply,
                              parse1: string -> Option<WordDefinitionResponse>,
                              parse2: string -> Option<WordDefinitionResponse>)
    requires !ValidateWord(word).0
    ensures GetWordDefinition(word, reply1, parse1) == GetWordDefinition(word, reply2, parse2)
  {
  }
}

=== FILE: bot_manager.dfy ===
/**
 * The registry of computer opponents: one shared word list per allowed word length, the
 * difficulty table that picks a strategy and a reply delay, and the bots created so far.
 * Random draws (the id number, the name, its suffix, the secret word) are parameters or
 * nondeterministic choices.
 */
module BotManagerModel {
  import opened Wrappers
  import opened Strings
  import opened BotPlayerModel

  /** The prefix that marks a player id as a bot's. */
  const BotPrefix := "bot_"

  /** `is_bot`: the id begins with "bot_"; an id shorter than the prefix is never a bot's. */
  predicate IsBot(playerId: string)
    ensures IsBot(playerId) <==> |playerId| >= 4 && playerId[..4] == "bot_"
  {
    StartsWith(playerId, BotPrefix)
  }

  /** The id of a bot whose number drew `n`. */
  function BotId(n: nat): string
  {
    BotPrefix + NatToString(n)
  }

  /** Every id `create_bot` can produce is nine characters long and is recognised as a bot's. */
  lemma BotIdIsBot(n: nat)
    requires 10000 <= n <= 99999
    ensures IsBot(BotId(n)) && |BotId(n)| == 9
  {
    FiveDigits(n);
    assert BotId(n)[..4] == BotPrefix;
  }

  datatype StrategyKind = RandomKind | SmartKind

  /**
   * The difficulty table: "easy" plays at random with a 3 to 7 second delay, "hard" plays
   * smart with 1 to 3 seconds, and anything else plays smart with 2 to 5 seconds.
   */
  function Plan(difficulty: string): (r: (StrategyKind, (int, int)))
    ensures r.0 == RandomKind <==> difficulty == "easy"
    ensures r.1.0 < r.1.1
    ensures difficulty == "hard" ==> r.1 == (1, 3)
  {
    if difficulty == "easy" then (RandomKind, (3, 7))
    else if difficulty == "hard" then (SmartKind, (1, 3))
    else (SmartKind, (2, 5))
  }

  class BotManager {
    const threes: WordList
    const fours: WordList
    const fives: WordList
    const sixes: WordList
    const botNames: seq<string>
    var activeBots: map<string, BotPlayer>

    constructor (threes: WordList, fours: WordList, fives: WordList, sixes: WordList)
      ensures this.threes == threes && this.fours == fours && this.fives == fives && this.sixes == sixes
      ensures activeBots == map[] && |botNames| == 8
    {
      this.threes := threes;
      this.fours := fours;
      this.fives := fives;
      this.sixes := sixes;
      activeBots := map[];
      botNames := ["WordWiz", "LetterLord", "GuessGuru", "VocabVictor", "WordSmith", "LetterLegend",
                   "PuzzlePro", "WordWarden"];
    }

    /** `_get_words_list`: the list for 3 to 6 letters; any other length fails its assertion. */
    function WordsList(length: int): (r: Option<WordList>)
      ensures r.Some? <==> 3 <= length <= 6
      ensures r.Some? ==> r.value in {threes, fours, fives, sixes}
      ensures length == 3 ==> r == Some(threes)
      ensures length == 6 ==> r == Some(sixes)
    {
      if length == 3 then Some(threes)
      else if length == 4 then Some(fours)
      else if length == 5 then Some(fives)
      else if length == 6 then Some(sixes)
      else None
    }

    /** `get_bot`: the bot registered under `botId`, if any. */
    function GetBot(botId: string): (r: Option<BotPlayer>)
      reads this`activeBots
      ensures r.None? <==> botId !in activeBots
      ensures r.Some? ==> r.value == activeBots[botId]
    {
      if botId in activeBots then Some(activeBots[botId]) else None
    }

    /**
     * `create_bot`: a bot with id "bot_" and the drawn five-digit number, the strategy and delay
     * of its difficulty over the list for `wordLength`, a drawn name with a two-digit suffix,
     * and a secret word drawn from that list. It is registered, and the opponent's word, lower
     * cased, is added to the list when it is missing. None when the length is not allowed or
     * the list is empty, where the source raises.
     */
    method CreateBot(difficulty: string, wordLength: int, opponentsWord: Option<string>,
                     idDraw: nat, nameDraw: nat, suffixDraw: nat) returns (bot: Option<BotPlayer>)
      requires 10000 <= idDraw <= 99999 && nameDraw < |botNames| && 10 <= suffixDraw <= 99
      modifies this`activeBots, if WordsList(wordLength).Some? then {WordsList(wordLength).value} else {}
      ensures bot.None? <==> WordsList(wordLength).None? || old(WordsList(wordLength).value.words) == []
      ensures bot.None? ==> activeBots == old(activeBots)
      ensures bot.Some? ==>
        var list := WordsList(wordLength).value;
        var b := bot.value;
        && fresh(b) && b.botId == BotId(idDraw) && IsBot(b.botId)
        && activeBots == old(activeBots)[b.botId := b]
        && b.username == botNames[nameDraw] + NatToString(suffixDraw)
        && b.secretWord in old(list.words) && b.gameSessionId.None?
        && b.difficulty == difficulty && b.delayRange == Plan(difficulty).1
        && (b.strategy.Random? <==> Plan(difficulty).0 == RandomKind)
        && (b.strategy.Random? ==> fresh(b.strategy.random) && b.strategy.random.wordList == list
                                   && b.strategy.random.usedWords == {})
        && (b.strategy.Smart? ==> fresh(b.strategy.smart) && b.strategy.smart.wordList == list
                                  && b.strategy.smart.possibleWords == {} && b.strategy.smart.Knows() == NoKnowledge)
        && list.words == if opponentsWord.Some? && opponentsWord.value != [] && LowerStr(opponentsWord.value) !in old(list.words)
                         then old(list.words) + [LowerStr(opponentsWord.value)]
                         else old(list.words)
    {
      var botId := BotId(idDraw);
      BotIdIsBot(idDraw);
      var found := WordsList(wordLength);
      if found.None? {
        return None;
      }
      var list := found.value;
      var plan := Plan(difficulty);
      var strategy: Strategy;
      if plan.0 == RandomKind {
        var r := new RandomBotStrategy(list);
        strategy := Random(r);
      } else {
        var s := new SmartBotStrategy(list);
        strategy := Smart(s);
      }
      var username := botNames[nameDraw] + NatToString(suffixDraw);
      if list.words == [] {
        return None;
      }
      assert list.words[0] in list.words;
      var secret :| secret in list.words;
      var b := new BotPlayer(botId, username, secret, strategy, difficulty, plan.1);
      activeBots := activeBots[botId := b];
      if opponentsWord.Some? && opponentsWord.value != [] && LowerStr(opponentsWord.value) !in list.words {
        list.words := list.words + [LowerStr(opponentsWord.value)];
      }
      return Some(b);
    }
  }
}

=== FILE: bot_player.dfy ===
/**
 * The computer opponent: two guessing strategies and the player that asks its strategy for a
 * guess when the session gives it the turn.
 *
 * The random strategy draws an unused word of the right length. The smart strategy folds every
 * scored attempt into what it knows (letters confirmed at a position, letters seen at a wrong
 * position, letters eliminated) and draws from the words that agree with it. Random draws are
 * nondeterministic choices here. A word list is an object because the bot manager and the
 * strategies built from it share one list that the manager appends to.
 */
module BotPlayerModel {
  import opened Wrappers
  import opened Strings
  import opened GameAlgorithm
  import opened GameSessionModel

  /** A mutable, shared list of candidate words. */
  class WordList {
    var words: seq<string>

    constructor (words: seq<string>)
      ensures this.words == words
    {
      this.words := words;
    }
  }

  /** `[w for w in words if len(w) == n and w not in used]`. */
  function Keep(words: seq<string>, n: int, used: set<string>): (r: seq<string>)
    ensures forall w :: w in r <==> w in words && |w| == n && w !in used
  {
    if |words| == 0 then []
    else (if |words[0]| == n && words[0] !in used then [words[0]] else []) + Keep(words[1..], n, used)
  }

  // ---------------------------------------------------------------------------------------
  // Random strategy

  /**
   * The list `RandomBotStrategy.make_guess` draws from: the words offered when there are any,
   * else the unused words of length `n`, else every word of length `n`.
   */
  function RandomPool(words: seq<string>, used: set<string>, n: int, offered: Option<seq<string>>): (r: seq<string>)
    ensures offered.Some? && offered.value != [] ==> r == offered.value
    ensures offered.None? || offered.value == [] ==> (r == [] <==> forall w | w in words :: |w| != n)
  {
    if offered.Some? && offered.value != [] then offered.value
    else if Keep(words, n, used) != [] then
      var unused := Keep(words, n, used);
      assert unused[0] in unused;
      unused
    else
      var any := Keep(words, n, {});
      assert any != [] ==> any[0] in any;
      any
  }

  /**
   * Without offered words, the random bot guesses a word of the list of length `n`, and one it
   * has not used yet unless it has used them all.
   */
  lemma RandomGuessPrefersUnused(words: seq<string>, used: set<string>, n: int, offered: Option<seq<string>>, guess: string)
    requires offered.None? || offered.value == []
    requires guess in RandomPool(words, used, n, offered)
    ensures guess in words && |guess| == n
    ensures guess !in used || forall w | w in words && |w| == n :: w in used
  {
    if Keep(words, n, used) == [] {
      forall w | w in words && |w| == n
        ensures w in used
      {
        assert w !in Keep(words, n, used);
      }
    }
  }

  class RandomBotStrategy {
    const wordList: WordList
    var usedWords: set<string>

    constructor (wordList: WordList)
      ensures this.wordList == wordList && usedWords == {}
    {
      this.wordList := wordList;
      usedWords := {};
    }

    /**
     * `make_guess`: a draw from the pool, which is then remembered as used; none when the pool
     * is empty, where `random.choice` raises.
     */
    method MakeGuess(wordLength: int, offered: Option<seq<string>>) returns (guess: Option<string>)
      modifies this`usedWords
      ensures guess.Some? <==> RandomPool(wordList.words, old(usedWords), wordLength, offered) != []
      ensures guess.Some? ==> guess.value in RandomPool(wordList.words, old(usedWords), wordLength, offered)
      ensures usedWords == if guess.Some? then old(usedWords) + {guess.value} else old(usedWords)
    {
      var available := RandomPool(wordList.words, usedWords, wordLength, offered);
      if available == [] {
        return None;
      }
      assert available[0] in available;
      var g :| g in available;
      usedWords := usedWords + {g};
      return Some(g);
    }
  }

  // ---------------------------------------------------------------------------------------
  // Smart strategy: knowledge

  /** What the smart strategy has learnt from the scored attempts. */
  datatype Knowledge = Knowledge(confirmed: map<nat, char>, wrong: map<char, set<nat>>, eliminated: set<char>)

  const NoKnowledge := Knowledge(map[], map[], {})

  /**
   * One scored letter folded in: a correct letter is confirmed at its position, a misplaced one
   * recorded as wrong at its position, an absent one eliminated.
   */
  function Note(k: Knowledge, i: nat, c: char, state: LetterState): Knowledge
  {
    match state
    case Correct => k.(confirmed := k.confirmed[i := c])
    case Misplaced => k.(wrong := k.wrong[c := (if c in k.wrong then k.wrong[c] else {}) + {i}])
    case Absent => k.(eliminated := k.eliminated + {c})
  }

  /**
   * `_update_knowledge` as written, over the first `n` letters: the letter is stored as the
   * scorer reports it, which is upper case.
   */
  function LearnAsWritten(k: Knowledge, ls: seq<LetterResult>, n: nat): Knowledge
    requires n <= |ls|
  {
    if n == 0 then k else Note(LearnAsWritten(k, ls, n - 1), n - 1, ls[n - 1].letter, ls[n - 1].state)
  }

  /**
   * `_update_knowledge` with the letter brought back to the lower case of the word lists,
   * over the first `n` letters.
   */
  function Learn(k: Knowledge, ls: seq<LetterResult>, n: nat): Knowledge
    requires n <= |ls|
  {
    if n == 0 then k else Note(Learn(k, ls, n - 1), n - 1, Lower(ls[n - 1].letter), ls[n - 1].state)
  }

  /** Every attempt folded in, in order. */
  function LearnAll(k: Knowledge, attempts: seq<GuessResult>): Knowledge
  {
    if |attempts| == 0 then k
    else
      var last := attempts[|attempts| - 1];
      Learn(LearnAll(k, attempts[..|attempts| - 1]), last.letters, |last.letters|)
  }

  /** The positions of the first `n` letters in state `x` whose lower-cased letter is `c`. */
  function PositionsOf(ls: seq<LetterResult>, n: nat, c: char, x: LetterState): set<nat>
    requires n <= |ls|
  {
    set i: nat | i < n && ls[i].state == x && Lower(ls[i].letter) == c
  }

  /** Eliminated letters: those before, and every absent letter. */
  lemma {:induction false} LearnEliminated(k: Knowledge, ls: seq<LetterResult>, n: nat)
    requires n <= |ls|
    ensures Learn(k, ls, n).eliminated == k.eliminated + set i | 0 <= i < n && ls[i].state == Absent :: Lower(ls[i].letter)
  {
    if n > 0 {
      LearnEliminated(k, ls, n - 1);
    }
  }

  /**
   * Confirmed letters: every correct position holds its letter; every other position keeps
   * what was confirmed before.
   */
  lemma {:induction false} LearnConfirmed(k: Knowledge, ls: seq<LetterResult>, n: nat)
    requires n <= |ls|
    ensures var r := Learn(k, ls, n).confirmed;
      && (forall p: nat :: p in r <==> p in k.confirmed || (p < n && ls[p].state == Correct))
      && (forall p: nat | p < n && ls[p].state == Correct :: r[p] == Lower(ls[p].letter))
      && (forall p: nat | p in k.confirmed && !(p < n && ls[p].state == Correct) :: r[p] == k.confirmed[p])
  {
    if n > 0 {
      LearnConfirmed(k, ls, n - 1);
    }
  }

  /** One more letter adds its position to its letter's positions when it is in state `x`. */
  lemma PositionsOfStep(ls: seq<LetterResult>, n: nat, d: char, x: LetterState)
    requires 0 < n <= |ls|
    ensures PositionsOf(ls, n, d, x)
         == PositionsOf(ls, n - 1, d, x) + (if ls[n - 1].state == x && Lower(ls[n - 1].letter) == d then {n - 1} else {})
  {
  }

  /** Wrong positions: each letter gains exactly the positions where it was misplaced. */
  lemma {:induction false} LearnWrong(k: Knowledge, ls: seq<LetterResult>, n: nat)
    requires n <= |ls|
    ensures var r := Learn(k, ls, n).wrong;
      && (forall c :: c in r <==> c in k.wrong || PositionsOf(ls, n, c, Misplaced) != {})
      && (forall c | c in r :: r[c] == (if c in k.wrong then k.wrong[c] else {}) + PositionsOf(ls, n, c, Misplaced))
  {
    if n > 0 {
      LearnWrong(k, ls, n - 1);
      var c := Lower(ls[n - 1].letter);
      var prev := Learn(k, ls, n - 1).wrong;
      var r := Learn(k, ls, n).wrong;
      var hit := ls[n - 1].state == Misplaced;
      assert r == if hit then prev[c := (if c in prev then prev[c] else {}) + {n - 1}] else prev;
      forall d
        ensures d in r <==> d in k.wrong || PositionsOf(ls, n, d, Misplaced) != {}
        ensures d in r ==> r[d] == (if d in k.wrong then k.wrong[d] else {}) + PositionsOf(ls, n, d, Misplaced)
      {
        PositionsOfStep(ls, n, d, Misplaced);
        if hit && d == c {
          assert n - 1 in PositionsOf(ls, n, d, Misplaced);
        }
      }
    }
  }

  /**
   * Folding the same attempt in twice learns nothing new: the bot re-reads every previous
   * attempt on each turn, and that is harmless.
   */
  lemma LearnIdempotent(k: Knowledge, ls: seq<LetterResult>)
    ensures Learn(Learn(k, ls, |ls|), ls, |ls|) == Learn(k, ls, |ls|)
  {
    var n := |ls|;
    var k1 := Learn(k, ls, n);
    var k2 := Learn(k1, ls, n);
    LearnEliminated(k, ls, n);
    LearnEliminated(k1, ls, n);
    LearnConfirmed(k, ls, n);
    LearnConfirmed(k1, ls, n);
    LearnWrong(k, ls, n);
    LearnWrong(k1, ls, n);
    assert k2.confirmed == k1.confirmed;
    assert k2.wrong == k1.wrong;
  }

  // ---------------------------------------------------------------------------------------
  // Smart strategy: which words agree with the knowledge

  /** Every confirmed position exists in `word` and holds the confirmed letter. */
  predicate FitsConfirmed(k: Knowledge, word: string)
  {
    forall p | p in k.confirmed :: p < |word| && word[p] == k.confirmed[p]
  }

  /** No eliminated letter occurs in `word`. */
  predicate AvoidsEliminated(k: Knowledge, word: string)
  {
    forall c | c in k.eliminated :: c !in word
  }

  /** Every misplaced letter occurs in `word`, and not at a position where it was misplaced. */
  predicate PlacesMisplaced(k: Knowledge, word: string)
  {
    forall c | c in k.wrong :: c in word && forall p | p in k.wrong[c] && p < |word| :: word[p] != c
  }

  /**
   * `_is_word_valid`. The source indexes `word` at every confirmed position; its callers
   * guarantee the positions are in range, and under that guarantee the range test here adds
   * nothing.
   */
  predicate IsWordValid(k: Knowledge, word: string)
  {
    FitsConfirmed(k, word) && AvoidsEliminated(k, word) && PlacesMisplaced(k, word)
  }

  /** No upper-case ASCII letter, as in the bot word lists. */
  predicate NoUpper(w: string)
  {
    forall i | 0 <= i < |w| :: !IsUpperAscii(w[i])
  }

  lemma LowerUpper(c: char)
    requires !IsUpperAscii(c)
    ensures Lower(Upper(c)) == c
  {
  }

  lemma UpperLowerUpper(c: char)
    ensures Upper(Lower(Upper(c))) == Upper(c)
  {
  }

  /**
   * Folding in the first `n` letters of a score against `secret` keeps the secret consistent
   * with the confirmed and the misplaced letters.
   */
  lemma {:induction false} LearnKeepsSecretUpTo(k: Knowledge, secret: string, guess: string, n: nat)
    requires |guess| == |secret| && n <= |Evaluate(secret, guess).letters| && NoUpper(secret)
    requires FitsConfirmed(k, secret) && PlacesMisplaced(k, secret)
    ensures var l := Learn(k, Evaluate(secret, guess).letters, n);
      FitsConfirmed(l, secret) && PlacesMisplaced(l, secret)
  {
    EvaluateShape(secret, guess);
    var ls := Evaluate(secret, guess).letters;
    if n > 0 {
      LearnKeepsSecretUpTo(k, secret, guess, n - 1);
      var prev := Learn(k, ls, n - 1);
      var i := n - 1;
      var c := Lower(ls[i].letter);
      assert ls[i].letter == Upper(guess[i]);
      UpperLowerUpper(guess[i]);
      match ls[i].state
      case Correct =>
        CorrectIff(secret, guess, i);
        LowerUpper(secret[i]);
        assert c == secret[i];
      case Misplaced =>
        MisplacedIff(secret, guess, i);
        var s, g := UpperStr(secret), UpperStr(guess);
        AvailPrev(s, g, g[i], |s|);
        var p :| 0 <= p < |s| && !Matched(s, g, p) && s[p] == g[i] && Avail(s, g, g[i], p) == Avail(s, g, g[i], |s|) - 1;
        LowerUpper(secret[p]);
        assert secret[p] == c;
        assert secret[i] != c by {
          assert Upper(c) == Upper(guess[i]);
          assert Upper(secret[i]) != Upper(guess[i]);
        }
        var l := Note(prev, i, c, Misplaced);
        forall d | d in l.wrong
          ensures d in secret && forall q | q in l.wrong[d] && q < |secret| :: secret[q] != d
        {
          if d != c {
            assert l.wrong[d] == prev.wrong[d];
          }
        }
      case Absent =>
    }
  }

  /**
   * The intended property: knowledge learnt from a score against `secret` (a word of a
   * lower-case list) never contradicts `secret` in its confirmed or misplaced letters.
   */
  lemma LearnKeepsSecret(k: Knowledge, secret: string, guess: string)
    requires |guess| == |secret| && NoUpper(secret)
    requires FitsConfirmed(k, secret) && PlacesMisplaced(k, secret)
    ensures var ls := Evaluate(secret, guess).letters;
      FitsConfirmed(Learn(k, ls, |ls|), secret) && PlacesMisplaced(Learn(k, ls, |ls|), secret)
  {
    EvaluateShape(secret, guess);
    LearnKeepsSecretUpTo(k, secret, guess, |guess|);
  }

  /**
   * As written, one correct letter is enough to make the lower-case secret invalid: scoring
   * "cot" against "cat" confirms 'C' at position 0, which no lower-case word holds.
   */
  lemma CaseMismatchRejectsSecret()
    ensures var ls := Evaluate("cat", "cot").letters;
      |ls| == 3 && !IsWordValid(LearnAsWritten(NoKnowledge, ls, 3), "cat")
  {
    EvaluateShape("cat", "cot");
    CorrectIff("cat", "cot", 0);
    var ls := Evaluate("cat", "cot").letters;
    assert ls[0] == LetterResult('C', Correct);
    var k := LearnAsWritten(NoKnowledge, ls, 3);
    assert LearnAsWritten(NoKnowledge, ls, 1).confirmed == map[0 := 'C'];
    assert 0 in k.confirmed && k.confirmed[0] == 'C' by {
      assert LearnAsWritten(NoKnowledge, ls, 2).confirmed[0] == 'C';
    }
  }

  /**
   * Even with the case repaired, a letter that is guessed twice and occurs once in the secret
   * is scored absent at one position and eliminated, which rules out the secret: "tat" scored
   * against "cat".
   */
  lemma RepeatedLetterRejectsSecret()
    ensures var ls := Evaluate("cat", "tat").letters;
      |ls| == 3 && ls[0].state == Absent && !IsWordValid(Learn(NoKnowledge, ls, 3), "cat")
  {
    EvaluateShape("cat", "tat");
    var ls := Evaluate("cat", "tat").letters;
    var s, g := UpperStr("cat"), UpperStr("tat");
    CorrectIff("cat", "tat", 0);
    MisplacedIff("cat", "tat", 0);
    assert s == "CAT" && g == "TAT";
    assert Avail(s, g, 'T', 3) == 0;
    LearnEliminated(NoKnowledge, ls, 3);
    assert 't' in Learn(NoKnowledge, ls, 3).eliminated by {
      assert Lower(ls[0].letter) == 't';
    }
    assert "cat"[2] == 't';
  }

  /**
   * The pool `SmartBotStrategy.make_guess` draws from: the possible words that agree with the
   * knowledge; when none does, every possible word; and when there are none, the words of
   * length `n`.
   */
  function SmartPool(possible: set<string>, k: Knowledge, words: seq<string>, n: int): set<string>
  {
    var valid := set w | w in possible && IsWordValid(k, w);
    if valid != {} then valid
    else if possible != {} then possible
    else set w | w in words && |w| == n
  }

  // ---------------------------------------------------------------------------------------
  // Smart strategy as written: what upper-case knowledge does to the pool

  /** Every letter the knowledge holds is an upper-case ASCII letter, as the scorer reports it. */
  predicate UpperOnly(k: Knowledge)
  {
    && (forall p | p in k.confirmed :: IsUpperAscii(k.confirmed[p]))
    && (forall c | c in k.wrong :: IsUpperAscii(c))
    && (forall c | c in k.eliminated :: IsUpperAscii(c))
  }

  /** Every attempt folded in with `LearnAsWritten`, in order. */
  function LearnAllAsWritten(k: Knowledge, attempts: seq<GuessResult>): Knowledge
  {
    if |attempts| == 0 then k
    else
      var last := attempts[|attempts| - 1];
      LearnAsWritten(LearnAllAsWritten(k, attempts[..|attempts| - 1]), last.letters, |last.letters|)
  }

  /** Every scored letter of every attempt is an upper-case ASCII letter. */
  predicate UpperScores(attempts: seq<GuessResult>)
  {
    forall a, i | a in attempts && 0 <= i < |a.letters| :: IsUpperAscii(a.letters[i].letter)
  }

  lemma {:induction false} LearnAsWrittenUpper(k: Knowledge, ls: seq<LetterResult>, n: nat)
    requires n <= |ls| && UpperOnly(k)
    requires forall i | 0 <= i < |ls| :: IsUpperAscii(ls[i].letter)
    ensures UpperOnly(LearnAsWritten(k, ls, n))
  {
    if n > 0 {
      LearnAsWrittenUpper(k, ls, n - 1);
    }
  }

  /** Folding upper-case scores into upper-case knowledge, as written, keeps it upper-case. */
  lemma {:induction false} LearnAllAsWrittenUpper(k: Knowledge, attempts: seq<GuessResult>)
    requires UpperOnly(k) && UpperScores(attempts)
    ensures UpperOnly(LearnAllAsWritten(k, attempts))
  {
    if |attempts| > 0 {
      var last := attempts[|attempts| - 1];
      assert UpperScores(attempts[..|attempts| - 1]) by {
        forall a | a in attempts[..|attempts| - 1] ensures a in attempts { }
      }
      LearnAllAsWrittenUpper(k, attempts[..|attempts| - 1]);
      assert last in attempts;
      LearnAsWrittenUpper(LearnAllAsWritten(k, attempts[..|attempts| - 1]), last.letters, |last.letters|);
    }
  }

  /**
   * Against lower-case words, upper-case knowledge filters nothing: with a confirmed or a
   * misplaced letter no word agrees and the pool falls back to every possible word, and
   * without one every word agrees. Either way the pool is every possible word.
   */
  lemma UpperKnowledgeFiltersNothing(possible: set<string>, k: Knowledge, words: seq<string>, n: int)
    requires UpperOnly(k) && forall w | w in possible :: NoUpper(w)
    ensures SmartPool(possible, k, words, n) == if possible != {} then possible else set w | w in words && |w| == n
  {
    var valid := set w | w in possible && IsWordValid(k, w);
    if k.confirmed == map[] && k.wrong == map[] {
      forall w | w in possible ensures IsWordValid(k, w)
      {
        forall c | c in k.eliminated ensures c !in w
        {
          assert forall i | 0 <= i < |w| :: w[i] != c;
        }
      }
      assert valid == possible;
    } else {
      forall w | w in possible ensures !IsWordValid(k, w)
      {
        if p :| p in k.confirmed {
          if p < |w| {
            assert !IsUpperAscii(w[p]);
          }
        } else {
          var c :| c in k.wrong;
          assert forall i | 0 <= i < |w| :: w[i] != c;
        }
      }
      assert valid == {};
    }
  }

  /**
   * The smart bot as written never narrows its choice: after any scored attempts of ASCII
   * words, the pool it draws from is every possible word of the lower-case lists.
   */
  lemma AsWrittenDrawsFromEveryWord(possible: set<string>, attempts: seq<GuessResult>, words: seq<string>, n: int)
    requires UpperScores(attempts) && forall w | w in possible :: NoUpper(w)
    ensures SmartPool(possible, LearnAllAsWritten(NoKnowledge, attempts), words, n)
            == if possible != {} then possible else set w | w in words && |w| == n
  {
    LearnAllAsWrittenUpper(NoKnowledge, attempts);
    UpperKnowledgeFiltersNothing(possible, LearnAllAsWritten(NoKnowledge, attempts), words, n);
  }

  class SmartBotStrategy {
    const wordList: WordList
    var possibleWords: set<string>
    var eliminatedLetters: set<char>
    var confirmedLetters: map<nat, char>
    var wrongPositions: map<char, set<nat>>

    function Knows(): Knowledge
      reads this`eliminatedLetters, this`confirmedLetters, this`wrongPositions
    {
      Knowledge(confirmedLetters, wrongPositions, eliminatedLetters)
    }

    /** Every possible word has `n` letters and every confirmed position is below `n`. */
    predicate FitsLength(n: int)
      reads this`possibleWords, this`confirmedLetters
    {
      (forall w | w in possibleWords :: |w| == n) && (forall p | p in confirmedLetters :: p < n)
    }

    constructor (wordList: WordList)
      ensures this.wordList == wordList && possibleWords == {} && Knows() == NoKnowledge
    {
      this.wordList := wordList;
      possibleWords := {};
      eliminatedLetters := {};
      confirmedLetters := map[];
      wrongPositions := map[];
    }

    /** `_update_knowledge`: every letter of the attempt folded in, position by position. */
    method UpdateKnowledge(attempt: GuessResult)
      modifies this`eliminatedLetters, this`confirmedLetters, this`wrongPositions
      ensures Knows() == Learn(old(Knows()), attempt.letters, |attempt.letters|)
    {
      var ls := attempt.letters;
      ghost var k0 := Knows();
      for i := 0 to |ls|
        invariant Knows() == Learn(k0, ls, i)
      {
        var letter := Lower(ls[i].letter);
        match ls[i].state
        case Correct =>
          confirmedLetters := confirmedLetters[i := letter];
        case Misplaced =>
          if letter !in wrongPositions {
            wrongPositions := wrongPositions[letter := {}];
          }
          wrongPositions := wrongPositions[letter := wrongPositions[letter] + {i}];
        case Absent =>
          eliminatedLetters := eliminatedLetters + {letter};
      }
    }

    /**
     * `_filter_valid_words`: each possible word that agrees with the knowledge, once. The
     * source indexes the words at the confirmed positions, so they must be in range.
     */
    method FilterValidWords() returns (valid: seq<string>)
      requires forall w, p | w in possibleWords && p in confirmedLetters :: p < |w|
      ensures forall w :: w in valid <==> w in possibleWords && IsWordValid(Knows(), w)
      ensures forall i, j | 0 <= i < j < |valid| :: valid[i] != valid[j]
    {
      valid := [];
      var rest := possibleWords;
      while rest != {}
        invariant rest <= possibleWords
        invariant forall w :: w in valid <==> w in possibleWords - rest && IsWordValid(Knows(), w)
        invariant forall i, j | 0 <= i < j < |valid| :: valid[i] != valid[j]
        decreases |rest|
      {
        var w :| w in rest;
        if IsWordValid(Knows(), w) {
          valid := valid + [w];
        }
        rest := rest - {w};
      }
    }

    /** `make_guess` up to the draw: fill the possible words if empty, then learn from the attempts. */
    method Prepare(wordLength: int, attempts: seq<GuessResult>)
      requires FitsLength(wordLength)
      requires forall a | a in attempts :: |a.letters| <= wordLength
      modifies this`possibleWords, this`eliminatedLetters, this`confirmedLetters, this`wrongPositions
      ensures FitsLength(wordLength)
      ensures possibleWords == if old(possibleWords) == {} then set w | w in wordList.words && |w| == wordLength
                               else old(possibleWords)
      ensures Knows() == LearnAll(old(Knows()), attempts)
    {
      if possibleWords == {} {
        possibleWords := set w | w in wordList.words && |w| == wordLength;
      }
      ghost var k0 := Knows();
      ghost var possible := possibleWords;
      for j := 0 to |attempts|
        invariant possibleWords == possible
        invariant FitsLength(wordLength)
        invariant Knows() == LearnAll(k0, attempts[..j])
      {
        ghost var before := Knows();
        UpdateKnowledge(attempts[j]);
        LearnConfirmed(before, attempts[j].letters, |attempts[j].letters|);
        assert attempts[..j + 1][..j] == attempts[..j];
      }
      assert attempts[..|attempts|] == attempts;
    }

    /**
     * `make_guess`: a draw from `SmartPool` after learning from every attempt; none when the
     * pool is empty, where `random.choice` raises.
     */
    method MakeGuess(wordLength: int, attempts: seq<GuessResult>) returns (guess: Option<string>)
      requires FitsLength(wordLength)
      requires forall a | a in attempts :: |a.letters| <= wordLength
      modifies this`possibleWords, this`eliminatedLetters, this`confirmedLetters, this`wrongPositions
      ensures FitsLength(wordLength)
      ensures possibleWords == if old(possibleWords) == {} then set w | w in wordList.words && |w| == wordLength
                               else old(possibleWords)
      ensures Knows() == LearnAll(old(Knows()), attempts)
      ensures guess.Some? <==> SmartPool(possibleWords, Knows(), wordList.words, wordLength) != {}
      ensures guess.Some? ==> guess.value in SmartPool(possibleWords, Knows(), wordList.words, wordLength)
      ensures guess.Some? ==> |guess.value| == wordLength
    {
      Prepare(wordLength, attempts);
      var valid := FilterValidWords();
      var pool: set<string>;
      if valid != [] {
        pool := set w | w in valid;
      } else {
        pool := if possibleWords != {} then possibleWords else set w | w in wordList.words && |w| == wordLength;
      }
      assert pool == SmartPool(possibleWords, Knows(), wordList.words, wordLength) by {
        var agreeing := set w | w in possibleWords && IsWordValid(Knows(), w);
        if valid == [] {
          assert agreeing == {};
        } else {
          assert valid[0] in agreeing;
          assert pool == agreeing;
        }
      }
      if pool == {} {
        return None;
      }
      var g :| g in pool;
      return Some(g);
    }
  }

  // ---------------------------------------------------------------------------------------
  // The bot as a player

  datatype Strategy = Random(random: RandomBotStrategy) | Smart(smart: SmartBotStrategy)

  class BotPlayer {
    const botId: string
    const username: string
    const strategy: Strategy
    const difficulty: string
    const delayRange: (int, int)
    var secretWord: string
    var gameSessionId: Option<string>

    constructor (botId: string, username: string, secretWord: string, strategy: Strategy, difficulty: string,
                 delayRange: (int, int))
      ensures this.botId == botId && this.username == username && this.secretWord == secretWord
      ensures this.strategy == strategy && this.difficulty == difficulty && this.delayRange == delayRange
      ensures gameSessionId.None?
    {
      this.botId := botId;
      this.username := username;
      this.strategy := strategy;
      this.difficulty := difficulty;
      this.delayRange := delayRange;
      this.secretWord := secretWord;
      gameSessionId := None;
    }

    /** `set_game_context`. */
    method SetGameContext(sessionId: string, secret: string)
      modifies this
      ensures gameSessionId == Some(sessionId) && secretWord == secret
    {
      gameSessionId := Some(sessionId);
      secretWord := secret;
    }

    /** The session is in progress, the bot plays in it, and its role has the turn. */
    predicate OnTurn(session: Option<SessionData>)
    {
      && session.Some? && session.value.gameState == InProgress
      && session.value.GetPlayerById(botId).Some?
      && session.value.currentTurn == session.value.GetPlayerById(botId).value.role
    }

    /**
     * The results of the bot's attempts up to the first one without a result: the attempts the
     * smart strategy learns from before it fails on a missing one.
     */
    function LeadingResults(atts: seq<GuessAttempt>): (r: seq<GuessResult>)
      ensures |r| <= |atts|
      ensures forall j | 0 <= j < |r| :: atts[j].result == Some(r[j])
      ensures |r| < |atts| ==> atts[|r|].result.None?
    {
      if atts == [] || atts[0].result.None? then []
      else [atts[0].result.value] + LeadingResults(atts[1..])
    }

    function StrategyObject(): set<object>
    {
      match strategy
      case Random(r) => {r}
      case Smart(s) => {s}
    }

    /**
     * `play`: the bot's next guess when it has the turn, and none otherwise. The random bot
     * draws from `RandomPool`; the smart bot learns from its attempts and draws from
     * `SmartPool`. A smart bot meets an attempt without a result only after learning from the
     * ones before it, and then raises inside the source's try-block; an empty pool raises
     * too. Either way the reply is none.
     */
    method Play(session: Option<SessionData>) returns (guess: Option<string>)
      requires OnTurn(session) && strategy.Smart? ==>
        && strategy.smart.FitsLength(session.value.settings.wordLength)
        && forall a | a in session.value.GetPlayerById(botId).value.attempts && a.result.Some? ::
             |a.result.value.letters| <= session.value.settings.wordLength
      modifies StrategyObject()
      ensures guess.Some? ==> OnTurn(session) && |guess.value| == session.value.settings.wordLength
      ensures !OnTurn(session) ==> match strategy
        case Random(r) => unchanged(r)
        case Smart(sm) => unchanged(sm)
      ensures OnTurn(session) && strategy.Random? ==>
        var r := strategy.random;
        var pool := RandomPool(r.wordList.words, old(r.usedWords), session.value.settings.wordLength, None);
        && (guess.Some? <==> pool != [])
        && (guess.Some? ==> guess.value in pool)
        && r.usedWords == if guess.Some? then old(r.usedWords) + {guess.value} else old(r.usedWords)
      ensures OnTurn(session) && strategy.Smart? ==>
        var sm := strategy.smart;
        var n := session.value.settings.wordLength;
        var atts := session.value.GetPlayerById(botId).value.attempts;
        var learnt := LeadingResults(atts);
        && sm.possibleWords == (if old(sm.possibleWords) == {} then set w | w in sm.wordList.words && |w| == n
                                else old(sm.possibleWords))
        && sm.Knows() == LearnAll(old(sm.Knows()), learnt)
        && (guess.Some? <==> |learnt| == |atts| && SmartPool(sm.possibleWords, sm.Knows(), sm.wordList.words, n) != {})
        && (guess.Some? ==> guess.value in SmartPool(sm.possibleWords, sm.Knows(), sm.wordList.words, n))
    {
      if !OnTurn(session) {
        return None;
      }
      var s := session.value;
      var wordLength := s.settings.wordLength;
      match strategy
      case Random(r) =>
        guess := r.MakeGuess(wordLength, None);
        if guess.Some? {
          RandomGuessPrefersUnused(r.wordList.words, old(r.usedWords), wordLength, None, guess.value);
        }
      case Smart(sm) =>
        var atts := s.GetPlayerById(botId).value.attempts;
        var learnt := LeadingResults(atts);
        forall a | a in learnt
          ensures |a.letters| <= wordLength
        {
          var j :| 0 <= j < |learnt| && learnt[j] == a;
          assert atts[j] in atts;
        }
        if |learnt| < |atts| {
          sm.Prepare(wordLength, learnt);
          return None;
        }
        guess := sm.MakeGuess(wordLength, learnt);
    }
  }
}

=== FILE: challenges.dfy ===
/**
 * The challenge endpoints: one player challenges another with a list of secret words of one
 * length, the challenged player accepts with as many words of that length, and either player
 * may view, update or delete the challenge. The challenge table is a map from id to record
 * and the user table a map from id to user; the lobby code and the new record's id are given.
 *
 * The stored user has no device registration token, yet create and accept read one once the
 * record is written, so as written both fail after storing: `CreateChallengeAsWritten` and
 * `AcceptChallengeAsWritten`. `CreateChallenge` and `AcceptChallenge` are the intended routes,
 * with the tokens given as a map from user id; their push notifications are recorded as the
 * notice the route would queue.
 *
 * The repository's delete calls a statement builder the query manager lacks, so as written a
 * delete the checks let through fails with 500 (`DeleteChallengeAsWritten`); `DeleteChallenge`
 * is the intended route.
 */
module ChallengesRoute {
  import opened Wrappers
  import opened Strings

  datatype Challenge = Challenge(
    id: int, p1Id: int, p2Id: int, p1Username: string, p2Username: string,
    p1Words: Option<seq<string>>, p2Words: Option<seq<string>>,
    lobbyCode: string, wordLength: int, turnTimeLimit: int)

  /** The body of a create request. */
  datatype ChallengeRequest = ChallengeRequest(p2Id: int, p1Words: Option<seq<string>>, turnTimeLimit: int)

  /** The fields of a stored user the routes read. */
  datatype User = User(id: int, username: string)

  /** A push notification queued for a device token. */
  datatype Notice = Notice(token: string, kind: string, challengeId: int)

  /** Whether `user` takes part in `c`. */
  predicate Participant(c: Challenge, userId: int)
  {
    c.p1Id == userId || c.p2Id == userId
  }

  /** Every word of `ws` has `n` letters. */
  predicate AllOfLength(ws: seq<string>, n: int)
  {
    forall i | 0 <= i < |ws| :: |ws[i]| == n
  }

  /** The notice for the user `userId` when `tokens` holds a non-empty device token for it. */
  function NoticeFor(tokens: map<int, string>, userId: int, kind: string, challengeId: int): Option<Notice>
  {
    if userId in tokens && tokens[userId] != [] then Some(Notice(tokens[userId], kind, challengeId)) else None
  }

  /** The detail of the error raised on reading the token field the stored user lacks. */
  const MissingTokenField := "'WordleUser' object has no attribute 'device_reg_token'"

  /**
   * `_validate` of `create_challenge`: the message of the assertion that fails, if any. The
   * list must be present and non-empty, and every word as long as the first.
   */
  function ValidateWords(words: Option<seq<string>>): (r: Option<string>)
    ensures r.None? <==> words.Some? && words.value != [] && AllOfLength(words.value, |words.value[0]|)
  {
    if words.None? || words.value == [] then Some("Secret words must not be empty")
    else if !AllOfLength(words.value, |words.value[0]|) then Some("Words cannot be of different lengths")
    else None
  }

  /** What a create request answers, the challenge table after it, and the notice it queues. */
  datatype CreateResult = CreateResult(reply: Result<Challenge, HttpError>, challenges: map<int, Challenge>,
                                       notice: Option<Notice>)

  const CreateError := "Error creating challenge: "

  /**
   * The record `create_challenge` stores: both players' ids and names, player 1's words, no
   * words for player 2, the length of the first word, the lobby code and the turn limit.
   */
  function NewChallenge(req: ChallengeRequest, caller: User, p2: User, code: string, newId: int): Challenge
    requires req.p1Words.Some? && req.p1Words.value != []
  {
    Challenge(newId, caller.id, p2.id, caller.username, p2.username, req.p1Words, None,
              code, |req.p1Words.value[0]|, req.turnTimeLimit)
  }

  /**
   * `create_challenge` as written: the words are checked and player 2 is looked up, the record
   * is stored, and then reading player 2's token raises. Every failure, the lookup's 404 and
   * the missing field included, is turned into a 500 by the blanket handler, so no request
   * succeeds, and one that passes the checks leaves its record behind.
   */
  function CreateChallengeAsWritten(challenges: map<int, Challenge>, req: ChallengeRequest, caller: User,
                                    users: map<int, User>, code: string, newId: int): (r: CreateResult)
    ensures r.reply.Err? && r.reply.error.status == 500 && r.notice.None?
    ensures ValidateWords(req.p1Words).None? && req.p2Id in users ==>
      && r.challenges == challenges[newId := NewChallenge(req, caller, users[req.p2Id], code, newId)]
      && r.reply.error.detail == CreateError + MissingTokenField
    ensures !(ValidateWords(req.p1Words).None? && req.p2Id in users) ==> r.challenges == challenges
  {
    match ValidateWords(req.p1Words)
    case Some(message) => CreateResult(Err(HttpError(500, CreateError + message)), challenges, None)
    case None =>
      if req.p2Id !in users then
        CreateResult(Err(HttpError(500, CreateError + "404: Player 2 not found")), challenges, None)
      else
        var created := NewChallenge(req, caller, users[req.p2Id], code, newId);
        CreateResult(Err(HttpError(500, CreateError + MissingTokenField)), challenges[newId := created], None)
  }

  /**
   * `create_challenge` as intended, with player 2's device token looked up in `tokens`: the
   * words are checked, player 2 is looked up, the record is stored and returned, and player 2
   * is notified when it has a token. Every failure is a 500 and stores nothing.
   */
  function CreateChallenge(challenges: map<int, Challenge>, req: ChallengeRequest, caller: User,
                           users: map<int, User>, tokens: map<int, string>, code: string, newId: int)
    : (r: CreateResult)
    ensures r.reply.Ok? <==> ValidateWords(req.p1Words).None? && req.p2Id in users
    ensures r.reply.Err? ==> r.reply.error.status == 500 && r.notice.None? && r.challenges == challenges
    ensures r.reply.Ok? ==>
      var c := r.reply.value;
      && r.challenges == challenges[newId := c]
      && c.id == newId && c.p1Id == caller.id && c.p2Id == users[req.p2Id].id
      && c.p1Username == caller.username && c.p2Username == users[req.p2Id].username
      && c.p1Words == req.p1Words && c.p2Words.None? && c.lobbyCode == code
      && c.turnTimeLimit == req.turnTimeLimit
      && AllOfLength(c.p1Words.value, c.wordLength)
      && r.notice == NoticeFor(tokens, users[req.p2Id].id, "challenge_invite", newId)
  {
    match ValidateWords(req.p1Words)
    case Some(message) => CreateResult(Err(HttpError(500, CreateError + message)), challenges, None)
    case None =>
      if req.p2Id !in users then
        CreateResult(Err(HttpError(500, CreateError + "404: Player 2 not found")), challenges, None)
      else
        var p2 := users[req.p2Id];
        var created := NewChallenge(req, caller, p2, code, newId);
        CreateResult(Ok(created), challenges[newId := created], NoticeFor(tokens, p2.id, "challenge_invite", newId))
  }

  /**
   * As written, every create the intended route answers with the new record instead fails with
   * the missing-field 500, though it stores the same table.
   */
  lemma CreateFailsAfterStoring(challenges: map<int, Challenge>, req: ChallengeRequest, caller: User,
                                users: map<int, User>, tokens: map<int, string>, code: string, newId: int)
    ensures var meant := CreateChallenge(challenges, req, caller, users, tokens, code, newId);
            var written := CreateChallengeAsWritten(challenges, req, caller, users, code, newId);
            && written.challenges == meant.challenges
            && (meant.reply.Ok? ==> written.reply == Err(HttpError(500, CreateError + MissingTokenField)))
            && (meant.reply.Err? ==> written.reply == meant.reply)
  {
  }

  /**
   * The checks `accept_challenge` makes of the stored record and the offered words, before it
   * looks at who is accepting: the message of the first that fails, if any.
   */
  function CheckAcceptWords(c: Challenge, words: seq<string>): (r: Option<string>)
    ensures r.None? <==> c.p1Words.Some? && c.p1Words.value != [] && |words| == |c.p1Words.value|
                         && AllOfLength(words, |c.p1Words.value[0]|)
  {
    if c.p1Words.None? then Some("object of type 'NoneType' has no len()")
    else if c.p1Words.value == [] || |c.p1Words.value| != |words| then
      Some("Your secret words must be " + NatToString(|c.p1Words.value|))
    else if !AllOfLength(words, |c.p1Words.value[0]|) then
      Some("Your secret words must be " + NatToString(|c.p1Words.value[0]|) + " letter words")
    else None
  }

  /** What an accept request answers, the challenge table after it, and the notice it queues. */
  datatype AcceptResult = AcceptResult(reply: Result<Challenge, HttpError>, challenges: map<int, Challenge>,
                                       notice: Option<Notice>)

  const AcceptError := "Error occurred while accepting challenge: "

  /**
   * What `accept_challenge` checks before it stores anything: the challenge must exist, the
   * offered words must match player 1's in number and in the length of player 1's first word,
   * and only player 2 may accept. The message of the first check that fails, if any.
   */
  function AcceptRefusal(challenges: map<int, Challenge>, id: int, words: seq<string>, caller: User)
    : (r: Option<string>)
    ensures r.None? <==> id in challenges && CheckAcceptWords(challenges[id], words).None?
                         && challenges[id].p2Id == caller.id
  {
    if id !in challenges then Some("404: Challenge not found")
    else
      match CheckAcceptWords(challenges[id], words)
      case Some(message) => Some(message)
      case None =>
        if challenges[id].p2Id != caller.id then Some("403: Only Player 2 can accept this challenge") else None
  }

  /**
   * `accept_challenge` as written: once the checks pass, player 2's words are stored, player 1
   * is looked up, and reading player 1's token raises. Every failure is turned into a 400 by
   * the blanket handler, so no request succeeds, and one that passes the checks stores the
   * words all the same.
   */
  function AcceptChallengeAsWritten(challenges: map<int, Challenge>, id: int, words: seq<string>, caller: User,
                                    users: map<int, User>): (r: AcceptResult)
    ensures r.reply.Err? && r.reply.error.status == 400 && r.notice.None?
    ensures AcceptRefusal(challenges, id, words, caller).Some? ==>
      r.challenges == challenges && r.reply.error.detail == AcceptError + AcceptRefusal(challenges, id, words, caller).value
    ensures AcceptRefusal(challenges, id, words, caller).None? ==>
      && r.challenges == challenges[id := challenges[id].(p2Words := Some(words))]
      && r.reply.error.detail == AcceptError + (if challenges[id].p1Id in users then MissingTokenField
                                                else "404: Player 1 not found")
  {
    match AcceptRefusal(challenges, id, words, caller)
    case Some(message) => AcceptResult(Err(HttpError(400, AcceptError + message)), challenges, None)
    case None =>
      var c := challenges[id];
      var after := challenges[id := c.(p2Words := Some(words))];
      if c.p1Id !in users then
        AcceptResult(Err(HttpError(400, AcceptError + "404: Player 1 not found")), after, None)
      else
        AcceptResult(Err(HttpError(400, AcceptError + MissingTokenField)), after, None)
  }

  /**
   * `accept_challenge` as intended, with player 1's device token looked up in `tokens`: after
   * the checks, player 2's words are stored and the record returned, and player 1 is notified
   * when it has a token. Every failure is a 400; a missing player 1 fails after the words were
   * stored.
   */
  function AcceptChallenge(challenges: map<int, Challenge>, id: int, words: seq<string>, caller: User,
                           users: map<int, User>, tokens: map<int, string>): (r: AcceptResult)
    ensures r.reply.Ok? <==> AcceptRefusal(challenges, id, words, caller).None? && challenges[id].p1Id in users
    ensures r.reply.Err? ==> r.reply.error.status == 400 && r.notice.None?
    ensures AcceptRefusal(challenges, id, words, caller).Some? ==> r.challenges == challenges
    ensures AcceptRefusal(challenges, id, words, caller).None? ==>
      r.challenges == challenges[id := challenges[id].(p2Words := Some(words))]
    ensures r.reply.Ok? ==> r.reply.value == r.challenges[id]
                            && r.notice == NoticeFor(tokens, challenges[id].p1Id, "challenge_accepted", id)
  {
    match AcceptRefusal(challenges, id, words, caller)
    case Some(message) => AcceptResult(Err(HttpError(400, AcceptError + message)), challenges, None)
    case None =>
      var c := challenges[id];
      var after := challenges[id := c.(p2Words := Some(words))];
      if c.p1Id !in users then
        AcceptResult(Err(HttpError(400, AcceptError + "404: Player 1 not found")), after, None)
      else
        AcceptResult(Ok(after[id]), after, NoticeFor(tokens, c.p1Id, "challenge_accepted", id))
  }

  /**
   * As written, every accept the intended route answers with the record instead fails with the
   * missing-field 400, though it stores the same table.
   */
  lemma AcceptFailsAfterStoring(challenges: map<int, Challenge>, id: int, words: seq<string>, caller: User,
                                users: map<int, User>, tokens: map<int, string>)
    ensures var meant := AcceptChallenge(challenges, id, words, caller, users, tokens);
            var written := AcceptChallengeAsWritten(challenges, id, words, caller, users);
            && written.challenges == meant.challenges
            && (meant.reply.Ok? ==> written.reply == Err(HttpError(400, AcceptError + MissingTokenField)))
            && (meant.reply.Err? ==> written.reply == meant.reply)
  {
  }

  /**
   * A challenge whose checks an accept passes is playable afterwards, whatever the reply: both
   * players hold the same number of words of one length.
   */
  lemma AcceptedIsPlayable(challenges: map<int, Challenge>, id: int, words: seq<string>, caller: User,
                           users: map<int, User>)
    requires AcceptRefusal(challenges, id, words, caller).None?
    requires AllOfLength(challenges[id].p1Words.value, challenges[id].wordLength)
    ensures var c := AcceptChallengeAsWritten(challenges, id, words, caller, users).challenges[id];
            c.p1Words.Some? && c.p2Words.Some? && |c.p1Words.value| == |c.p2Words.value| > 0
            && AllOfLength(c.p1Words.value, c.wordLength) && AllOfLength(c.p2Words.value, c.wordLength)
  {
    var c := challenges[id];
    assert |c.p1Words.value[0]| == c.wordLength;
  }

  /**
   * A valid create followed by an accept by player 2 with matching words leaves a playable
   * record under the new id; as written both requests answer with an error, and as intended
   * both succeed when player 1 is a known user.
   */
  lemma CreateThenAccept(challenges: map<int, Challenge>, req: ChallengeRequest, caller: User,
                         users: map<int, User>, tokens: map<int, string>, code: string, newId: int,
                         words: seq<string>, p2: User)
    requires ValidateWords(req.p1Words).None? && req.p2Id in users
    requires p2.id == users[req.p2Id].id
    requires |words| == |req.p1Words.value| && AllOfLength(words, |req.p1Words.value[0]|)
    ensures var made := CreateChallengeAsWritten(challenges, req, caller, users, code, newId);
            var r := AcceptChallengeAsWritten(made.challenges, newId, words, p2, users);
            && made.reply.Err? && r.reply.Err? && newId in r.challenges
            && var c := r.challenges[newId];
            && c.p1Words == req.p1Words && c.p2Words == Some(words)
            && AllOfLength(req.p1Words.value, c.wordLength) && AllOfLength(words, c.wordLength)
    ensures var made := CreateChallenge(challenges, req, caller, users, tokens, code, newId);
            caller.id in users ==>
            made.reply.Ok? && AcceptChallenge(made.challenges, newId, words, p2, users, tokens).reply.Ok?
  {
    var made := CreateChallengeAsWritten(challenges, req, caller, users, code, newId);
    var c := made.challenges[newId];
    assert c.p1Words.value == req.p1Words.value;
    assert CheckAcceptWords(c, words).None?;
    AcceptFailsAfterStoring(made.challenges, newId, words, p2, users, tokens);
    CreateFailsAfterStoring(challenges, req, caller, users, tokens, code, newId);
  }

  const FindError := "Error while finding challenge: "

  /**
   * `find_challenge`: the record, for either of its players. The blanket handler turns its own
   * 404 and 403 into a 500.
   */
  function FindChallenge(challenges: map<int, Challenge>, id: int, caller: User): (r: Result<Challenge, HttpError>)
    ensures r.Ok? <==> id in challenges && Participant(challenges[id], caller.id)
    ensures r.Ok? ==> r.value == challenges[id]
    ensures r.Err? ==> r.error.status == 500
  {
    if id !in challenges then Err(HttpError(500, FindError + "404: Challenge not found"))
    else if !Participant(challenges[id], caller.id) then
      Err(HttpError(500, FindError + "403: Not authorized to view this challenge"))
    else Ok(challenges[id])
  }

  /**
   * One field of an update body: left out of the body, or given, possibly as null. The
   * repository writes only the fields the body sets (`exclude_unset`), a null as NULL.
   */
  datatype Field<T> = Unset | SetTo(value: Option<T>)

  /** The fields an update may set. */
  datatype ChallengeUpdate = ChallengeUpdate(p1Words: Field<seq<string>>, p2Words: Field<seq<string>>)

  /** The stored value of a field after the update: the given value, or the old one if unset. */
  function Apply<T>(f: Field<T>, before: Option<T>): Option<T>
  {
    if f.SetTo? then f.value else before
  }

  /** A record after an update. */
  function Updated(c: Challenge, u: ChallengeUpdate): Challenge
  {
    c.(p1Words := Apply(u.p1Words, c.p1Words), p2Words := Apply(u.p2Words, c.p2Words))
  }

  /** The text of the 500 FastAPI sends when a route raises an error it does not handle. */
  const UnhandledError := "Internal Server Error"

  /** The checks `update_challenge` and `delete_challenge` make before the repository call. */
  function AccessRefusal(challenges: map<int, Challenge>, id: int, caller: User): (r: Option<HttpError>)
    ensures r.None? <==> id in challenges && Participant(challenges[id], caller.id)
    ensures id !in challenges ==> r == Some(HttpError(404, "Challenge not found"))
    ensures id in challenges && !Participant(challenges[id], caller.id) ==> r == Some(HttpError(403, "Not authorized"))
  {
    if id !in challenges then Some(HttpError(404, "Challenge not found"))
    else if !Participant(challenges[id], caller.id) then Some(HttpError(403, "Not authorized"))
    else None
  }

  /**
   * `update_challenge`: 404 for an unknown id, 403 for anyone but its players. A body that sets
   * no field builds `UPDATE challenges SET  WHERE id = %s;`, which the database refuses, and the
   * route has no handler, so the reply is FastAPI's 500. Otherwise exactly the fields the body
   * sets are written, a null one as none, and the stored record is returned.
   */
  function UpdateChallenge(challenges: map<int, Challenge>, id: int, u: ChallengeUpdate, caller: User)
    : (r: (Result<Challenge, HttpError>, map<int, Challenge>))
    ensures id !in challenges ==> r == (Err(HttpError(404, "Challenge not found")), challenges)
    ensures id in challenges && !Participant(challenges[id], caller.id) ==> r == (Err(HttpError(403, "Not authorized")), challenges)
    ensures id in challenges && Participant(challenges[id], caller.id) && u.p1Words.Unset? && u.p2Words.Unset? ==>
              r == (Err(HttpError(500, UnhandledError)), challenges)
    ensures r.0.Ok? <==> id in challenges && Participant(challenges[id], caller.id) && !(u.p1Words.Unset? && u.p2Words.Unset?)
    ensures r.0.Err? ==> r.1 == challenges
    ensures r.0.Ok? ==> id in r.1 && r.1.Keys == challenges.Keys && r.0.value == r.1[id]
                        && (forall k | k in challenges && k != id :: r.1[k] == challenges[k])
                        && r.1[id] == challenges[id].(p1Words := r.1[id].p1Words, p2Words := r.1[id].p2Words)
                        && (u.p1Words.Unset? ==> r.1[id].p1Words == challenges[id].p1Words)
                        && (u.p1Words.SetTo? ==> r.1[id].p1Words == u.p1Words.value)
                        && (u.p2Words.Unset? ==> r.1[id].p2Words == challenges[id].p2Words)
                        && (u.p2Words.SetTo? ==> r.1[id].p2Words == u.p2Words.value)
  {
    var refusal := AccessRefusal(challenges, id, caller);
    if refusal.Some? then (Err(refusal.value), challenges)
    else if u.p1Words.Unset? && u.p2Words.Unset? then (Err(HttpError(500, UnhandledError)), challenges)
    else
      var after := challenges[id := Updated(challenges[id], u)];
      (Ok(after[id]), after)
  }

  /**
   * An update keeps what it does not name and clears what it names as null: a body giving only
   * player 1's words as null removes them and keeps player 2's.
   */
  lemma NullClearsOnlyItsField(challenges: map<int, Challenge>, id: int, caller: User)
    requires id in challenges && Participant(challenges[id], caller.id)
    ensures var r := UpdateChallenge(challenges, id, ChallengeUpdate(SetTo(None), Unset), caller);
            r.0.Ok? && r.0.value.p1Words.None? && r.0.value.p2Words == challenges[id].p2Words
  {
  }

  /** Sending the same update twice stores what sending it once does. */
  lemma UpdateIdempotent(challenges: map<int, Challenge>, id: int, u: ChallengeUpdate, caller: User)
    ensures var once := UpdateChallenge(challenges, id, u, caller).1;
            UpdateChallenge(once, id, u, caller).1 == once
  {
    var once := UpdateChallenge(challenges, id, u, caller).1;
    if AccessRefusal(challenges, id, caller).None? && !(u.p1Words.Unset? && u.p2Words.Unset?) {
      assert once[id] == Updated(challenges[id], u);
      assert Updated(once[id], u) == once[id];
      assert once[id := Updated(once[id], u)] == once;
    }
  }

  /**
   * `delete_challenge` as written. `ChallengesRepository.delete_challenge` builds its statement
   * with `QueryManager.delete`, which the query manager does not define, so once the checks pass
   * the call raises; the route has no handler, and the reply is FastAPI's 500. No record is
   * ever deleted.
   */
  function DeleteChallengeAsWritten(challenges: map<int, Challenge>, id: int, caller: User)
    : (r: (Result<int, HttpError>, map<int, Challenge>))
    ensures r.0.Err? && r.1 == challenges
    ensures r.0.error.status == 500 <==> id in challenges && Participant(challenges[id], caller.id)
    ensures r.0.error.status == 500 ==> r.0.error.detail == UnhandledError
    ensures id !in challenges ==> r.0 == Err(HttpError(404, "Challenge not found"))
  {
    var refusal := AccessRefusal(challenges, id, caller);
    if refusal.Some? then (Err(refusal.value), challenges)
    else (Err(HttpError(500, UnhandledError)), challenges)
  }

  /**
   * `delete_challenge` as intended, with a query manager that can delete: 404 for an unknown
   * id, 403 for anyone but its players; otherwise the record is removed.
   */
  function DeleteChallenge(challenges: map<int, Challenge>, id: int, caller: User)
    : (r: (Result<int, HttpError>, map<int, Challenge>))
    ensures r.0.Ok? <==> id in challenges && Participant(challenges[id], caller.id)
    ensures r.0.Ok? ==> r.0.value == id && r.1 == challenges - {id}
    ensures r.0.Err? ==> r.1 == challenges
    ensures id !in challenges ==> r.0 == Err(HttpError(404, "Challenge not found"))
  {
    var refusal := AccessRefusal(challenges, id, caller);
    if refusal.Some? then (Err(refusal.value), challenges)
    else (Ok(id), challenges - {id})
  }

  /**
   * The two routes refuse alike; where the intended route deletes the record, the route as
   * written answers 500 and the record stays.
   */
  lemma DeleteChallengeFailsAsWritten(challenges: map<int, Challenge>, id: int, caller: User)
    ensures var written, intended := DeleteChallengeAsWritten(challenges, id, caller), DeleteChallenge(challenges, id, caller);
            && (intended.0.Err? ==> written == intended)
            && (intended.0.Ok? ==> written == (Err(HttpError(500, UnhandledError)), challenges)
                                   && id in challenges && id !in intended.1)
  {
  }

  /** Someone who is not a player of a challenge can neither see, change, accept nor delete it. */
  lemma OutsidersChangeNothing(challenges: map<int, Challenge>, id: int, caller: User, u: ChallengeUpdate,
                               words: seq<string>, users: map<int, User>)
    requires id in challenges && !Participant(challenges[id], caller.id)
    ensures FindChallenge(challenges, id, caller).Err?
    ensures UpdateChallenge(challenges, id, u, caller).1 == challenges
    ensures DeleteChallenge(challenges, id, caller).1 == challenges
    ensures DeleteChallengeAsWritten(challenges, id, caller).1 == challenges
    ensures AcceptChallengeAsWritten(challenges, id, words, caller, users).challenges == challenges
  {
  }
}

=== FILE: game_algorithm.dfy ===
/**
 * The Wordle scoring algorithm of the game server (src/game/game_algorithm.py).
 *
 * `EvaluateGuess` is the two-pass algorithm as the server runs it: pass one marks the
 * positions where guess and secret agree and consumes those secret positions; pass two
 * gives every other guess position the leftmost secret position that still holds the same
 * letter (`Misplaced`) or nothing (`Absent`); a last loop tallies the three states.
 *
 * It is proved equal to `Evaluate`, a reference definition that does not scan for
 * positions: a non-correct guess letter is misplaced iff fewer earlier guess positions with
 * that letter were misplaced than there are secret positions holding it that pass one left
 * unconsumed. The lemmas at the end state what the result means for callers.
 */
module GameAlgorithm {
  import opened Strings
  import opened Wrappers

  datatype LetterState = Correct | Misplaced | Absent

  datatype LetterResult = LetterResult(letter: char, state: LetterState)

  /** The `stats` dictionary: how many letters ended in each state. */
  datatype Stats = Stats(correct: int, misplaced: int, absent: int)

  datatype GuessResult = GuessResult(letters: seq<LetterResult>, stats: Stats)
  {
    /** `GuessResult.is_correct`: every letter was counted as correct. */
    predicate IsCorrect()
    {
      stats.correct == |letters|
    }
  }

  // ---------------------------------------------------------------------------------
  // Reference definition

  /** Secret position `k` is consumed by pass one: the guess has the same letter there. */
  predicate Matched(s: string, g: string, k: int)
    requires 0 <= k < |s|
  {
    k < |g| && g[k] == s[k]
  }

  /** Secret positions below `n` that hold `c` and that pass one left unconsumed. */
  function Avail(s: string, g: string, c: char, n: nat): nat
    requires n <= |s|
  {
    if n == 0 then 0
    else Avail(s, g, c, n - 1) + (if !Matched(s, g, n - 1) && s[n - 1] == c then 1 else 0)
  }

  /** Secret positions below `n` that hold `c` and that pass one consumed. */
  function MatchedCount(s: string, g: string, c: char, n: nat): nat
    requires n <= |s|
  {
    if n == 0 then 0
    else MatchedCount(s, g, c, n - 1) + (if Matched(s, g, n - 1) && s[n - 1] == c then 1 else 0)
  }

  /** Occurrences of `c` among the first `n` characters of `s`. */
  function Occurrences(s: string, c: char, n: nat): nat
    requires n <= |s|
  {
    if n == 0 then 0 else Occurrences(s, c, n - 1) + (if s[n - 1] == c then 1 else 0)
  }

  /** Guess positions below `n` whose letter is `c` and whose state is `x`. */
  function StateCount(st: seq<LetterState>, g: string, c: char, x: LetterState, n: nat): nat
    requires n <= |st| && n <= |g|
  {
    if n == 0 then 0
    else StateCount(st, g, c, x, n - 1) + (if st[n - 1] == x && g[n - 1] == c then 1 else 0)
  }

  /** The state of guess position `i`, given the states of the positions before it. */
  function RefState(s: string, g: string, prev: seq<LetterState>, i: nat): LetterState
    requires i == |prev| && i < |g| <= |s|
  {
    if g[i] == s[i] then Correct
    else if StateCount(prev, g, g[i], Misplaced, i) < Avail(s, g, g[i], |s|) then Misplaced
    else Absent
  }

  /** The states of the first `n` guess positions. */
  function RefStates(s: string, g: string, n: nat): (r: seq<LetterState>)
    requires n <= |g| <= |s|
    ensures |r| == n
  {
    if n == 0 then []
    else
      var prev := RefStates(s, g, n - 1);
      prev + [RefState(s, g, prev, n - 1)]
  }

  function Letters(g: string, st: seq<LetterState>): (r: seq<LetterResult>)
    requires |st| == |g|
    ensures |r| == |g|
    ensures forall i :: 0 <= i < |g| ==> r[i] == LetterResult(g[i], st[i])
  {
    seq(|g|, i requires 0 <= i < |g| => LetterResult(g[i], st[i]))
  }

  /** Letters among the first `n` results whose state is `x`. */
  function Count(ls: seq<LetterResult>, x: LetterState, n: nat): nat
    requires n <= |ls|
  {
    if n == 0 then 0 else Count(ls, x, n - 1) + (if ls[n - 1].state == x then 1 else 0)
  }

  /** Results among the first `n` whose letter is `c` and whose state is `x`. */
  function LetterCount(ls: seq<LetterResult>, c: char, x: LetterState, n: nat): nat
    requires n <= |ls|
  {
    if n == 0 then 0
    else LetterCount(ls, c, x, n - 1) + (if ls[n - 1].letter == c && ls[n - 1].state == x then 1 else 0)
  }

  function Tally(ls: seq<LetterResult>): Stats
  {
    Stats(Count(ls, Correct, |ls|), Count(ls, Misplaced, |ls|), Count(ls, Absent, |ls|))
  }

  /** The result for an already upper-cased secret `s` and guess `g`. */
  function Score(s: string, g: string): GuessResult
    requires |g| <= |s|
  {
    var ls := Letters(g, RefStates(s, g, |g|));
    GuessResult(ls, Tally(ls))
  }

  /** What `evaluate_guess(secret, guess)` returns. Letters are compared upper-cased. */
  function Evaluate(secret: string, guess: string): GuessResult
    requires |guess| <= |secret|
  {
    Score(UpperStr(secret), UpperStr(guess))
  }

  // ---------------------------------------------------------------------------------
  // The algorithm as the server runs it

  /**
   * `GameAlgorithm.evaluate_guess`. Python's `zip` in pass one stops at the shorter word, and a
   * guess longer than the secret makes pass two index past the end of `result`; the precondition
   * excludes only that case.
   */
  method EvaluateGuess(secretWord: string, guessWord: string) returns (r: GuessResult)
    requires |guessWord| <= |secretWord|
    ensures r == Evaluate(secretWord, guessWord)
  {
    r := ScoreGuess(UpperStr(secretWord), UpperStr(guessWord));
  }

  /** The two passes and the tally of `evaluate_guess`, on the upper-cased words. */
  method ScoreGuess(s: string, g: string) returns (r: GuessResult)
    requires |g| <= |s|
    ensures r == Score(s, g)
  {
    ghost var ref := RuleWitness(s, g);
    var result := new Option<LetterResult>[|g|](_ => None);
    var used: set<int> := {};

    // First pass: mark "correct" positions
    var i := 0;
    while i < |g|
      invariant 0 <= i <= |g|
      invariant forall k :: 0 <= k < i ==>
        result[k] == (if g[k] == s[k] then Some(LetterResult(g[k], Correct)) else None)
      invariant forall k :: k in used <==> 0 <= k < i && g[k] == s[k]
    {
      if g[i] == s[i] {
        result[i] := Some(LetterResult(g[i], Correct));
        used := used + {i};
      } else {
        result[i] := None;
      }
      i := i + 1;
    }

    // Second pass: mark "misplaced" and "absent"
    i := 0;
    while i < |g|
      invariant 0 <= i <= |g|
      invariant forall k :: 0 <= k < i ==> result[k] == Some(LetterResult(g[k], ref[k]))
      invariant forall k :: i <= k < |g| ==>
        result[k] == (if g[k] == s[k] then Some(LetterResult(g[k], Correct)) else None)
      invariant UsedInv(s, g, ref, used, i)
    {
      assert StepRule(s, g, ref, i);
      if result[i] != None {
        assert ref[i] == Correct;
        KeepUsed(s, g, ref, used, i);
        i := i + 1;
        continue;
      }
      var found := false;
      var j := 0;
      while j < |s|
        invariant 0 <= j <= |s| && !found
        invariant forall k :: 0 <= k < j ==> !(k !in used && g[i] == s[k])
      {
        if j !in used && g[i] == s[j] {
          found := true;
          break;
        }
        j := j + 1;
      }
      if found {
        StepFound(s, g, ref, used, i, j);
        result[i] := Some(LetterResult(g[i], Misplaced));
        used := used + {j};
      } else {
        StepNotFound(s, g, ref, used, i);
        result[i] := Some(LetterResult(g[i], Absent));
      }
      assert result[i] == Some(LetterResult(g[i], ref[i]));
      i := i + 1;
    }

    var letters, stats := TallyResult(result);
    r := GuessResult(letters, stats);
    ScoreFromRule(s, g, ref, r);
  }

  /** A result whose states follow the rule everywhere is the reference result. */
  lemma ScoreFromRule(s: string, g: string, ref: seq<LetterState>, r: GuessResult)
    requires |g| <= |s| && |ref| == |g|
    requires forall i :: 0 <= i < |g| ==> StepRule(s, g, ref, i)
    requires |r.letters| == |g|
    requires forall k :: 0 <= k < |g| ==> r.letters[k] == LetterResult(g[k], ref[k])
    requires r.stats == Tally(r.letters)
    ensures r == Score(s, g)
  {
    RuleUnique(s, g, ref);
    assert r.letters == Letters(g, ref);
  }

  /** The "calculate stats" loop of `evaluate_guess`, once every position has its state. */
  method TallyResult(result: array<Option<LetterResult>>) returns (letters: seq<LetterResult>, stats: Stats)
    requires forall k :: 0 <= k < result.Length ==> result[k].Some?
    ensures |letters| == result.Length
    ensures forall k :: 0 <= k < result.Length ==> letters[k] == result[k].value
    ensures stats == Tally(letters)
  {
    ghost var ls := seq(result.Length, k requires 0 <= k < result.Length && result[k].Some? reads result => result[k].value);
    letters := [];
    var correct, misplaced, absent := 0, 0, 0;
    var k := 0;
    while k < result.Length
      invariant 0 <= k <= result.Length
      invariant letters == ls[..k]
      invariant correct == Count(ls, Correct, k)
      invariant misplaced == Count(ls, Misplaced, k)
      invariant absent == Count(ls, Absent, k)
    {
      var lr := result[k].value;
      letters := letters + [lr];
      match lr.state {
        case Correct => correct := correct + 1;
        case Misplaced => misplaced := misplaced + 1;
        case Absent => absent := absent + 1;
      }
      k := k + 1;
    }
    assert letters == ls;
    stats := Stats(correct, misplaced, absent);
  }

  // ---------------------------------------------------------------------------------
  // Proof of the algorithm

  /**
   * The secret positions the algorithm has consumed before guess position `i`: those taken by
   * pass one, and for each letter the first ones left free by pass one, as many as pass two has
   * marked misplaced so far.
   */
  ghost predicate UsedInv(s: string, g: string, ref: seq<LetterState>, used: set<int>, i: nat)
    requires |g| <= |s| && |ref| == |g| && i <= |g|
  {
    && (forall k :: k in used ==> 0 <= k < |s|)
    && (forall k {:trigger Taken(s, g, ref, i, k)} :: 0 <= k < |s| ==> (k in used <==> Taken(s, g, ref, i, k)))
  }

  /** Whether secret position `k` has been consumed before guess position `i`. */
  ghost predicate Taken(s: string, g: string, ref: seq<LetterState>, i: nat, k: nat)
    requires |g| <= |s| && |ref| == |g| && i <= |g| && k < |s|
  {
    Matched(s, g, k) || Avail(s, g, s[k], k) < StateCount(ref, g, s[k], Misplaced, i)
  }

  lemma {:induction false} StateCountPrefix(a: seq<LetterState>, b: seq<LetterState>, g: string, c: char, x: LetterState, n: nat)
    requires n <= |a| && n <= |b| && n <= |g| && a[..n] == b[..n]
    ensures StateCount(a, g, c, x, n) == StateCount(b, g, c, x, n)
  {
    if n > 0 {
      assert a[n - 1] == a[..n][n - 1] == b[..n][n - 1] == b[n - 1];
      assert a[..n - 1] == a[..n][..n - 1];
      assert b[..n - 1] == b[..n][..n - 1];
      StateCountPrefix(a, b, g, c, x, n - 1);
    }
  }

  lemma {:induction false} RefStatesPrefix(s: string, g: string, i: nat, n: nat)
    requires i <= n <= |g| <= |s|
    ensures RefStates(s, g, n)[..i] == RefStates(s, g, i)
  {
    if i < n {
      RefStatesPrefix(s, g, i, n - 1);
      assert RefStates(s, g, n)[..n - 1] == RefStates(s, g, n - 1);
      assert RefStates(s, g, n)[..i] == RefStates(s, g, n)[..n - 1][..i];
    }
  }

  /** The rule `RefState` applies at guess position `i`, read off a full state sequence. */
  ghost predicate StepRule(s: string, g: string, ref: seq<LetterState>, i: nat)
    requires i < |g| <= |s| && |ref| == |g|
  {
    ref[i] == (if g[i] == s[i] then Correct
               else if StateCount(ref, g, g[i], Misplaced, i) < Avail(s, g, g[i], |s|) then Misplaced
               else Absent)
  }

  /** Position `i` of the full reference state sequence follows the rule. */
  lemma RefAt(s: string, g: string, i: nat)
    requires i < |g| <= |s|
    ensures StepRule(s, g, RefStates(s, g, |g|), i)
  {
    var ref := RefStates(s, g, |g|);
    RefStatesPrefix(s, g, i + 1, |g|);
    RefStatesPrefix(s, g, i, |g|);
    var prev := RefStates(s, g, i);
    assert ref[i] == ref[..i + 1][i] == RefState(s, g, prev, i);
    StateCountPrefix(ref, prev, g, g[i], Misplaced, i);
  }

  /** Some state sequence follows the rule at every position. */
  lemma RuleWitness(s: string, g: string) returns (ref: seq<LetterState>)
    requires |g| <= |s|
    ensures |ref| == |g| && forall i :: 0 <= i < |g| ==> StepRule(s, g, ref, i)
  {
    ref := RefStates(s, g, |g|);
    forall i | 0 <= i < |g|
      ensures StepRule(s, g, ref, i)
    {
      RefAt(s, g, i);
    }
  }

  /** `RefStates` is the only state sequence that follows the rule at every position. */
  lemma {:induction false} RuleUnique(s: string, g: string, ref: seq<LetterState>)
    requires |ref| == |g| <= |s|
    requires forall i :: 0 <= i < |g| ==> StepRule(s, g, ref, i)
    ensures ref == RefStates(s, g, |g|)
  {
    var n := 0;
    while n < |g|
      invariant 0 <= n <= |g|
      invariant ref[..n] == RefStates(s, g, n)
    {
      var prev := RefStates(s, g, n);
      assert StepRule(s, g, ref, n);
      StateCountPrefix(ref, prev, g, g[n], Misplaced, n);
      assert ref[..n + 1] == ref[..n] + [ref[n]];
      n := n + 1;
    }
    assert ref == ref[..|g|];
  }

  /** `Avail` grows strictly past every free position that holds `c`. */
  lemma {:induction false} AvailGrows(s: string, g: string, c: char, p: nat, q: nat)
    requires p < q <= |s| && !Matched(s, g, p) && s[p] == c
    ensures Avail(s, g, c, p) < Avail(s, g, c, q)
  {
    if q > p + 1 {
      AvailGrows(s, g, c, p, q - 1);
    }
  }

  /** A positive `Avail` count was reached at some free position holding `c`. */
  lemma {:induction false} AvailPrev(s: string, g: string, c: char, q: nat)
    requires q <= |s| && Avail(s, g, c, q) > 0
    ensures exists p :: 0 <= p < q && !Matched(s, g, p) && s[p] == c && Avail(s, g, c, p) == Avail(s, g, c, q) - 1
  {
    if !(!Matched(s, g, q - 1) && s[q - 1] == c) {
      AvailPrev(s, g, c, q - 1);
    }
  }

  lemma StepFound(s: string, g: string, ref: seq<LetterState>, used: set<int>, i: nat, j: nat)
    requires i < |g| <= |s| && |ref| == |g| && j < |s|
    requires StepRule(s, g, ref, i) && UsedInv(s, g, ref, used, i)
    requires g[i] != s[i]
    requires j !in used && s[j] == g[i]
    requires forall k :: 0 <= k < j ==> !(k !in used && g[i] == s[k])
    ensures ref[i] == Misplaced
    ensures UsedInv(s, g, ref, used + {j}, i + 1)
  {
    var c := g[i];
    var m := StateCount(ref, g, c, Misplaced, i);
    assert !Taken(s, g, ref, i, j);
    if Avail(s, g, c, j) > 0 {
      AvailPrev(s, g, c, j);
      var p :| 0 <= p < j && !Matched(s, g, p) && s[p] == c && Avail(s, g, c, p) == Avail(s, g, c, j) - 1;
      assert p in used && Taken(s, g, ref, i, p);
    }
    assert Avail(s, g, c, j) == m;
    AvailGrows(s, g, c, j, |s|);
    assert ref[i] == Misplaced;
    forall k | 0 <= k < |s|
      ensures k in used + {j} <==> Taken(s, g, ref, i + 1, k)
    {
      assert k in used <==> Taken(s, g, ref, i, k);
      if s[k] == c && !Matched(s, g, k) && k != j {
        if k < j {
          AvailGrows(s, g, c, k, j);
        } else {
          AvailGrows(s, g, c, j, k);
        }
      }
    }
  }

  lemma StepNotFound(s: string, g: string, ref: seq<LetterState>, used: set<int>, i: nat)
    requires i < |g| <= |s| && |ref| == |g|
    requires StepRule(s, g, ref, i) && UsedInv(s, g, ref, used, i)
    requires g[i] != s[i]
    requires forall k :: 0 <= k < |s| ==> !(k !in used && g[i] == s[k])
    ensures ref[i] == Absent
    ensures UsedInv(s, g, ref, used, i + 1)
  {
    var c := g[i];
    var m := StateCount(ref, g, c, Misplaced, i);
    if Avail(s, g, c, |s|) > 0 {
      AvailPrev(s, g, c, |s|);
      var p :| 0 <= p < |s| && !Matched(s, g, p) && s[p] == c && Avail(s, g, c, p) == Avail(s, g, c, |s|) - 1;
      assert p in used && Taken(s, g, ref, i, p);
    }
    KeepUsed(s, g, ref, used, i);
  }

  /** A position that is not misplaced consumes no secret position in pass two. */
  lemma KeepUsed(s: string, g: string, ref: seq<LetterState>, used: set<int>, i: nat)
    requires i < |g| <= |s| && |ref| == |g|
    requires UsedInv(s, g, ref, used, i) && ref[i] != Misplaced
    ensures UsedInv(s, g, ref, used, i + 1)
  {
    forall k | 0 <= k < |s|
      ensures k in used <==> Taken(s, g, ref, i + 1, k)
    {
      assert k in used <==> Taken(s, g, ref, i, k);
    }
  }

  // ---------------------------------------------------------------------------------
  // What the result means

  /** One result per guess position, carrying the upper-cased guess letter. */
  lemma EvaluateShape(secret: string, guess: string)
    requires |guess| <= |secret|
    ensures var r := Evaluate(secret, guess);
      |r.letters| == |guess|
      && forall i :: 0 <= i < |guess| ==> r.letters[i].letter == Upper(guess[i])
  {
  }

  /** Position `i` is correct exactly when the letters agree, ignoring ASCII case. */
  lemma CorrectIff(secret: string, guess: string, i: nat)
    requires |guess| <= |secret| && i < |guess|
    ensures Evaluate(secret, guess).letters[i].state == Correct <==> Upper(guess[i]) == Upper(secret[i])
  {
    RefAt(UpperStr(secret), UpperStr(guess), i);
  }

  /**
   * A non-correct letter is misplaced exactly when fewer earlier positions with the same letter
   * were misplaced than there are secret positions holding it that pass one left free.
   */
  lemma MisplacedIff(secret: string, guess: string, i: nat)
    requires |guess| <= |secret| && i < |guess|
    ensures var s, g := UpperStr(secret), UpperStr(guess);
      var r := Evaluate(secret, guess);
      r.letters[i].state == Misplaced <==>
        g[i] != s[i] && LetterCount(r.letters, g[i], Misplaced, i) < Avail(s, g, g[i], |s|)
  {
    var s, g := UpperStr(secret), UpperStr(guess);
    var ref := RefStates(s, g, |g|);
    RefAt(s, g, i);
    LetterCountStates(g, ref, g[i], Misplaced, i);
  }

  lemma {:induction false} LetterCountStates(g: string, st: seq<LetterState>, c: char, x: LetterState, n: nat)
    requires |st| == |g| && n <= |g|
    ensures LetterCount(Letters(g, st), c, x, n) == StateCount(st, g, c, x, n)
  {
    if n > 0 {
      LetterCountStates(g, st, c, x, n - 1);
    }
  }

  lemma {:induction false} OccurrencesSplit(s: string, g: string, c: char, n: nat)
    requires n <= |s|
    ensures Occurrences(s, c, n) == MatchedCount(s, g, c, n) + Avail(s, g, c, n)
  {
    if n > 0 {
      OccurrencesSplit(s, g, c, n - 1);
    }
  }

  /** Pass one never consumes a secret position beyond the end of the guess. */
  lemma {:induction false} MatchedCountTail(s: string, g: string, c: char, n: nat)
    requires |g| <= n <= |s|
    ensures MatchedCount(s, g, c, n) == MatchedCount(s, g, c, |g|)
  {
    if n > |g| {
      MatchedCountTail(s, g, c, n - 1);
    }
  }

  lemma {:induction false} CorrectCountMatched(s: string, g: string, c: char, n: nat)
    requires n <= |g| <= |s|
    ensures StateCount(RefStates(s, g, |g|), g, c, Correct, n) == MatchedCount(s, g, c, n)
  {
    if n > 0 {
      CorrectCountMatched(s, g, c, n - 1);
      RefAt(s, g, n - 1);
    }
  }

  /** Pass two never marks more positions of a letter misplaced than pass one left free. */
  lemma {:induction false} MisplacedWithinAvail(s: string, g: string, c: char, n: nat)
    requires n <= |g| <= |s|
    ensures StateCount(RefStates(s, g, |g|), g, c, Misplaced, n) <= Avail(s, g, c, |s|)
  {
    if n > 0 {
      MisplacedWithinAvail(s, g, c, n - 1);
      RefAt(s, g, n - 1);
    }
  }

  /**
   * Each secret position is used at most once: for every letter, the guess positions holding it
   * that come out correct or misplaced are no more than its occurrences in the secret.
   */
  lemma LetterBound(secret: string, guess: string, c: char)
    requires |guess| <= |secret|
    ensures var r := Evaluate(secret, guess);
      LetterCount(r.letters, c, Correct, |guess|) + LetterCount(r.letters, c, Misplaced, |guess|)
        <= Occurrences(UpperStr(secret), c, |secret|)
  {
    var s, g := UpperStr(secret), UpperStr(guess);
    var ref := RefStates(s, g, |g|);
    LetterCountStates(g, ref, c, Correct, |g|);
    LetterCountStates(g, ref, c, Misplaced, |g|);
    CorrectCountMatched(s, g, c, |g|);
    MatchedCountTail(s, g, c, |s|);
    MisplacedWithinAvail(s, g, c, |g|);
    OccurrencesSplit(s, g, c, |s|);
  }

  lemma {:induction false} CountSum(ls: seq<LetterResult>, n: nat)
    requires n <= |ls|
    ensures Count(ls, Correct, n) + Count(ls, Misplaced, n) + Count(ls, Absent, n) == n
  {
    if n > 0 {
      CountSum(ls, n - 1);
    }
  }

  /** The three tallies count the letters in each state and add up to the word length. */
  lemma StatsSum(secret: string, guess: string)
    requires |guess| <= |secret|
    ensures var r := Evaluate(secret, guess);
      && r.stats.correct == Count(r.letters, Correct, |guess|)
      && r.stats.misplaced == Count(r.letters, Misplaced, |guess|)
      && r.stats.absent == Count(r.letters, Absent, |guess|)
      && r.stats.correct + r.stats.misplaced + r.stats.absent == |guess|
  {
    CountSum(Evaluate(secret, guess).letters, |guess|);
  }

  lemma {:induction false} CountAll(ls: seq<LetterResult>, x: LetterState, n: nat)
    requires n <= |ls|
    ensures Count(ls, x, n) <= n
    ensures Count(ls, x, n) == n <==> forall j :: 0 <= j < n ==> ls[j].state == x
  {
    if n > 0 {
      CountAll(ls, x, n - 1);
    }
  }

  /**
   * For words of equal length, `is_correct` holds exactly when the words are equal up to ASCII
   * case.
   */
  lemma IsCorrectIff(secret: string, guess: string)
    requires |guess| == |secret|
    ensures Evaluate(secret, guess).IsCorrect() <==> UpperStr(guess) == UpperStr(secret)
  {
    var r := Evaluate(secret, guess);
    CountAll(r.letters, Correct, |guess|);
    forall i | 0 <= i < |guess|
      ensures r.letters[i].state == Correct <==> UpperStr(guess)[i] == UpperStr(secret)[i]
    {
      CorrectIff(secret, guess, i);
    }
  }

  /** Evaluating a word against itself gives all-correct letters and a correct result. */
  lemma SelfIsCorrect(word: string)
    ensures var r := Evaluate(word, word);
      r.IsCorrect() && forall i :: 0 <= i < |word| ==> r.letters[i].state == Correct
  {
    IsCorrectIff(word, word);
    forall i | 0 <= i < |word|
      ensures Evaluate(word, word).letters[i].state == Correct
    {
      CorrectIff(word, word, i);
    }
  }
}

=== FILE: game_manager.dfy ===
/**
 * The in-memory game manager (src/game/game_manager.py): the table of active sessions, the
 * device-to-session table, the after-game handlers, and the operations that create, start,
 * play and end games.
 *
 * Messages to sockets, Redis writes and log lines are not modelled; what a caller is told is
 * the returned outcome. Clock readings are the `now` parameter, and the random first turn is
 * the `coin` parameter.
 */
module GameManagerModel {
  import opened Wrappers
  import opened Strings
  import opened GameAlgorithm
  import opened GameSessionModel

  /** The session id `create_game` uses for every game (src/game/game_manager.py:131). */
  const FixedSessionId := "0fa16c0c-54f8-486b-9026-a57b72bf927e"

  /** Sessions older than two hours are ended by the cleanup sweep. */
  const SessionLifetime := 2 * 60 * 60

  /** The fields of a stored user that a game uses. */
  datatype WordleUser = WordleUser(deviceId: string, username: string, revealLetter: nat, fishOut: nat, aiMeaning: nat)

  datatype GameError =
    | WrongWordCount(role: PlayerRole)
    | AlreadyInGame(role: PlayerRole)
    | WrongWordLength(role: PlayerRole, word: string)
      /** `PlayerInfo` refuses an empty word list; a validation error, not a `GameError`. */
    | EmptyWordList
    | SessionNotFound
    | NotWaiting
    | NoActiveSession
    | NotYourTurn
    | PowerUpNotFound(kind: PowerUpType)
    | NoRemainingUses(kind: PowerUpType)
      /** An attribute read on a player or opponent that is not there. */
    | MissingPlayer

  /** The after-game handlers registered by the routes. */
  datatype AfterGameHandler = ScoringHandler | PowerUpPersistenceHandler | GamesPlayedHandler

  /** What `play` reports to the caller. */
  datatype PlayOutcome =
    | OpponentNotFound
    | WaitingFor(role: PlayerRole)
    | NotYourTurnToGuess
    | WrongGuessLength(wordLength: int)
    | Guessed(attempt: GuessAttempt, correct: bool, winner: Option<string>)

  /** The power-up helper `use_power_up` calls, with its arguments; the helpers are not modelled. */
  datatype PowerUpCall =
    | FishOutCall(secretWord: Option<string>, alreadyFished: seq<string>)
    | RevealLetterCall(secretWord: Option<string>, alreadyRevealed: seq<int>)
    | AiMeaningCall(secretWord: Option<string>)

  // ---------------------------------------------------------------------------------
  // The two tables as values

  /**
   * Every mapped device plays in the active session it is mapped to, and every player of an
   * active session is mapped to that session.
   */
  ghost predicate Consistent(games: map<string, SessionData>, pts: map<string, string>)
  {
    && (forall p | p in pts :: pts[p] in games && p in Ids(games[pts[p]].players))
    && (forall sid, p | sid in games && p in Ids(games[sid].players) :: p in pts && pts[p] == sid)
  }

  function RemoveKeys(m: map<string, string>, ks: set<string>): (r: map<string, string>)
    ensures forall k :: k in r <==> k in m && k !in ks
    ensures forall k | k in r :: r[k] == m[k]
  {
    map k | k in m && k !in ks :: m[k]
  }

  /** How `create_game` files a new session under `sid` (src/game/game_manager.py:197-199). */
  function Register(games: map<string, SessionData>, pts: map<string, string>, sid: string, d: SessionData,
                    p1: string, p2: string): (map<string, SessionData>, map<string, string>)
  {
    (games[sid := d], pts[p1 := sid][p2 := sid])
  }

  /** With a session id not yet in use and two unmapped players, registering keeps the tables consistent. */
  lemma RegisterFreshKeepsConsistent(games: map<string, SessionData>, pts: map<string, string>, sid: string,
                                     d: SessionData, p1: string, p2: string)
    requires Consistent(games, pts)
    requires sid !in games && p1 !in pts && p2 !in pts
    requires Ids(d.players) == {p1, p2}
    ensures var (g, m) := Register(games, pts, sid, d, p1, p2); Consistent(g, m)
  {
    var (g, m) := Register(games, pts, sid, d, p1, p2);
    forall p | p in m
      ensures m[p] in g && p in Ids(g[m[p]].players)
    {
      if p != p1 && p != p2 {
        assert pts[p] != sid;
      }
    }
  }

  /** A two-player session whose players are `a` and `b`. */
  function Pair(sid: string, a: string, b: string): SessionData
  {
    SessionData(sid, 0,
      [PlayerInfo(a, None, Player1, ["word"], [], [], 0, true),
       PlayerInfo(b, None, Player2, ["word"], [], [], 0, true)],
      Player1, 1, Waiting, DefaultSettings, None, None)
  }

  /**
   * With the fixed session id, a second game between other players replaces the first one in
   * `active_games` while its players stay mapped to the id: the tables stop being consistent.
   */
  lemma FixedSessionIdStrandsPlayers()
    ensures var games := map[FixedSessionId := Pair(FixedSessionId, "A", "B")];
      var pts := map["A" := FixedSessionId, "B" := FixedSessionId];
      && Consistent(games, pts)
      && var (g, m) := Register(games, pts, FixedSessionId, Pair(FixedSessionId, "C", "D"), "C", "D");
         !Consistent(g, m) && m["A"] == FixedSessionId && !g[FixedSessionId].HasPlayer("A")
  {
    var games := map[FixedSessionId := Pair(FixedSessionId, "A", "B")];
    var pts := map["A" := FixedSessionId, "B" := FixedSessionId];
    var ab := Pair(FixedSessionId, "A", "B").players;
    assert ab[0].playerId == "A" && ab[1].playerId == "B";
    assert Ids(ab) == {"A", "B"};
    var cd := Pair(FixedSessionId, "C", "D").players;
    assert cd[0].playerId == "C" && cd[1].playerId == "D";
    assert Ids(cd) == {"C", "D"};
    var (g, m) := Register(games, pts, FixedSessionId, Pair(FixedSessionId, "C", "D"), "C", "D");
    assert "A" in m && "A" !in Ids(g[m["A"]].players);
  }

  /** Dropping a session together with its players' mappings keeps the tables consistent. */
  lemma RemoveKeepsConsistent(games: map<string, SessionData>, pts: map<string, string>, sid: string)
    requires Consistent(games, pts) && sid in games
    ensures Consistent(games - {sid}, RemoveKeys(pts, Ids(games[sid].players)))
  {
  }

  /** Replacing a session by one with the same players keeps the tables consistent. */
  lemma ReplaceKeepsConsistent(games: map<string, SessionData>, pts: map<string, string>, sid: string, d: SessionData)
    requires Consistent(games, pts) && sid in games
    requires Ids(d.players) == Ids(games[sid].players)
    ensures Consistent(games[sid := d], pts)
  {
  }

  /** In consistent tables every player of a session is mapped to that session. */
  lemma MappedToSession(games: map<string, SessionData>, pts: map<string, string>, sid: string)
    requires Consistent(games, pts) && sid in games
    ensures forall p | p in Ids(games[sid].players) :: p in pts && pts[p] == sid
  {
  }

  /** In consistent tables a mapped device plays in the session it is mapped to. */
  lemma MappedPlayerIn(games: map<string, SessionData>, pts: map<string, string>, pid: string)
    requires Consistent(games, pts) && pid in pts
    ensures pts[pid] in games && games[pts[pid]].HasPlayer(pid)
  {
    var ps := games[pts[pid]].players;
    var q :| q in ps && q.playerId == pid;
    var i :| 0 <= i < |ps| && ps[i] == q;
  }

  /** Mapping ids to the session they are already mapped to gives back the same table. */
  lemma RemapSame(pts: map<string, string>, r: map<string, string>, ids: set<string>, sid: string)
    requires forall p | p in ids :: p in pts && pts[p] == sid
    requires forall k :: k in r <==> k in pts || k in ids
    requires forall k | k in r :: r[k] == if k in ids then sid else pts[k]
    ensures r == pts
  {
  }

  // ---------------------------------------------------------------------------------
  // create_game

  /** The first word in `ws` whose length is not `n`. */
  function FirstWrongLength(ws: seq<string>, n: int): (r: Option<string>)
    ensures r.None? <==> forall w | w in ws :: |w| == n
    ensures r.Some? ==> r.value in ws && |r.value| != n
  {
    if |ws| == 0 then None
    else if |ws[0]| != n then Some(ws[0])
    else FirstWrongLength(ws[1..], n)
  }

  /** The checks of `create_game`, in the order the source makes them. */
  function CreateCheck(p1: WordleUser, p2: WordleUser, w1: seq<string>, w2: seq<string>, s: GameSettings,
                       pts: map<string, string>): (r: Option<GameError>)
    ensures r.None? <==>
      && |w1| == s.rounds && |w2| == s.rounds
      && p1.deviceId !in pts && p2.deviceId !in pts
      && (forall w | w in w1 :: |w| == s.wordLength)
      && (forall w | w in w2 :: |w| == s.wordLength)
      && |w1| > 0
    ensures |w1| != s.rounds ==> r == Some(WrongWordCount(Player1))
    ensures |w1| == s.rounds && |w2| != s.rounds ==> r == Some(WrongWordCount(Player2))
  {
    if |w1| != s.rounds then Some(WrongWordCount(Player1))
    else if |w2| != s.rounds then Some(WrongWordCount(Player2))
    else if p1.deviceId in pts then Some(AlreadyInGame(Player1))
    else if p2.deviceId in pts then Some(AlreadyInGame(Player2))
    else if FirstWrongLength(w1, s.wordLength).Some? then
      Some(WrongWordLength(Player1, FirstWrongLength(w1, s.wordLength).value))
    else if FirstWrongLength(w2, s.wordLength).Some? then
      Some(WrongWordLength(Player2, FirstWrongLength(w2, s.wordLength).value))
    else if |w1| == 0 then Some(EmptyWordList)
    else None
  }

  /** A new player: score 0, no attempts, power-ups copied from the user's stored counts. */
  function NewPlayer(u: WordleUser, role: PlayerRole, words: seq<string>): PlayerInfo
  {
    PlayerInfo(u.deviceId, Some(u.username), role, words, [],
      [PowerUp(RevealLetter, u.revealLetter), PowerUp(FishOut, u.fishOut), PowerUp(AiMeaning, u.aiMeaning)],
      0, true)
  }

  /**
   * The `players` dictionary: keyed by device id in insertion order, so when both users have
   * the same device the second entry overwrites the first in the first slot.
   */
  function NewPlayers(p1: WordleUser, p2: WordleUser, w1: seq<string>, w2: seq<string>): seq<PlayerInfo>
  {
    if p1.deviceId == p2.deviceId then [NewPlayer(p2, Player2, w2)]
    else [NewPlayer(p1, Player1, w1), NewPlayer(p2, Player2, w2)]
  }

  /** The first turn: player 1 whenever a bot plays, otherwise the random `coin`. */
  function FirstTurn(p1: WordleUser, p2: WordleUser, coin: PlayerRole): PlayerRole
  {
    if StartsWith(p1.deviceId, "bot_") || StartsWith(p2.deviceId, "bot_") then Player1 else coin
  }

  function NewSession(sid: string, now: int, p1: WordleUser, p2: WordleUser, w1: seq<string>, w2: seq<string>,
                      s: GameSettings, coin: PlayerRole): SessionData
  {
    SessionData(sid, now, NewPlayers(p1, p2, w1, w2), FirstTurn(p1, p2, coin), 1, Waiting, s, None, None)
  }

  /** A session built after the input checks pass is valid and holds exactly the two devices. */
  lemma NewSessionValid(sid: string, now: int, p1: WordleUser, p2: WordleUser, w1: seq<string>, w2: seq<string>,
                        s: GameSettings, coin: PlayerRole, pts: map<string, string>)
    requires CreateCheck(p1, p2, w1, w2, s, pts).None?
    ensures var d := NewSession(sid, now, p1, p2, w1, w2, s, coin);
      d.Valid() && d.sessionId == sid && Ids(d.players) == {p1.deviceId, p2.deviceId}
  {
    var d := NewSession(sid, now, p1, p2, w1, w2, s, coin);
    if p1.deviceId != p2.deviceId {
      assert Ids(d.players) == {p1.deviceId, p2.deviceId} by {
        assert d.players[0] in d.players && d.players[1] in d.players;
      }
    } else {
      assert d.players[0] in d.players;
    }
  }

  /**
   * A session built after the input checks pass is valid, waiting, in round 1, has both devices as
   * players in their roles with their own words and names, score 0, no attempts and the users'
   * power-up counts, and gives player 1 the first turn when a bot plays. When both users share a
   * device, player 2's entry is the only one.
   */
  lemma NewSessionFacts(sid: string, now: int, p1: WordleUser, p2: WordleUser, w1: seq<string>, w2: seq<string>,
                        s: GameSettings, coin: PlayerRole, pts: map<string, string>)
    requires CreateCheck(p1, p2, w1, w2, s, pts).None?
    ensures var d := NewSession(sid, now, p1, p2, w1, w2, s, coin);
      && d.Valid()
      && d.gameState == Waiting && d.currentRound == 1 && d.outcome.None? && d.turnTimerExpiresAt.None?
      && Ids(d.players) == {p1.deviceId, p2.deviceId}
      && (forall p | p in d.players :: p.score == 0 && p.attempts == [] && p.connected)
      && d.GetPlayerById(p2.deviceId).Some?
      && var two := d.GetPlayerById(p2.deviceId).value;
      && two.role == Player2 && two.secretWords == w2 && two.username == Some(p2.username)
      && two.powerUps
           == [PowerUp(RevealLetter, p2.revealLetter), PowerUp(FishOut, p2.fishOut), PowerUp(AiMeaning, p2.aiMeaning)]
      && (p1.deviceId != p2.deviceId ==>
            && d.GetPlayerById(p1.deviceId).Some?
            && var one := d.GetPlayerById(p1.deviceId).value;
            && one.role == Player1 && one.secretWords == w1 && one.username == Some(p1.username)
            && one.powerUps
                 == [PowerUp(RevealLetter, p1.revealLetter), PowerUp(FishOut, p1.fishOut), PowerUp(AiMeaning, p1.aiMeaning)])
      && (p1.deviceId == p2.deviceId ==> |d.players| == 1)
      && (StartsWith(p1.deviceId, "bot_") || StartsWith(p2.deviceId, "bot_") ==> d.currentTurn == Player1)
  {
    var d := NewSession(sid, now, p1, p2, w1, w2, s, coin);
    NewSessionValid(sid, now, p1, p2, w1, w2, s, coin, pts);
    if p1.deviceId != p2.deviceId {
      assert d.players[1].playerId == p2.deviceId;
    }
  }

  // ---------------------------------------------------------------------------------
  // play

  function WinReason(username: Option<string>): string
  {
    "Player " + username.GetOr("None") + " won"
  }

  /** The opponent's secret word for the current round: the word the caller must guess. */
  function TargetWord(d: SessionData, pid: string): (w: string)
    requires d.Valid() && d.GetOpponent(pid).Some?
    ensures |w| == d.settings.wordLength
  {
    var opp := d.GetOpponent(pid).value;
    assert WordsFit(opp, d.settings);
    opp.secretWords[d.currentRound - 1]
  }

  /** `play` scores the guess: the opponent is there, the game is in progress, it is the caller's turn and the guess has the right length. */
  predicate Accepted(d: SessionData, pid: string, guess: string)
  {
    d.GetOpponent(pid).Some? && d.gameState == InProgress && d.IsPlayerTurn(pid) && |guess| == d.settings.wordLength
  }

  /** Why `play` turns a guess away, checked in the source's order. */
  function Rejection(d: SessionData, pid: string, guess: string): (r: PlayOutcome)
  {
    match d.GetOpponent(pid)
    case None => OpponentNotFound
    case Some(opp) =>
      if d.gameState != InProgress then WaitingFor(opp.role)
      else if !d.IsPlayerTurn(pid) then NotYourTurnToGuess
      else WrongGuessLength(d.settings.wordLength)
  }

  /** The caller's record after `attempt`: the attempt appended, and one more point when it was correct. */
  function RecordAttempt(p: PlayerInfo, attempt: GuessAttempt, correct: bool): PlayerInfo
  {
    p.(attempts := p.attempts + [attempt], score := if correct then p.score + 1 else p.score)
  }

  /**
   * The outcome and session after an accepted guess whose attempt is `attempt`: the attempt is
   * recorded; a correct guess in the last round names the winner, a correct guess before it
   * moves the turn and the round on, and an incorrect guess moves the turn on.
   */
  function AfterGuess(d: SessionData, pid: string, attempt: GuessAttempt, correct: bool, now: int): (PlayOutcome, SessionData)
    requires d.Valid() && d.HasPlayer(pid) && d.GetOpponent(pid).Some?
  {
    var after := d.SetPlayer(RecordAttempt(d.GetPlayerById(pid).value, attempt, correct));
    if !correct then (Guessed(attempt, false, None), after.WithNextTurn(now))
    else if d.IsLastRound() then (Guessed(attempt, true, Some(Winner(d, pid).playerId)), after)
    else (Guessed(attempt, true, None), after.WithNextTurn(now).WithNextRound().1)
  }

  /**
   * The winner `play` names after a correct last-round guess by `pid`: the caller when the
   * point just won puts them ahead of the opponent, otherwise the opponent.
   */
  function Winner(d: SessionData, pid: string): PlayerInfo
    requires d.Valid() && d.GetOpponent(pid).Some?
  {
    var me := d.GetPlayerById(pid).value;
    var opp := d.GetOpponent(pid).value;
    if me.score + 1 > opp.score then me else opp
  }

  /**
   * What `play` does to a session in which the caller plays, before any call to `end_game`:
   * the outcome and the session afterwards. An outcome with a winner means the game ends.
   */
  function PlayRule(d: SessionData, pid: string, guess: string, now: int): (PlayOutcome, SessionData)
    requires d.Valid() && d.HasPlayer(pid)
  {
    if !Accepted(d, pid, guess) then (Rejection(d, pid, guess), d)
    else AfterGuess(d, pid, AttemptOf(d, pid, guess), IsCorrectGuess(d, pid, guess), now)
  }

  /** The caller's guess scored against the opponent's word for the current round. */
  function AttemptOf(d: SessionData, pid: string, guess: string): GuessAttempt
    requires d.Valid() && d.GetOpponent(pid).Some? && |guess| == d.settings.wordLength
  {
    GuessAttempt(pid, Some(Evaluate(TargetWord(d, pid), guess)), guess)
  }

  predicate IsCorrectGuess(d: SessionData, pid: string, guess: string)
    requires d.Valid() && d.GetOpponent(pid).Some? && |guess| == d.settings.wordLength
  {
    Evaluate(TargetWord(d, pid), guess).IsCorrect()
  }

  /**
   * A guess is turned away, with the session unchanged, unless the opponent is there, the game
   * is in progress, it is the caller's turn and the guess has the right length.
   */
  lemma PlayRejects(d: SessionData, pid: string, guess: string, now: int)
    requires d.Valid() && d.HasPlayer(pid)
    ensures !Accepted(d, pid, guess) <==> !PlayRule(d, pid, guess, now).0.Guessed?
    ensures !Accepted(d, pid, guess) ==> PlayRule(d, pid, guess, now).1 == d
    ensures d.GetOpponent(pid).None? ==> PlayRule(d, pid, guess, now).0 == OpponentNotFound
    ensures d.GetOpponent(pid).Some? && d.gameState != InProgress ==>
      PlayRule(d, pid, guess, now).0 == WaitingFor(d.GetOpponent(pid).value.role)
  {
  }

  /** Every guess, accepted or not, leaves a valid session valid. */
  lemma PlayKeepsValid(d: SessionData, pid: string, guess: string, now: int)
    requires d.Valid() && d.HasPlayer(pid)
    ensures PlayRule(d, pid, guess, now).1.Valid()
  {
    if Accepted(d, pid, guess) {
      AfterGuessKeepsValid(d, pid, AttemptOf(d, pid, guess), IsCorrectGuess(d, pid, guess), now);
    }
  }

  lemma AfterGuessKeepsValid(d: SessionData, pid: string, attempt: GuessAttempt, correct: bool, now: int)
    requires d.Valid() && d.HasPlayer(pid) && d.GetOpponent(pid).Some?
    ensures AfterGuess(d, pid, attempt, correct, now).1.Valid()
  {
    var me' := RecordAttempt(d.GetPlayerById(pid).value, attempt, correct);
    SetPlayerKeepsValid(d, me');
    var mid := d.SetPlayer(me');
    NextTurnTwice(mid, now, now);
    NextRoundKeepsValid(mid.WithNextTurn(now));
  }

  /**
   * After an accepted guess the caller holds one more attempt, and one more point when the guess
   * was correct; the opponent is untouched.
   */
  lemma AfterGuessPlayers(d: SessionData, pid: string, attempt: GuessAttempt, correct: bool, now: int)
    requires d.Valid() && d.HasPlayer(pid) && d.GetOpponent(pid).Some?
    ensures var after := AfterGuess(d, pid, attempt, correct, now).1;
      var me := d.GetPlayerById(pid).value;
      && after.GetPlayerById(pid) == Some(RecordAttempt(me, attempt, correct))
      && after.GetOpponent(pid) == d.GetOpponent(pid)
  {
    OpponentIsOther(d, pid);
    var me' := RecordAttempt(d.GetPlayerById(pid).value, attempt, correct);
    var mid := d.SetPlayer(me');
    SetPlayerLookups(d, me', d.GetOpponent(pid).value.playerId);
    var after := AfterGuess(d, pid, attempt, correct, now).1;
    if !correct || !d.IsLastRound() {
      NextTurnFields(mid, now);
      assert after.players == mid.players;
      SamePlayers(mid, after, pid);
    }
  }

  /**
   * An incorrect guess, scored against the opponent's word for the current round, appends one
   * attempt to the caller and passes the turn; scores and round stay as they were.
   */
  lemma PlayIncorrect(d: SessionData, pid: string, guess: string, now: int)
    requires d.Valid() && d.HasPlayer(pid) && Accepted(d, pid, guess)
    requires !IsCorrectGuess(d, pid, guess)
    ensures PlayRule(d, pid, guess, now).0 == Guessed(AttemptOf(d, pid, guess), false, None)
    ensures var after := PlayRule(d, pid, guess, now).1;
      var me := d.GetPlayerById(pid).value;
      && after.GetPlayerById(pid) == Some(RecordAttempt(me, AttemptOf(d, pid, guess), false))
      && after.GetOpponent(pid) == d.GetOpponent(pid)
      && after.currentTurn == OtherRole(d.currentTurn)
      && after.currentRound == d.currentRound
      && after.turnTimerExpiresAt.Some?
      && after.turnTimerExpiresAt.value == now + d.settings.turnTimeLimit
  {
    var attempt := AttemptOf(d, pid, guess);
    var me' := RecordAttempt(d.GetPlayerById(pid).value, attempt, false);
    AfterGuessPlayers(d, pid, attempt, false, now);
    SetPlayerKeepsRest(d, me');
    NextTurnFields(d.SetPlayer(me'), now);
  }

  /**
   * A correct guess adds one to the caller's score. Before the last round it passes the turn and
   * advances the round; in the last round it names the winner: the caller when their new score
   * beats the opponent's, the opponent otherwise (a tie goes to the opponent).
   */
  lemma PlayCorrect(d: SessionData, pid: string, guess: string, now: int)
    requires d.Valid() && d.HasPlayer(pid) && Accepted(d, pid, guess)
    requires IsCorrectGuess(d, pid, guess)
    ensures var out := PlayRule(d, pid, guess, now).0;
      var after := PlayRule(d, pid, guess, now).1;
      var me := d.GetPlayerById(pid).value;
      var opp := d.GetOpponent(pid).value;
      && out.Guessed? && out.attempt == AttemptOf(d, pid, guess) && out.correct
      && after.GetPlayerById(pid) == Some(RecordAttempt(me, AttemptOf(d, pid, guess), true))
      && after.GetOpponent(pid) == Some(opp)
      && (d.IsLastRound() ==>
            && out.winner == Some(if me.score + 1 > opp.score then pid else opp.playerId)
            && after.currentTurn == d.currentTurn && after.currentRound == d.currentRound)
      && (!d.IsLastRound() ==>
            && out.winner.None?
            && after.currentTurn == OtherRole(d.currentTurn)
            && after.currentRound == d.currentRound + 1)
  {
    AfterGuessPlayers(d, pid, AttemptOf(d, pid, guess), true, now);
  }

  /** The recorded attempt is appended to the caller's attempts, and a correct one scores a point. */
  lemma RecordAttemptFields(p: PlayerInfo, attempt: GuessAttempt, correct: bool)
    ensures var r := RecordAttempt(p, attempt, correct);
      && r.attempts == p.attempts + [attempt]
      && r.score == (if correct then p.score + 1 else p.score)
      && r.playerId == p.playerId && r.role == p.role && r.secretWords == p.secretWords
      && r.powerUps == p.powerUps
  {
  }

  // ---------------------------------------------------------------------------------
  // use_power_up

  /** Index of the first power-up of `kind`, as `next(...)` finds it. */
  function FindPowerUp(ps: seq<PowerUp>, kind: PowerUpType): (r: Option<nat>)
    ensures r.Some? ==> r.value < |ps| && ps[r.value].kind == kind
    ensures r.Some? ==> forall j :: 0 <= j < r.value ==> ps[j].kind != kind
    ensures r.None? <==> forall j :: 0 <= j < |ps| ==> ps[j].kind != kind
  {
    if |ps| == 0 then None
    else if ps[0].kind == kind then Some(0)
    else match FindPowerUp(ps[1..], kind)
      case None => None
      case Some(k) => Some(k + 1)
  }

  /** The power-up list after one use of entry `i` is taken. */
  function SpendUse(ps: seq<PowerUp>, i: nat): (r: seq<PowerUp>)
    requires i < |ps|
    ensures |r| == |ps| && r[i].kind == ps[i].kind && r[i].remaining == ps[i].remaining - 1
    ensures forall j :: 0 <= j < |ps| && j != i ==> r[j] == ps[j]
  {
    ps[i := PowerUp(ps[i].kind, ps[i].remaining - 1)]
  }

  /** The caller's record holding the power-up list `ps`. */
  function WithPowerUps(p: PlayerInfo, ps: seq<PowerUp>): (r: PlayerInfo)
    ensures r.powerUps == ps
    ensures r.playerId == p.playerId && r.username == p.username && r.role == p.role
    ensures r.secretWords == p.secretWords && r.attempts == p.attempts
    ensures r.score == p.score && r.connected == p.connected
  {
    p.(powerUps := ps)
  }

  /** The helper `use_power_up` dispatches to for `kind`. */
  function PowerUpCallFor(kind: PowerUpType, secret: Option<string>, revealed: seq<int>, fished: seq<string>): PowerUpCall
  {
    match kind
    case FishOut => FishOutCall(secret, fished)
    case RevealLetter => RevealLetterCall(secret, revealed)
    case AiMeaning => AiMeaningCall(secret)
  }

  /**
   * What `use_power_up` does to the caller's session: the helper it calls and the session
   * afterwards, or the error it raises.
   */
  function UsePowerUpRule(d: SessionData, pid: string, kind: PowerUpType, revealed: seq<int>, fished: seq<string>)
    : Result<(PowerUpCall, SessionData), GameError>
    requires d.currentRound >= 1
  {
    match d.GetPlayerById(pid)
    case None => Err(MissingPlayer)
    case Some(me) =>
      if d.currentTurn != me.role then Err(NotYourTurn)
      else match d.GetOpponent(me.playerId)
        case None => Err(MissingPlayer)
        case Some(opp) =>
          match FindPowerUp(me.powerUps, kind)
          case None => Err(PowerUpNotFound(kind))
          case Some(i) =>
            if me.powerUps[i].remaining <= 0 then Err(NoRemainingUses(kind))
            else
              var call := PowerUpCallFor(kind, d.GetCurrentWord(opp.playerId), revealed, fished);
              Ok((call, d.SetPlayer(WithPowerUps(me, SpendUse(me.powerUps, i)))))
  }

  /** `use_power_up` raises, changing nothing, when it is not the caller's turn or the power-up is used up. */
  lemma UsePowerUpRefuses(d: SessionData, pid: string, kind: PowerUpType, revealed: seq<int>, fished: seq<string>)
    requires d.Valid() && d.HasPlayer(pid)
    ensures !d.IsPlayerTurn(pid) ==> UsePowerUpRule(d, pid, kind, revealed, fished) == Err(NotYourTurn)
    ensures var me := d.GetPlayerById(pid).value;
      d.IsPlayerTurn(pid) && d.GetOpponent(pid).Some? && FindPowerUp(me.powerUps, kind).Some?
        && me.powerUps[FindPowerUp(me.powerUps, kind).value].remaining <= 0
      ==> UsePowerUpRule(d, pid, kind, revealed, fished) == Err(NoRemainingUses(kind))
    ensures var me := d.GetPlayerById(pid).value;
      d.IsPlayerTurn(pid) && d.GetOpponent(pid).Some? && FindPowerUp(me.powerUps, kind).None?
      ==> UsePowerUpRule(d, pid, kind, revealed, fished) == Err(PowerUpNotFound(kind))
  {
  }

  /**
   * A successful `use_power_up` takes exactly one use from the caller's first power-up of that
   * kind, which had one to spare, keeps the session valid and changes nothing else: not the
   * caller's other fields, not the opponent, not the turn, the round or the state.
   */
  lemma UsePowerUpSpends(d: SessionData, pid: string, kind: PowerUpType, revealed: seq<int>, fished: seq<string>)
    requires d.Valid() && d.HasPlayer(pid)
    requires UsePowerUpRule(d, pid, kind, revealed, fished).Ok?
    ensures var me := d.GetPlayerById(pid).value;
      var after := UsePowerUpRule(d, pid, kind, revealed, fished).value.1;
      var i := FindPowerUp(me.powerUps, kind).value;
      && d.IsPlayerTurn(pid) && me.powerUps[i].remaining > 0
      && after.Valid()
      && after.GetPlayerById(pid) == Some(WithPowerUps(me, SpendUse(me.powerUps, i)))
      && after.GetOpponent(pid) == d.GetOpponent(pid)
      && after.currentTurn == d.currentTurn && after.currentRound == d.currentRound
      && after.gameState == d.gameState && after.turnTimerExpiresAt == d.turnTimerExpiresAt
  {
    var me := d.GetPlayerById(pid).value;
    var i := FindPowerUp(me.powerUps, kind).value;
    var me' := WithPowerUps(me, SpendUse(me.powerUps, i));
    SetPlayerKeepsValid(d, me');
    SetPlayerKeepsRest(d, me');
    OpponentIsOther(d, pid);
    SetPlayerLookups(d, me', d.GetOpponent(pid).value.playerId);
  }

  // ---------------------------------------------------------------------------------
  // The sweeps

  /** The cleanup sweep ends a session on a turn timeout: a timer that has run out, past `waiting`. */
  predicate TurnTimedOut(d: SessionData, now: int)
  {
    d.turnTimerExpiresAt.Some? && now > d.turnTimerExpiresAt.value && d.gameState != Waiting
  }

  /**
   * The cleanup sweep ends a session older than two hours. `now` is the sweep's local clock and
   * `createdAt` a UTC stamp; any offset between the two is the caller's to supply.
   */
  predicate Expired(d: SessionData, now: int)
  {
    now - d.createdAt > SessionLifetime
  }

  /** The AI sweep passes the turn in a game against the AI that waits on player 2's expired timer. */
  predicate AiTurnDue(d: SessionData, now: int)
  {
    d.settings.versusAi && d.currentTurn == Player2 && d.turnTimerExpiresAt.Some?
    && now > d.turnTimerExpiresAt.value
  }

  /** `start_game`'s change to a waiting session: in progress, with the turn timer started at `now`. */
  function Started(d: SessionData, now: int): (r: SessionData)
    ensures r.gameState == InProgress
    ensures r.turnTimerExpiresAt.Some? && r.turnTimerExpiresAt.value == now + d.settings.turnTimeLimit
    ensures r.players == d.players && r.currentTurn == d.currentTurn && r.currentRound == d.currentRound
    ensures r.sessionId == d.sessionId && r.settings == d.settings && r.outcome == d.outcome
  {
    d.(gameState := InProgress, turnTimerExpiresAt := Some(now + d.settings.turnTimeLimit))
  }

  /** `end_game`'s change to a session: over, with the given outcome recorded. */
  function Ended(d: SessionData, outcome: GameOutcome): (r: SessionData)
    ensures r.gameState == GameOver && r.outcome == Some(outcome)
    ensures r.players == d.players && r.currentTurn == d.currentTurn && r.currentRound == d.currentRound
    ensures r.sessionId == d.sessionId && r.settings == d.settings
  {
    d.(gameState := GameOver, outcome := Some(outcome))
  }

  /** One call to `end_game` made by a sweep: the session, the winner and the reason. */
  datatype EndCall = EndCall(sessionId: string, winnerId: Option<string>, reason: string)

  /** `list(active_games.items())`: the sessions in the order `order` lists their ids. */
  function Snapshot(games: map<string, SessionData>, order: seq<string>): (r: seq<SessionData>)
    requires forall i | 0 <= i < |order| :: order[i] in games
    ensures |r| == |order|
    ensures forall i | 0 <= i < |order| :: r[i] == games[order[i]]
  {
    if |order| == 0 then [] else [games[order[0]]] + Snapshot(games, order[1..])
  }

  /** The `end_game` call the cleanup sweep makes for a timed-out turn in `d`, if any. */
  function TimeoutCall(d: SessionData, now: int): (r: seq<EndCall>)
    ensures |r| <= 1
    ensures forall c | c in r :: c.sessionId == d.sessionId && TurnTimedOut(d, now)
  {
    if !TurnTimedOut(d, now) then []
    else match d.GetPlayerByRole(d.currentTurn)
      case None => []
      case Some(current) =>
        match d.GetOpponent(current.playerId)
        case None => []
        case Some(opp) => [EndCall(d.sessionId, Some(opp.playerId), "turn_timeout")]
  }

  /**
   * What the first loop of the cleanup sweep does with one session: stop the pass (a timed-out
   * session whose current-turn role has no player, so reading its `player_id` raises and the
   * sweep's handler abandons the rest of the pass), or go on after making its timeout call and
   * noting whether it is expired.
   */
  datatype Verdict = Abort | Go(calls: seq<EndCall>, expired: seq<string>)

  function VerdictOf(d: SessionData, now: int): (v: Verdict)
    ensures v.Go? ==> v.calls == TimeoutCall(d, now)
    ensures v.Go? ==> v.expired == if Expired(d, now) then [d.sessionId] else []
    ensures v.Abort? <==> TurnTimedOut(d, now) && d.GetPlayerByRole(d.currentTurn).None?
  {
    if TurnTimedOut(d, now) && d.GetPlayerByRole(d.currentTurn).None? then Abort
    else Go(TimeoutCall(d, now), if Expired(d, now) then [d.sessionId] else [])
  }

  function Verdicts(snap: seq<SessionData>, now: int): (r: seq<Verdict>)
    ensures |r| == |snap|
    ensures forall i | 0 <= i < |snap| :: r[i] == VerdictOf(snap[i], now)
  {
    if |snap| == 0 then [] else [VerdictOf(snap[0], now)] + Verdicts(snap[1..], now)
  }

  /**
   * The first loop over the verdicts `vs`: the calls made, the expired ids noted and whether the
   * pass stopped.
   */
  function Pass(vs: seq<Verdict>): (r: (seq<EndCall>, seq<string>, bool))
  {
    if |vs| == 0 then ([], [], false) else PassStep(Pass(vs[..|vs| - 1]), vs[|vs| - 1])
  }

  /** One session of the first loop: nothing more happens once the pass has stopped. */
  function PassStep(p: (seq<EndCall>, seq<string>, bool), v: Verdict): (r: (seq<EndCall>, seq<string>, bool))
  {
    if p.2 || v.Abort? then (p.0, p.1, true) else (p.0 + v.calls, p.1 + v.expired, false)
  }

  /** The first loop of the cleanup sweep over the snapshot `snap`. */
  function TimeoutPass(snap: seq<SessionData>, now: int): (seq<EndCall>, seq<string>, bool)
  {
    Pass(Verdicts(snap, now))
  }

  /** The second loop of the cleanup sweep: one `end_game` call per expired id, in order. */
  function ExpiryCalls(sids: seq<string>): (r: seq<EndCall>)
    ensures |r| == |sids|
    ensures forall i | 0 <= i < |sids| :: r[i] == EndCall(sids[i], None, "session_expired")
  {
    if |sids| == 0 then [] else [EndCall(sids[0], None, "session_expired")] + ExpiryCalls(sids[1..])
  }

  /** Every `end_game` call of one cleanup pass; the second loop is not reached after an abort. */
  function SweepCalls(snap: seq<SessionData>, now: int): seq<EndCall>
  {
    var (calls, expired, aborted) := TimeoutPass(snap, now);
    if aborted then calls else calls + ExpiryCalls(expired)
  }

  function CallIds(calls: seq<EndCall>): set<string>
  {
    set c | c in calls :: c.sessionId
  }

  lemma CallIdsSnoc(calls: seq<EndCall>, c: EndCall)
    ensures CallIds(calls + [c]) == CallIds(calls) + {c.sessionId}
  {
    assert forall x | x in calls + [c] :: x in calls || x == c;
  }

  lemma CallIdsAppend(calls: seq<EndCall>, more: seq<EndCall>)
    ensures CallIds(calls + more) == CallIds(calls) + CallIds(more)
  {
    assert forall x | x in calls + more :: x in calls || x in more;
  }

  lemma ExpiryCallsSnoc(sids: seq<string>, sid: string)
    ensures ExpiryCalls(sids + [sid]) == ExpiryCalls(sids) + [EndCall(sid, None, "session_expired")]
  {
    assert |ExpiryCalls(sids + [sid])| == |ExpiryCalls(sids) + [EndCall(sid, None, "session_expired")]|;
  }

  /** The first loop after one more session. */
  lemma PassSnoc(vs: seq<Verdict>, i: nat)
    requires i < |vs|
    ensures Pass(vs[..i + 1]) == PassStep(Pass(vs[..i]), vs[i])
  {
    assert vs[..i + 1][..i] == vs[..i];
  }

  lemma SliceSnoc<T>(s: seq<T>, j: nat)
    requires j < |s|
    ensures s[..j + 1] == s[..j] + [s[j]]
  {
  }

  /** Once the first loop has stopped, the rest of the verdicts add nothing. */
  lemma {:induction false} PassAborted(vs: seq<Verdict>, i: nat)
    requires i <= |vs|
    requires i == |vs| || Pass(vs[..i]).2
    ensures Pass(vs) == Pass(vs[..i])
    decreases |vs|
  {
    if i == |vs| {
      assert vs[..i] == vs;
    } else {
      var init := vs[..|vs| - 1];
      assert init[..i] == vs[..i];
      PassAborted(init, i);
    }
  }

  /** Without a stop, the first loop makes every call of every verdict and notes every id. */
  lemma {:induction false} PassComplete(vs: seq<Verdict>)
    ensures !Pass(vs).2 ==>
      forall i | 0 <= i < |vs| ::
        && vs[i].Go?
        && (forall c | c in vs[i].calls :: c in Pass(vs).0)
        && (forall sid | sid in vs[i].expired :: sid in Pass(vs).1)
  {
    if |vs| > 0 && !Pass(vs).2 {
      var n := |vs| - 1;
      PassComplete(vs[..n]);
      forall i | 0 <= i < |vs|
        ensures vs[i].Go?
        ensures forall c | c in vs[i].calls :: c in Pass(vs).0
        ensures forall sid | sid in vs[i].expired :: sid in Pass(vs).1
      {
        if i < n {
          assert vs[..n][i] == vs[i];
        }
      }
    }
  }

  /** Every call and every id of the first loop comes from one of the verdicts. */
  lemma {:induction false} PassSound(vs: seq<Verdict>)
    ensures forall c | c in Pass(vs).0 :: exists i | 0 <= i < |vs| :: vs[i].Go? && c in vs[i].calls
    ensures forall sid | sid in Pass(vs).1 :: exists i | 0 <= i < |vs| :: vs[i].Go? && sid in vs[i].expired
  {
    if |vs| > 0 {
      var n := |vs| - 1;
      PassSound(vs[..n]);
      forall c | c in Pass(vs).0
        ensures exists i | 0 <= i < |vs| :: vs[i].Go? && c in vs[i].calls
      {
        if c in Pass(vs[..n]).0 {
          var i :| 0 <= i < n && vs[..n][i].Go? && c in vs[..n][i].calls;
          assert vs[..n][i] == vs[i];
        } else {
          assert vs[n].Go? && c in vs[n].calls;
        }
      }
      forall sid | sid in Pass(vs).1
        ensures exists i | 0 <= i < |vs| :: vs[i].Go? && sid in vs[i].expired
      {
        if sid in Pass(vs[..n]).1 {
          var i :| 0 <= i < n && vs[..n][i].Go? && sid in vs[..n][i].expired;
          assert vs[..n][i] == vs[i];
        } else {
          assert vs[n].Go? && sid in vs[n].expired;
        }
      }
    }
  }

  /**
   * Without an abort, a cleanup pass ends every session of the snapshot that is older than two
   * hours with the reason `session_expired`.
   */
  lemma SweepEndsExpired(snap: seq<SessionData>, now: int)
    ensures !TimeoutPass(snap, now).2 ==>
      forall i | 0 <= i < |snap| && Expired(snap[i], now) ::
        EndCall(snap[i].sessionId, None, "session_expired") in SweepCalls(snap, now)
  {
    var vs := Verdicts(snap, now);
    PassComplete(vs);
    var (calls, expired, aborted) := Pass(vs);
    if !aborted {
      forall i | 0 <= i < |snap| && Expired(snap[i], now)
        ensures EndCall(snap[i].sessionId, None, "session_expired") in SweepCalls(snap, now)
      {
        assert snap[i].sessionId in vs[i].expired;
        var k :| 0 <= k < |expired| && expired[k] == snap[i].sessionId;
        assert ExpiryCalls(expired)[k] == EndCall(snap[i].sessionId, None, "session_expired");
      }
    }
  }

  /**
   * Without an abort, a cleanup pass gives every timed-out session of the snapshot whose
   * current player has an opponent to that opponent.
   */
  lemma SweepEndsTimedOut(snap: seq<SessionData>, now: int)
    ensures !TimeoutPass(snap, now).2 ==>
      forall i | 0 <= i < |snap| :: forall c | c in TimeoutCall(snap[i], now) :: c in SweepCalls(snap, now)
  {
    var vs := Verdicts(snap, now);
    PassComplete(vs);
    if !Pass(vs).2 {
      forall i | 0 <= i < |snap|
        ensures forall c | c in TimeoutCall(snap[i], now) :: c in SweepCalls(snap, now)
      {
        assert vs[i].Go?;
      }
    }
  }

  /** Every call a cleanup pass makes is a timeout call or an expiry call for a session of the snapshot. */
  lemma SweepCallsSound(snap: seq<SessionData>, now: int)
    ensures forall c | c in SweepCalls(snap, now) ::
      exists i | 0 <= i < |snap| ::
        c in TimeoutCall(snap[i], now) || (c == EndCall(snap[i].sessionId, None, "session_expired") && Expired(snap[i], now))
  {
    var p := Pass(Verdicts(snap, now));
    forall c | c in SweepCalls(snap, now)
      ensures exists i | 0 <= i < |snap| ::
        c in TimeoutCall(snap[i], now) || (c == EndCall(snap[i].sessionId, None, "session_expired") && Expired(snap[i], now))
    {
      if c in p.0 {
        var i := TimeoutCallSource(snap, now, c);
      } else {
        assert !p.2 && c in ExpiryCalls(p.1);
        var i := ExpiryCallSource(snap, now, c);
      }
    }
  }

  /** A timeout call of the first loop comes from one session of the snapshot. */
  lemma TimeoutCallSource(snap: seq<SessionData>, now: int, c: EndCall) returns (i: nat)
    requires c in Pass(Verdicts(snap, now)).0
    ensures i < |snap| && c in TimeoutCall(snap[i], now)
  {
    var vs := Verdicts(snap, now);
    PassSound(vs);
    i :| 0 <= i < |vs| && vs[i].Go? && c in vs[i].calls;
    assert vs[i] == VerdictOf(snap[i], now);
  }

  /** An expiry call of the second loop names an expired session of the snapshot. */
  lemma ExpiryCallSource(snap: seq<SessionData>, now: int, c: EndCall) returns (i: nat)
    requires c in ExpiryCalls(Pass(Verdicts(snap, now)).1)
    ensures i < |snap| && c == EndCall(snap[i].sessionId, None, "session_expired") && Expired(snap[i], now)
  {
    var vs := Verdicts(snap, now);
    var expired := Pass(vs).1;
    PassSound(vs);
    var k :| 0 <= k < |expired| && ExpiryCalls(expired)[k] == c;
    assert expired[k] in expired;
    i :| 0 <= i < |vs| && vs[i].Go? && expired[k] in vs[i].expired;
    assert vs[i] == VerdictOf(snap[i], now);
  }

  /**
   * The loop of `_update_game_session` over the session's players: each one is mapped to
   * `sid`, every other entry is kept.
   */
  method MapPlayers(pts: map<string, string>, ps: seq<PlayerInfo>, sid: string) returns (r: map<string, string>)
    ensures forall k :: k in r <==> k in pts || k in Ids(ps)
    ensures forall k | k in r :: r[k] == if k in Ids(ps) then sid else pts[k]
  {
    r := pts;
    var i := 0;
    while i < |ps|
      invariant 0 <= i <= |ps|
      invariant forall k :: k in r <==> k in pts || k in Ids(ps[..i])
      invariant forall k | k in r :: r[k] == if k in Ids(ps[..i]) then sid else pts[k]
    {
      IdsSnoc(ps, i);
      r := r[ps[i].playerId := sid];
      i := i + 1;
    }
    assert ps[..i] == ps;
  }

  // ---------------------------------------------------------------------------------
  // The manager object

  /**
   * The game manager. The source keeps `GameSession` objects in its table and writes each one
   * back with `_update_game_session` after changing it; here the table holds the sessions as
   * values and every change is such a write-back.
   */
  class GameManager {
    var activeGames: map<string, SessionData>
    var playerToSession: map<string, string>
    var afterGameHandlers: map<string, seq<AfterGameHandler>>

    /** Each session is filed under its own id and is valid, and the two tables agree. */
    ghost predicate Valid()
      reads this`activeGames, this`playerToSession
    {
      && (forall sid | sid in activeGames :: activeGames[sid].sessionId == sid && activeGames[sid].Valid())
      && Consistent(activeGames, playerToSession)
    }

    constructor ()
      ensures Valid()
      ensures activeGames == map[] && playerToSession == map[] && afterGameHandlers == map[]
    {
      activeGames := map[];
      playerToSession := map[];
      afterGameHandlers := map[];
    }

    /**
     * `create_game` with a fresh session id `sessionId` (the id `uuid4` would give). Errors leave
     * the manager unchanged; success files a new waiting session and maps both devices to it.
     */
    method CreateGame(player1: WordleUser, player2: WordleUser, words1: seq<string>, words2: seq<string>,
                      settings: Option<GameSettings>, coin: PlayerRole, sessionId: string, now: int)
      returns (r: Result<SessionData, GameError>)
      requires Valid()
      requires sessionId !in activeGames
      modifies this
      ensures Valid()
      ensures afterGameHandlers == old(afterGameHandlers)
      ensures var s := settings.GetOr(DefaultSettings);
        var check := CreateCheck(player1, player2, words1, words2, s, old(playerToSession));
        && (check.Some? ==>
              r == Err(check.value) && activeGames == old(activeGames) && playerToSession == old(playerToSession))
        && (check.None? ==>
              && r == Ok(NewSession(sessionId, now, player1, player2, words1, words2, s, coin))
              && activeGames == old(activeGames)[sessionId := r.value]
              && playerToSession == old(playerToSession)[player1.deviceId := sessionId][player2.deviceId := sessionId])
    {
      var s := settings.GetOr(DefaultSettings);
      var check := CreateCheck(player1, player2, words1, words2, s, playerToSession);
      if check.Some? {
        return Err(check.value);
      }
      NewSessionValid(sessionId, now, player1, player2, words1, words2, s, coin, playerToSession);
      var d := NewSession(sessionId, now, player1, player2, words1, words2, s, coin);
      RegisterFreshKeepsConsistent(activeGames, playerToSession, sessionId, d, player1.deviceId, player2.deviceId);
      activeGames := activeGames[sessionId := d];
      playerToSession := playerToSession[player1.deviceId := sessionId][player2.deviceId := sessionId];
      r := Ok(d);
    }

    /**
     * `_update_game_session`: files the session under its id and maps each of its players to
     * it. For a session already filed with the same players the player table stays as it was.
     */
    method UpdateGameSession(d: SessionData)
      requires Valid() && d.Valid()
      requires d.sessionId in activeGames && Ids(d.players) == Ids(activeGames[d.sessionId].players)
      modifies this
      ensures Valid()
      ensures activeGames == old(activeGames)[d.sessionId := d]
      ensures playerToSession == old(playerToSession) && afterGameHandlers == old(afterGameHandlers)
    {
      ReplaceKeepsConsistent(activeGames, playerToSession, d.sessionId, d);
      activeGames := activeGames[d.sessionId := d];
      ghost var before := playerToSession;
      playerToSession := MapPlayers(playerToSession, d.players, d.sessionId);
      MappedToSession(activeGames, before, d.sessionId);
      RemapSame(before, playerToSession, Ids(d.players), d.sessionId);
    }

    /** `start_game`: a waiting session goes in progress with the turn timer started. */
    method StartGame(sessionId: string, now: int) returns (r: Result<bool, GameError>)
      requires Valid()
      modifies this
      ensures Valid()
      ensures playerToSession == old(playerToSession) && afterGameHandlers == old(afterGameHandlers)
      ensures sessionId !in old(activeGames) ==> r == Err(SessionNotFound) && activeGames == old(activeGames)
      ensures sessionId in old(activeGames) && old(activeGames[sessionId]).gameState != Waiting ==>
        r == Err(NotWaiting) && activeGames == old(activeGames)
      ensures sessionId in old(activeGames) && old(activeGames[sessionId]).gameState == Waiting ==>
        r == Ok(true) && activeGames == old(activeGames)[sessionId := Started(old(activeGames[sessionId]), now)]
    {
      if sessionId !in activeGames {
        return Err(SessionNotFound);
      }
      var d := activeGames[sessionId];
      if d.gameState != Waiting {
        return Err(NotWaiting);
      }
      var d' := Started(d, now);
      assert Ids(d'.players) == Ids(d.players);
      UpdateGameSession(d');
      r := Ok(true);
    }

    /** `register_after_game_handler`: appends `handler` to the session's list. */
    method RegisterAfterGameHandler(sessionId: string, handler: AfterGameHandler)
      modifies this
      ensures activeGames == old(activeGames) && playerToSession == old(playerToSession)
      ensures afterGameHandlers == old(afterGameHandlers)[sessionId := old(HandlersOf(sessionId)) + [handler]]
    {
      if sessionId !in afterGameHandlers {
        afterGameHandlers := afterGameHandlers[sessionId := []];
      }
      afterGameHandlers := afterGameHandlers[sessionId := afterGameHandlers[sessionId] + [handler]];
    }

    /** `after_game_handlers.get(session_id, [])`. */
    function HandlersOf(sessionId: string): seq<AfterGameHandler>
      reads this`afterGameHandlers
    {
      if sessionId in afterGameHandlers then afterGameHandlers[sessionId] else []
    }

    /**
     * `_cleanup_game_session`: removes the session and its players' mappings; an unknown id
     * changes nothing.
     */
    method CleanupGameSession(sessionId: string)
      requires Valid()
      modifies this
      ensures Valid()
      ensures afterGameHandlers == old(afterGameHandlers)
      ensures sessionId !in old(activeGames) ==>
        activeGames == old(activeGames) && playerToSession == old(playerToSession)
      ensures sessionId in old(activeGames) ==>
        && activeGames == old(activeGames) - {sessionId}
        && playerToSession == RemoveKeys(old(playerToSession), Ids(old(activeGames[sessionId]).players))
    {
      if sessionId !in activeGames {
        return;
      }
      var ps := activeGames[sessionId].players;
      RemoveKeepsConsistent(activeGames, playerToSession, sessionId);
      var i := 0;
      while i < |ps|
        invariant 0 <= i <= |ps|
        invariant activeGames == old(activeGames) && afterGameHandlers == old(afterGameHandlers)
        invariant forall k :: k in playerToSession <==> k in old(playerToSession) && k !in Ids(ps[..i])
        invariant forall k | k in playerToSession :: playerToSession[k] == old(playerToSession)[k]
      {
        IdsSnoc(ps, i);
        playerToSession := playerToSession - {ps[i].playerId};
        i := i + 1;
      }
      assert ps[..i] == ps;
      assert playerToSession == RemoveKeys(old(playerToSession), Ids(ps));
      activeGames := activeGames - {sessionId};
    }

    /**
     * `end_game`: false for an unknown session. Otherwise the session is over with the given
     * outcome, every registered handler runs on it in order (a failing one does not stop the
     * rest), the handler list is dropped and the session and its players' mappings are removed.
     */
    method EndGame(sessionId: string, winnerId: Option<string>, reason: string, now: int)
      returns (ended: bool, ran: seq<(AfterGameHandler, SessionData)>)
      requires Valid()
      modifies this
      ensures Valid()
      ensures ended <==> sessionId in old(activeGames)
      ensures !ended ==>
        && ran == [] && activeGames == old(activeGames) && playerToSession == old(playerToSession)
        && afterGameHandlers == old(afterGameHandlers)
      ensures ended ==>
        var over := Ended(old(activeGames[sessionId]), GameOutcome(winnerId, Some(reason), now));
        && |ran| == |old(HandlersOf(sessionId))|
        && (forall i :: 0 <= i < |ran| ==> ran[i] == (old(HandlersOf(sessionId))[i], over))
        && afterGameHandlers == old(afterGameHandlers) - {sessionId}
        && activeGames == old(activeGames) - {sessionId}
        && playerToSession == RemoveKeys(old(playerToSession), Ids(old(activeGames[sessionId]).players))
    {
      if sessionId !in activeGames {
        return false, [];
      }
      var over := Ended(activeGames[sessionId], GameOutcome(winnerId, Some(reason), now));
      var handlers := HandlersOf(sessionId);
      ran := [];
      var i := 0;
      while i < |handlers|
        invariant 0 <= i <= |handlers|
        invariant |ran| == i
        invariant forall j :: 0 <= j < i ==> ran[j] == (handlers[j], over)
      {
        ran := ran + [(handlers[i], over)];
        i := i + 1;
      }
      afterGameHandlers := afterGameHandlers - {sessionId};
      CleanupGameSession(sessionId);
      ended := true;
    }

    /**
     * `play`. An unknown session raises; the caller must be a player of a known session (the
     * source indexes `players[player_id]` first and raises `KeyError` otherwise). The outcome is
     * `PlayRule`'s. A winning guess in the last round changes the session in place and ends
     * the game with the winner and the reason naming them; any other guess writes the session
     * back; a refused guess changes nothing.
     */
    method Play(sessionId: string, playerId: string, guess: string, now: int)
      returns (r: Result<PlayOutcome, GameError>, ran: seq<(AfterGameHandler, SessionData)>)
      requires Valid()
      requires sessionId in activeGames ==> activeGames[sessionId].HasPlayer(playerId)
      modifies this
      ensures Valid()
      ensures sessionId !in old(activeGames) ==>
        r == Err(SessionNotFound) && ran == [] && activeGames == old(activeGames)
        && playerToSession == old(playerToSession)
      ensures sessionId in old(activeGames) ==>
        var d := old(activeGames[sessionId]);
        var out := PlayRule(d, playerId, guess, now).0;
        var after := PlayRule(d, playerId, guess, now).1;
        && r == Ok(out)
        && (out.Guessed? && out.winner.Some? ==>
              var over := Ended(after, GameOutcome(out.winner, Some(WinReason(Winner(d, playerId).username)), now));
              && activeGames == old(activeGames) - {sessionId}
              && playerToSession == RemoveKeys(old(playerToSession), Ids(d.players))
              && |ran| == |old(HandlersOf(sessionId))|
              && (forall i :: 0 <= i < |ran| ==> ran[i] == (old(HandlersOf(sessionId))[i], over)))
        && (!(out.Guessed? && out.winner.Some?) ==>
              && ran == []
              && activeGames == old(activeGames)[sessionId := after]
              && playerToSession == old(playerToSession))
    {
      ran := [];
      if sessionId !in activeGames {
        return Err(SessionNotFound), [];
      }
      var d := activeGames[sessionId];
      PlayRejects(d, playerId, guess, now);
      var opponent := d.GetOpponent(playerId);
      if opponent.None? {
        return Ok(OpponentNotFound), [];
      }
      if d.gameState != InProgress {
        return Ok(WaitingFor(opponent.value.role)), [];
      }
      if !d.IsPlayerTurn(playerId) {
        return Ok(NotYourTurnToGuess), [];
      }
      if |guess| != d.settings.wordLength {
        return Ok(WrongGuessLength(d.settings.wordLength)), [];
      }
      var result := EvaluateGuess(TargetWord(d, playerId), guess);
      var attempt := GuessAttempt(playerId, Some(result), guess);
      var correct := result.IsCorrect();
      assert attempt == AttemptOf(d, playerId, guess) && correct == IsCorrectGuess(d, playerId, guess);
      assert PlayRule(d, playerId, guess, now) == AfterGuess(d, playerId, attempt, correct, now);
      assert AfterGuess(d, playerId, attempt, correct, now).0.winner.Some? <==> correct && d.IsLastRound();
      var out;
      out, ran := ApplyGuess(sessionId, playerId, attempt, correct, now);
      r := Ok(out);
    }

    /**
     * The rest of `play` once a guess is accepted and scored as `attempt`: the attempt is
     * recorded; a correct guess in the last round changes the session in place and ends the
     * game with the winner and the reason naming them, and any other guess writes the session
     * back with the turn (and after a correct guess the round) moved on.
     */
    method ApplyGuess(sessionId: string, playerId: string, attempt: GuessAttempt, correct: bool, now: int)
      returns (out: PlayOutcome, ran: seq<(AfterGameHandler, SessionData)>)
      requires Valid()
      requires sessionId in activeGames
      requires activeGames[sessionId].HasPlayer(playerId) && activeGames[sessionId].GetOpponent(playerId).Some?
      modifies this
      ensures Valid()
      ensures
        var d := old(activeGames[sessionId]);
        var after := AfterGuess(d, playerId, attempt, correct, now).1;
        && out == AfterGuess(d, playerId, attempt, correct, now).0
        && (correct && d.IsLastRound() ==>
              var over := Ended(after, GameOutcome(out.winner, Some(WinReason(Winner(d, playerId).username)), now));
              && activeGames == old(activeGames) - {sessionId}
              && playerToSession == RemoveKeys(old(playerToSession), Ids(d.players))
              && |ran| == |old(HandlersOf(sessionId))|
              && (forall i :: 0 <= i < |ran| ==> ran[i] == (old(HandlersOf(sessionId))[i], over)))
        && (!(correct && d.IsLastRound()) ==>
              && ran == []
              && activeGames == old(activeGames)[sessionId := after]
              && playerToSession == old(playerToSession))
    {
      var d := activeGames[sessionId];
      var me := RecordAttempt(d.GetPlayerById(playerId).value, attempt, correct);
      AfterGuessKeepsValid(d, playerId, attempt, correct, now);
      SetPlayerSameIds(d, me);
      var updated := d.SetPlayer(me);
      if correct && d.IsLastRound() {
        var winner := Winner(d, playerId);
        ran := EndInPlace(updated, Some(winner.playerId), WinReason(winner.username), now);
        out := Guessed(attempt, true, Some(winner.playerId));
      } else if correct {
        NextTurnFields(updated, now);
        var next := updated.WithNextTurn(now).WithNextRound().1;
        UpdateGameSession(next);
        ran := [];
        out := Guessed(attempt, true, None);
      } else {
        NextTurnFields(updated, now);
        UpdateGameSession(updated.WithNextTurn(now));
        ran := [];
        out := Guessed(attempt, false, None);
      }
    }

    /**
     * `end_game` on a session whose object was first changed in place to `d`: the handlers see
     * `d` ended, and the session and its players' mappings are gone.
     */
    method EndInPlace(d: SessionData, winnerId: Option<string>, reason: string, now: int)
      returns (ran: seq<(AfterGameHandler, SessionData)>)
      requires Valid() && d.Valid()
      requires d.sessionId in activeGames && Ids(d.players) == Ids(activeGames[d.sessionId].players)
      modifies this
      ensures Valid()
      ensures activeGames == old(activeGames) - {d.sessionId}
      ensures playerToSession == RemoveKeys(old(playerToSession), Ids(d.players))
      ensures |ran| == |old(HandlersOf(d.sessionId))|
      ensures forall i :: 0 <= i < |ran| ==>
        ran[i] == (old(HandlersOf(d.sessionId))[i], Ended(d, GameOutcome(winnerId, Some(reason), now)))
    {
      ReplaceKeepsConsistent(activeGames, playerToSession, d.sessionId, d);
      activeGames := activeGames[d.sessionId := d];
      var _, handlersRun := EndGame(d.sessionId, winnerId, reason, now);
      ran := handlersRun;
    }

    /** `get_player_game_session`: the session the device is mapped to, if it is active. */
    function PlayerSession(playerId: string): (r: Option<SessionData>)
      reads this
      ensures r.Some? ==>
        playerId in playerToSession && playerToSession[playerId] in activeGames
        && r.value == activeGames[playerToSession[playerId]]
      ensures r.None? ==> playerId !in playerToSession || playerToSession[playerId] !in activeGames
    {
      if playerId in playerToSession && playerToSession[playerId] in activeGames then
        Some(activeGames[playerToSession[playerId]])
      else None
    }

    /**
     * `use_power_up`: finds the caller's session through the device table; the helper call it
     * makes, or the error it raises. A successful call writes the session back with one use
     * of the power-up taken.
     */
    method UsePowerUp(playerId: string, kind: PowerUpType, revealed: Option<seq<int>>, fished: Option<seq<string>>)
      returns (r: Result<PowerUpCall, GameError>)
      requires Valid()
      modifies this
      ensures Valid()
      ensures playerToSession == old(playerToSession) && afterGameHandlers == old(afterGameHandlers)
      ensures old(PlayerSession(playerId)).None? ==> r == Err(NoActiveSession) && activeGames == old(activeGames)
      ensures old(PlayerSession(playerId)).Some? ==>
        var d := old(PlayerSession(playerId)).value;
        var rule := UsePowerUpRule(d, playerId, kind, revealed.GetOr([]), fished.GetOr([]));
        && (rule.Err? ==> r == Err(rule.error) && activeGames == old(activeGames))
        && (rule.Ok? ==> r == Ok(rule.value.0) && activeGames == old(activeGames)[d.sessionId := rule.value.1])
    {
      var session := PlayerSession(playerId);
      if session.None? {
        return Err(NoActiveSession);
      }
      var d := session.value;
      MappedPlayerIn(activeGames, playerToSession, playerId);
      var rule := UsePowerUpRule(d, playerId, kind, revealed.GetOr([]), fished.GetOr([]));
      if rule.Err? {
        return Err(rule.error);
      }
      UsePowerUpSpends(d, playerId, kind, revealed.GetOr([]), fished.GetOr([]));
      var me := d.GetPlayerById(playerId).value;
      SetPlayerSameIds(d, WithPowerUps(me, SpendUse(me.powerUps, FindPowerUp(me.powerUps, kind).value)));
      UpdateGameSession(rule.value.1);
      r := Ok(rule.value.0);
    }

    /**
     * The timeout check of the cleanup sweep for one session `d` of the snapshot: when its turn
     * has run out, the game is ended in favour of the opponent of the player whose turn it is;
     * `stop` reports the case where no player holds the current-turn role, which ends the pass.
     */
    method EndIfTimedOut(d: SessionData, now: int) returns (call: seq<EndCall>, stop: bool)
      requires Valid()
      modifies this
      ensures Valid()
      ensures stop == VerdictOf(d, now).Abort?
      ensures call == if stop then [] else TimeoutCall(d, now)
      ensures forall s :: s in activeGames <==> s in old(activeGames) && s !in CallIds(call)
      ensures forall s | s in activeGames :: activeGames[s] == old(activeGames)[s]
    {
      call, stop := [], false;
      assert CallIds(call) == {};
      if TurnTimedOut(d, now) {
        var current := d.GetPlayerByRole(d.currentTurn);
        if current.None? {
          stop := true;
        } else {
          var opponent := d.GetOpponent(current.value.playerId);
          if opponent.Some? {
            var _, _ := EndGame(d.sessionId, Some(opponent.value.playerId), "turn_timeout", now);
            call := [EndCall(d.sessionId, Some(opponent.value.playerId), "turn_timeout")];
            assert CallIds(call) == {d.sessionId};
          }
        }
      }
    }

    /**
     * The first loop of `_cleanup_expired_games` over the snapshot `snap`: the timeout calls it
     * makes, the expired ids it notes and whether it stopped early, as `TimeoutPass` says.
     */
    method TimeoutSweep(snap: seq<SessionData>, now: int) returns (calls: seq<EndCall>, expired: seq<string>, aborted: bool)
      requires Valid()
      modifies this
      ensures Valid()
      ensures calls == TimeoutPass(snap, now).0 && expired == TimeoutPass(snap, now).1
      ensures aborted == TimeoutPass(snap, now).2
      ensures forall s :: s in activeGames <==> s in old(activeGames) && s !in CallIds(calls)
      ensures forall s | s in activeGames :: activeGames[s] == old(activeGames)[s]
    {
      ghost var vs := Verdicts(snap, now);
      calls, expired, aborted := [], [], false;
      var i := 0;
      while i < |snap| && !aborted
        invariant 0 <= i <= |snap|
        invariant Valid()
        invariant (calls, expired, aborted) == Pass(vs[..i])
        invariant forall s :: s in activeGames <==> s in old(activeGames) && s !in CallIds(calls)
        invariant forall s | s in activeGames :: activeGames[s] == old(activeGames)[s]
      {
        var d := snap[i];
        ghost var before := (calls, expired, aborted);
        PassSnoc(vs, i);
        var call, stop := EndIfTimedOut(d, now);
        assert vs[i] == VerdictOf(d, now);
        CallIdsAppend(calls, call);
        calls := calls + call;
        aborted := stop;
        if !aborted && Expired(d, now) {
          expired := expired + [d.sessionId];
        }
        if stop {
          assert calls == before.0 && expired == before.1;
        } else {
          assert vs[i] == Go(call, if Expired(d, now) then [d.sessionId] else []);
          assert expired == before.1 + vs[i].expired;
        }
        assert (calls, expired, aborted) == PassStep(before, vs[i]);
        i := i + 1;
      }
      PassAborted(vs, i);
    }

    /** The second loop of `_cleanup_expired_games`: ends every noted session, in order. */
    method ExpirySweep(expired: seq<string>, now: int) returns (calls: seq<EndCall>)
      requires Valid()
      modifies this
      ensures Valid()
      ensures calls == ExpiryCalls(expired)
      ensures forall s :: s in activeGames <==> s in old(activeGames) && s !in CallIds(calls)
      ensures forall s | s in activeGames :: activeGames[s] == old(activeGames)[s]
    {
      calls := [];
      var j := 0;
      while j < |expired|
        invariant 0 <= j <= |expired|
        invariant Valid()
        invariant calls == ExpiryCalls(expired[..j])
        invariant forall s :: s in activeGames <==> s in old(activeGames) && s !in CallIds(calls)
        invariant forall s | s in activeGames :: activeGames[s] == old(activeGames)[s]
      {
        var _, _ := EndGame(expired[j], None, "session_expired", now);
        CallIdsSnoc(calls, EndCall(expired[j], None, "session_expired"));
        SliceSnoc(expired, j);
        ExpiryCallsSnoc(expired[..j], expired[j]);
        calls := calls + [EndCall(expired[j], None, "session_expired")];
        j := j + 1;
      }
      assert expired[..j] == expired;
    }

    /**
     * One pass of `_cleanup_expired_games` at time `now`, over the sessions in the order `order`
     * in which the table lists them (each once). The calls to `end_game` it makes are
     * `SweepCalls`; the sessions those calls name are gone afterwards and every other one is as
     * it was. Unless the pass stops early, no session older than two hours is left.
     */
    method CleanupExpiredGames(now: int, order: seq<string>) returns (calls: seq<EndCall>)
      requires Valid()
      requires forall i | 0 <= i < |order| :: order[i] in activeGames
      requires forall s | s in activeGames :: s in order
      requires forall i, j | 0 <= i < j < |order| :: order[i] != order[j]
      modifies this
      ensures Valid()
      ensures calls == SweepCalls(Snapshot(old(activeGames), order), now)
      ensures forall s :: s in activeGames <==> s in old(activeGames) && s !in CallIds(calls)
      ensures forall s | s in activeGames :: activeGames[s] == old(activeGames)[s]
      ensures !TimeoutPass(Snapshot(old(activeGames), order), now).2 ==>
        forall s | s in activeGames :: !Expired(activeGames[s], now)
    {
      ghost var games := activeGames;
      var snap := Snapshot(activeGames, order);
      var expired, aborted;
      calls, expired, aborted := TimeoutSweep(snap, now);
      if !aborted {
        var more := ExpirySweep(expired, now);
        CallIdsAppend(calls, more);
        calls := calls + more;
        ghost var snap := Snapshot(games, order);
        SweepEndsExpired(snap, now);
        forall s | s in games && Expired(games[s], now)
          ensures s in CallIds(calls)
        {
          var i :| 0 <= i < |order| && order[i] == s;
          assert snap[i] == games[s];
          assert EndCall(s, None, "session_expired") in calls;
        }
      }
    }

    /** The body of `_check_ai_turns` for one session: the turn passes and the session is written back. */
    method PassTurn(sid: string, now: int)
      requires Valid() && sid in activeGames
      modifies this
      ensures Valid()
      ensures activeGames == old(activeGames)[sid := old(activeGames)[sid].WithNextTurn(now)]
      ensures playerToSession == old(playerToSession) && afterGameHandlers == old(afterGameHandlers)
    {
      var d := activeGames[sid];
      NextTurnFields(d, now);
      NextTurnTwice(d, now, now);
      UpdateGameSession(d.WithNextTurn(now));
    }

    /**
     * One pass of `_check_ai_turns` at time `now`: every game against the AI whose player-2
     * turn has run out passes the turn (with a fresh timer) and is written back; nothing else
     * changes.
     */
    method CheckAiTurns(now: int) returns (due: set<string>)
      requires Valid()
      modifies this
      ensures Valid()
      ensures playerToSession == old(playerToSession) && afterGameHandlers == old(afterGameHandlers)
      ensures forall s :: s in due <==> s in old(activeGames) && AiTurnDue(old(activeGames[s]), now)
      ensures activeGames.Keys == old(activeGames).Keys
      ensures forall s | s in activeGames && s !in due :: activeGames[s] == old(activeGames)[s]
      ensures forall s | s in due :: activeGames[s] == old(activeGames)[s].WithNextTurn(now)
    {
      due := set s | s in activeGames && AiTurnDue(activeGames[s], now);
      var todo := due;
      while todo != {}
        invariant todo <= due
        invariant Valid()
        invariant playerToSession == old(playerToSession) && afterGameHandlers == old(afterGameHandlers)
        invariant activeGames.Keys == old(activeGames).Keys
        invariant forall s | s in activeGames && (s !in due || s in todo) :: activeGames[s] == old(activeGames)[s]
        invariant forall s | s in due && s !in todo :: activeGames[s] == old(activeGames)[s].WithNextTurn(now)
        decreases todo
      {
        var sid :| sid in todo;
        assert activeGames[sid] == old(activeGames)[sid];
        PassTurn(sid, now);
        todo := todo - {sid};
      }
    }
  }
}

=== FILE: game_session.dfy ===
/**
 * The game session record of the server (src/models/game_session.py): players keyed by
 * device id, whose turn it is, the round, the state and the turn timer.
 *
 * `SessionData` is the session as a value, with the lookups the server runs on it;
 * `GameSession` is the object the game manager keeps in its table and updates in place.
 * Times are whole seconds since an arbitrary epoch.
 */
module GameSessionModel {
  import opened Wrappers
  import GameAlgorithm

  datatype PowerUpType = FishOut | AiMeaning | RevealLetter

  datatype PowerUp = PowerUp(kind: PowerUpType, remaining: int)

  datatype GameState = Waiting | InProgress | GameOver

  datatype PlayerRole = Player1 | Player2

  /** The role of the other player. */
  function OtherRole(role: PlayerRole): (r: PlayerRole)
    ensures r != role
  {
    if role == Player1 then Player2 else Player1
  }

  /** One guess; the wall-clock timestamp is not modelled. */
  datatype GuessAttempt = GuessAttempt(playerId: string, result: Option<GameAlgorithm.GuessResult>, guess: string)

  datatype PlayerInfo = PlayerInfo(
    playerId: string,
    username: Option<string>,
    role: PlayerRole,
    secretWords: seq<string>,
    attempts: seq<GuessAttempt>,
    powerUps: seq<PowerUp>,
    score: int,
    connected: bool)

  datatype GameSettings = GameSettings(
    rounds: int,
    maxAttempts: int,
    wordLength: int,
    roundTimeLimit: int,
    turnTimeLimit: int,
    language: string,
    allowPowerups: bool,
    versusAi: bool)

  /** `GameSettings()` with every field at its default. */
  const DefaultSettings := GameSettings(1, 6, 4, 120, 5, "en", true, false)

  datatype GameOutcome = GameOutcome(winnerId: Option<string>, reason: Option<string>, completedAt: int)

  /** Index of the entry for device `pid`, the key of the `players` dictionary. */
  function FindById(ps: seq<PlayerInfo>, pid: string): (r: Option<nat>)
    ensures r.Some? ==> r.value < |ps| && ps[r.value].playerId == pid
    ensures r.Some? ==> forall j :: 0 <= j < r.value ==> ps[j].playerId != pid
    ensures r.None? <==> forall j :: 0 <= j < |ps| ==> ps[j].playerId != pid
  {
    if |ps| == 0 then None
    else if ps[0].playerId == pid then Some(0)
    else match FindById(ps[1..], pid)
      case None => None
      case Some(k) => Some(k + 1)
  }

  /** Index of the first entry, in insertion order, that has `role`. */
  function FindByRole(ps: seq<PlayerInfo>, role: PlayerRole): (r: Option<nat>)
    ensures r.Some? ==> r.value < |ps| && ps[r.value].role == role
    ensures r.Some? ==> forall j :: 0 <= j < r.value ==> ps[j].role != role
    ensures r.None? <==> forall j :: 0 <= j < |ps| ==> ps[j].role != role
  {
    if |ps| == 0 then None
    else if ps[0].role == role then Some(0)
    else match FindByRole(ps[1..], role)
      case None => None
      case Some(k) => Some(k + 1)
  }

  /** `players[p.player_id] = p`: the entry with that id is replaced and the order is kept. */
  function Replace(ps: seq<PlayerInfo>, p: PlayerInfo): (r: seq<PlayerInfo>)
    ensures |r| == |ps|
    ensures forall i :: 0 <= i < |ps| ==> r[i] == if ps[i].playerId == p.playerId then p else ps[i]
  {
    if |ps| == 0 then [] else [if ps[0].playerId == p.playerId then p else ps[0]] + Replace(ps[1..], p)
  }

  function Ids(ps: seq<PlayerInfo>): set<string>
  {
    set p | p in ps :: p.playerId
  }

  /** A player holds one secret word per round, each `word_length` letters long. */
  predicate WordsFit(p: PlayerInfo, settings: GameSettings)
  {
    && |p.secretWords| == settings.rounds
    && forall w | w in p.secretWords :: |w| == settings.wordLength
  }

  /** The session as a value. */
  datatype SessionData = SessionData(
    sessionId: string,
    createdAt: int,
    players: seq<PlayerInfo>,
    currentTurn: PlayerRole,
    currentRound: int,
    gameState: GameState,
    settings: GameSettings,
    turnTimerExpiresAt: Option<int>,
    outcome: Option<GameOutcome>)
  {
    /**
     * What every session the server builds satisfies: one or two players with distinct ids and
     * roles, `rounds` words of `word_length` letters each, and a round between 1 and `rounds`.
     */
    ghost predicate Valid()
    {
      && 1 <= |players| <= 2
      && (|players| == 2 ==> players[0].playerId != players[1].playerId && players[0].role != players[1].role)
      && (forall p | p in players :: WordsFit(p, settings))
      && 1 <= currentRound <= settings.rounds
    }

    predicate HasPlayer(pid: string)
    {
      FindById(players, pid).Some?
    }

    /** `get_player_by_id`: the dictionary lookup `players.get(player_id)`. */
    function GetPlayerById(pid: string): (r: Option<PlayerInfo>)
      ensures r.Some? <==> exists i :: 0 <= i < |players| && players[i].playerId == pid
      ensures r.Some? ==> r.value in players && r.value.playerId == pid
    {
      match FindById(players, pid)
      case None => None
      case Some(i) => Some(players[i])
    }

    /** `get_player_by_role`: the first player, in insertion order, that has `role`. */
    function GetPlayerByRole(role: PlayerRole): (r: Option<PlayerInfo>)
      ensures r.None? <==> forall p | p in players :: p.role != role
      ensures r.Some? ==> r.value in players && r.value.role == role
    {
      match FindByRole(players, role)
      case None => None
      case Some(i) => Some(players[i])
    }

    /** `get_opponent`: the player holding the other role, or None for an unknown device. */
    function GetOpponent(pid: string): (r: Option<PlayerInfo>)
      ensures !HasPlayer(pid) ==> r.None?
      ensures HasPlayer(pid) ==> r == GetPlayerByRole(OtherRole(GetPlayerById(pid).value.role))
    {
      match GetPlayerById(pid)
      case None => None
      case Some(me) => GetPlayerByRole(OtherRole(me.role))
    }

    /**
     * `get_current_word`: the word of the current round, or the last word when there are more
     * rounds than words; None for an unknown device or an empty word list.
     */
    function GetCurrentWord(pid: string): (r: Option<string>)
      requires currentRound >= 1
      ensures r.None? <==> !HasPlayer(pid) || GetPlayerById(pid).value.secretWords == []
      ensures r.Some? ==>
        var ws := GetPlayerById(pid).value.secretWords;
        r.value == ws[if currentRound - 1 < |ws| - 1 then currentRound - 1 else |ws| - 1]
    {
      match GetPlayerById(pid)
      case None => None
      case Some(p) =>
        if |p.secretWords| == 0 then None
        else
          var wordIndex := if currentRound - 1 < |p.secretWords| - 1 then currentRound - 1 else |p.secretWords| - 1;
          Some(p.secretWords[wordIndex])
    }

    /** `is_player_turn`: false for an unknown device, else whether its role has the turn. */
    predicate IsPlayerTurn(pid: string)
    {
      match GetPlayerById(pid)
      case None => false
      case Some(p) => p.role == currentTurn
    }

    /** `get_current_player`: the player whose role has the turn. */
    function GetCurrentPlayer(): (r: Option<PlayerInfo>)
      ensures r.Some? ==> r.value in players && r.value.role == currentTurn
      ensures r.None? <==> forall p | p in players :: p.role != currentTurn
    {
      GetPlayerByRole(currentTurn)
    }

    /** `is_last_round`. */
    predicate IsLastRound()
    {
      currentRound == settings.rounds
    }

    /** The session after `next_turn` at time `now`. */
    function WithNextTurn(now: int): SessionData
    {
      this.(currentTurn := if currentTurn == Player1 then Player2 else Player1,
            turnTimerExpiresAt := Some(now + settings.turnTimeLimit))
    }

    /** `next_round`: whether the round advanced, and the session after the call. */
    function WithNextRound(): (r: (bool, SessionData))
      ensures r.0 <==> currentRound < settings.rounds
      ensures r.1.currentRound == if r.0 then currentRound + 1 else currentRound
      ensures && r.1.sessionId == sessionId && r.1.createdAt == createdAt && r.1.players == players
              && r.1.currentTurn == currentTurn && r.1.gameState == gameState && r.1.settings == settings
              && r.1.turnTimerExpiresAt == turnTimerExpiresAt && r.1.outcome == outcome
    {
      if currentRound < settings.rounds then (true, this.(currentRound := currentRound + 1))
      else (false, this)
    }

    /** Replaces the entry of `p.playerId`, keeping the insertion order. */
    function SetPlayer(p: PlayerInfo): SessionData
      requires HasPlayer(p.playerId)
    {
      this.(players := Replace(players, p))
    }
  }

  // ---------------------------------------------------------------------------------
  // Lemmas about the lookups

  /** Device ids are dictionary keys: in a valid session each player is found at its own entry. */
  lemma FindByIdValid(d: SessionData, i: nat)
    requires d.Valid() && i < |d.players|
    ensures FindById(d.players, d.players[i].playerId) == Some(i)
  {
  }

  /** The lookup by id looks only at the ids, in order. */
  lemma {:induction false} FindByIdSameIds(a: seq<PlayerInfo>, b: seq<PlayerInfo>, pid: string)
    requires |a| == |b| && forall i :: 0 <= i < |a| ==> a[i].playerId == b[i].playerId
    ensures FindById(a, pid) == FindById(b, pid)
  {
    if |a| > 0 {
      FindByIdSameIds(a[1..], b[1..], pid);
    }
  }

  /** The lookup by role looks only at the roles, in order. */
  lemma {:induction false} FindByRoleSameRoles(a: seq<PlayerInfo>, b: seq<PlayerInfo>, role: PlayerRole)
    requires |a| == |b| && forall i :: 0 <= i < |a| ==> a[i].role == b[i].role
    ensures FindByRole(a, role) == FindByRole(b, role)
  {
    if |a| > 0 {
      FindByRoleSameRoles(a[1..], b[1..], role);
    }
  }

  /**
   * Replacing a player by one with the same id and role leaves every other player where the
   * lookups find them.
   */
  lemma SetPlayerLookups(d: SessionData, p: PlayerInfo, other: string)
    requires d.Valid() && d.HasPlayer(p.playerId)
    requires p.role == d.GetPlayerById(p.playerId).value.role
    ensures d.SetPlayer(p).GetPlayerById(p.playerId) == Some(p)
    ensures other != p.playerId ==> d.SetPlayer(p).GetPlayerById(other) == d.GetPlayerById(other)
    ensures d.SetPlayer(p).GetPlayerByRole(OtherRole(p.role)) == d.GetPlayerByRole(OtherRole(p.role))
  {
    var r := d.SetPlayer(p);
    var k := FindById(d.players, p.playerId).value;
    forall i | 0 <= i < |d.players|
      ensures r.players[i].playerId == d.players[i].playerId && r.players[i].role == d.players[i].role
    {
      if d.players[i].playerId == p.playerId {
        FindByIdValid(d, i);
      }
    }
    FindByIdSameIds(r.players, d.players, other);
    FindByIdSameIds(r.players, d.players, p.playerId);
    FindByRoleSameRoles(r.players, d.players, OtherRole(p.role));
    match FindByRole(d.players, OtherRole(p.role))
    case None =>
    case Some(j) =>
      assert j != k;
      if d.players[j].playerId == p.playerId {
        FindByIdValid(d, j);
      }
  }

  /** The lookups look only at the players. */
  lemma SamePlayers(a: SessionData, b: SessionData, pid: string)
    requires a.players == b.players
    ensures a.HasPlayer(pid) == b.HasPlayer(pid)
    ensures a.GetPlayerById(pid) == b.GetPlayerById(pid)
    ensures a.GetOpponent(pid) == b.GetOpponent(pid)
  {
  }

  /** In a valid session the opponent of a known player is the other entry, if there is one. */
  lemma OpponentIsOther(d: SessionData, pid: string)
    requires d.Valid() && d.HasPlayer(pid)
    ensures var me := d.GetPlayerById(pid).value;
      d.GetOpponent(pid).Some? <==> |d.players| == 2
    ensures d.GetOpponent(pid).Some? ==>
      var o := d.GetOpponent(pid).value;
      o.playerId != pid && o.role == OtherRole(d.GetPlayerById(pid).value.role) && o in d.players
  {
    var i := FindById(d.players, pid).value;
    if |d.players| == 2 {
      var j := 1 - i;
      assert d.players[j].role == OtherRole(d.players[i].role);
    }
  }

  /** `next_round` keeps the round within `1..rounds`, so a valid session stays valid. */
  lemma NextRoundKeepsValid(d: SessionData)
    requires d.Valid()
    ensures d.WithNextRound().1.Valid()
    ensures d.WithNextRound().1.currentRound <= d.settings.rounds
  {
  }

  /** In a valid session the round advances exactly when it is not the last one. */
  lemma AdvancesUnlessLast(d: SessionData)
    requires d.Valid()
    ensures d.WithNextRound().0 <==> !d.IsLastRound()
    ensures d.IsLastRound() ==> d.WithNextRound().1 == d
  {
  }

  /**
   * In a valid session it is a device's turn exactly when it is the player `get_current_player`
   * returns.
   */
  lemma TurnIsCurrentPlayer(d: SessionData, pid: string)
    requires d.Valid()
    ensures d.IsPlayerTurn(pid) <==> d.GetCurrentPlayer().Some? && d.GetCurrentPlayer().value.playerId == pid
  {
    var c := d.GetCurrentPlayer();
    if d.IsPlayerTurn(pid) {
      var me := d.GetPlayerById(pid).value;
      assert c.Some? by { assert me in d.players && me.role == d.currentTurn; }
      if c.value.playerId != pid {
        assert false;
      }
    }
    if c.Some? && c.value.playerId == pid {
      var i :| 0 <= i < |d.players| && d.players[i] == c.value;
      FindByIdValid(d, i);
    }
  }

  /**
   * In a valid session every player has a word for the current round, of the session's word
   * length, and the fallback to the last word never applies.
   */
  lemma CurrentWordOfRound(d: SessionData, pid: string)
    requires d.Valid() && d.HasPlayer(pid)
    ensures var ws := d.GetPlayerById(pid).value.secretWords;
            d.GetCurrentWord(pid) == Some(ws[d.currentRound - 1])
            && |d.GetCurrentWord(pid).value| == d.settings.wordLength
  {
    var p := d.GetPlayerById(pid).value;
    assert WordsFit(p, d.settings);
    assert p.secretWords[d.currentRound - 1] in p.secretWords;
  }

  /** The ids of a prefix grow by one id per player. */
  lemma IdsSnoc(ps: seq<PlayerInfo>, i: nat)
    requires i < |ps|
    ensures Ids(ps[..i + 1]) == Ids(ps[..i]) + {ps[i].playerId}
  {
    assert ps[..i + 1] == ps[..i] + [ps[i]];
  }

  /** Replacing a player keeps the set of ids. */
  lemma SetPlayerSameIds(d: SessionData, p: PlayerInfo)
    requires d.HasPlayer(p.playerId)
    ensures Ids(d.SetPlayer(p).players) == Ids(d.players)
  {
    var r := d.SetPlayer(p).players;
    forall x | x in Ids(r)
      ensures x in Ids(d.players)
    {
      var q :| q in r && q.playerId == x;
      var i :| 0 <= i < |r| && r[i] == q;
      assert d.players[i] in d.players;
    }
    forall x | x in Ids(d.players)
      ensures x in Ids(r)
    {
      var q :| q in d.players && q.playerId == x;
      var i :| 0 <= i < |d.players| && d.players[i] == q;
      assert r[i] in r;
    }
  }

  /** Replacing a player touches nothing but the player list. */
  lemma SetPlayerKeepsRest(d: SessionData, p: PlayerInfo)
    requires d.HasPlayer(p.playerId)
    ensures var r := d.SetPlayer(p);
      && r.sessionId == d.sessionId && r.createdAt == d.createdAt && r.currentTurn == d.currentTurn
      && r.currentRound == d.currentRound && r.gameState == d.gameState && r.settings == d.settings
      && r.turnTimerExpiresAt == d.turnTimerExpiresAt && r.outcome == d.outcome
      && |r.players| == |d.players|
  {
  }

  /** `next_turn` hands the turn to the other role and restarts the turn timer from `now`. */
  lemma NextTurnFields(d: SessionData, now: int)
    ensures var r := d.WithNextTurn(now);
      && r.currentTurn == OtherRole(d.currentTurn)
      && r.turnTimerExpiresAt.Some? && r.turnTimerExpiresAt.value == now + d.settings.turnTimeLimit
      && r.players == d.players && r.currentRound == d.currentRound && r.gameState == d.gameState
      && r.settings == d.settings && r.outcome == d.outcome
  {
  }

  /** Flipping the turn twice gives the turn back to the same role. */
  lemma NextTurnTwice(d: SessionData, t1: int, t2: int)
    ensures d.WithNextTurn(t1).WithNextTurn(t2).currentTurn == d.currentTurn
    ensures d.WithNextTurn(t1).Valid() <==> d.Valid()
  {
  }

  /** Replacing a player by one with the same id, role and word list keeps a session valid. */
  lemma SetPlayerKeepsValid(d: SessionData, p: PlayerInfo)
    requires d.Valid() && d.HasPlayer(p.playerId)
    requires p.role == d.GetPlayerById(p.playerId).value.role
    requires p.secretWords == d.GetPlayerById(p.playerId).value.secretWords
    ensures d.SetPlayer(p).Valid()
    ensures d.SetPlayer(p).GetPlayerById(p.playerId) == Some(p)
  {
    var r := d.SetPlayer(p);
    var k := FindById(d.players, p.playerId).value;
    forall q | q in r.players
      ensures WordsFit(q, d.settings)
    {
      var i :| 0 <= i < |r.players| && r.players[i] == q;
      if d.players[i].playerId != p.playerId {
        assert d.players[i] in d.players;
      } else {
        assert d.players[k] in d.players;
      }
    }
    SetPlayerLookups(d, p, p.playerId);
    if |d.players| == 2 {
      FindByIdValid(d, 0);
      FindByIdValid(d, 1);
    }
  }

  // ---------------------------------------------------------------------------------
  // The session object

  /** The `GameSession` object the game manager keeps and updates in place. */
  class GameSession {
    const sessionId: string
    const createdAt: int
    const settings: GameSettings
    var players: seq<PlayerInfo>
    var currentTurn: PlayerRole
    var currentRound: int
    var gameState: GameState
    var turnTimerExpiresAt: Option<int>
    var outcome: Option<GameOutcome>

    function Data(): SessionData
      reads this
    {
      SessionData(sessionId, createdAt, players, currentTurn, currentRound, gameState, settings,
                  turnTimerExpiresAt, outcome)
    }

    ghost predicate Valid()
      reads this
    {
      Data().Valid()
    }

    /** A fresh session: round 1, `waiting`, no timer and no outcome. */
    constructor (sessionId: string, createdAt: int, players: seq<PlayerInfo>, currentTurn: PlayerRole,
                 settings: GameSettings)
      ensures Data() == SessionData(sessionId, createdAt, players, currentTurn, 1, Waiting, settings, None, None)
    {
      this.sessionId := sessionId;
      this.createdAt := createdAt;
      this.settings := settings;
      this.players := players;
      this.currentTurn := currentTurn;
      this.currentRound := 1;
      this.gameState := Waiting;
      this.turnTimerExpiresAt := None;
      this.outcome := None;
    }

    /** `next_turn`: the other role gets the turn, with a fresh turn timer. */
    method NextTurn(now: int)
      modifies this
      ensures Data() == old(Data()).WithNextTurn(now)
    {
      currentTurn := if currentTurn == Player1 then Player2 else Player1;
      turnTimerExpiresAt := Some(now + settings.turnTimeLimit);
    }

    /** `next_round`: advances the round unless this is the last one. */
    method NextRound() returns (advanced: bool)
      modifies this
      ensures (advanced, Data()) == old(Data()).WithNextRound()
    {
      if currentRound < settings.rounds {
        currentRound := currentRound + 1;
        return true;
      }
      return false;
    }
  }
}

=== FILE: leaderboards.dfy ===
/**
 * The experience leaderboard endpoint: the users ordered by experience, the requested page of
 * them with their ranks, padded with generated entries, re-sorted and re-ranked, and the
 * caller's own rank when the caller is not on the board. The user table is given as the list
 * the repository returns; the random draws of the generated entries are parameters.
 */
module LeaderboardsRoute {
  import opened Wrappers
  import opened Strings

  /** One row of the board. */
  datatype LeaderboardRank = LeaderboardRank(
    deviceId: string, username: Option<string>, xp: int, rank: int, isCurrentUser: bool)

  /** The fields of a stored user the board shows. */
  datatype UserEntry = UserEntry(deviceId: string, username: string, xp: int)

  datatype LeaderboardResponse = LeaderboardResponse(
    topUsers: seq<LeaderboardRank>, currentUser: Option<LeaderboardRank>, totalUsers: nat, page: int, perPage: int)

  /** Ordered by non-increasing experience. */
  predicate Descending(s: seq<LeaderboardRank>)
  {
    forall i, j | 0 <= i < j < |s| :: s[i].xp >= s[j].xp
  }

  /** The rows of `s` with experience `x`, in order. */
  function WithXp(s: seq<LeaderboardRank>, x: int): seq<LeaderboardRank>
  {
    if s == [] then []
    else WithXp(s[..|s| - 1], x) + (if s[|s| - 1].xp == x then [s[|s| - 1]] else [])
  }

  /** `e` placed after every row with at least its experience. */
  function Insert(t: seq<LeaderboardRank>, e: LeaderboardRank): (r: seq<LeaderboardRank>)
    ensures |r| == |t| + 1
    ensures multiset(r) == multiset(t) + multiset{e}
    ensures forall y | y in r :: y in t || y == e
  {
    if t == [] then [e]
    else if t[0].xp < e.xp then [e] + t
    else
      assert t == [t[0]] + t[1..];
      [t[0]] + Insert(t[1..], e)
  }

  /** Inserting into a descending board keeps it descending. */
  lemma {:induction false} InsertDescending(t: seq<LeaderboardRank>, e: LeaderboardRank)
    requires Descending(t)
    ensures Descending(Insert(t, e))
  {
    if t != [] && t[0].xp >= e.xp {
      InsertDescending(t[1..], e);
      var rest := Insert(t[1..], e);
      forall k | 0 <= k < |rest|
        ensures t[0].xp >= rest[k].xp
      {
        assert rest[k] in rest;
        if rest[k] != e {
          var m :| 0 <= m < |t[1..]| && t[1..][m] == rest[k];
          assert t[m + 1] == rest[k];
        }
      }
      assert Insert(t, e) == [t[0]] + rest;
    }
  }

  /** `sorted(board, key=xp, reverse=True)`: a stable sort by non-increasing experience. */
  function SortByXp(s: seq<LeaderboardRank>): (r: seq<LeaderboardRank>)
    ensures multiset(r) == multiset(s) && |r| == |s|
    ensures Descending(r)
  {
    if s == [] then []
    else
      var init := SortByXp(s[..|s| - 1]);
      var r := Insert(init, s[|s| - 1]);
      InsertDescending(init, s[|s| - 1]);
      assert s[..|s| - 1] + [s[|s| - 1]] == s;
      r
  }

  /** Inserting `e` adds it after the rows of its own experience, leaving the others in order. */
  lemma {:induction false} InsertStable(t: seq<LeaderboardRank>, e: LeaderboardRank, x: int)
    requires Descending(t)
    ensures WithXp(Insert(t, e), x) == WithXp(t, x) + (if e.xp == x then [e] else [])
  {
    var tail := if e.xp == x then [e] else [];
    if t == [] {
      assert WithXp([e], x) == WithXp([], x) + tail;
    } else if t[0].xp < e.xp {
      assert Insert(t, e) == [e] + t;
      InsertBefore(t, e, x);
    } else {
      InsertStable(t[1..], e, x);
      InsertAfter(t, e, x);
    }
  }

  /** `e` inserted behind the first row, given the claim for the rest. */
  lemma InsertAfter(t: seq<LeaderboardRank>, e: LeaderboardRank, x: int)
    requires t != [] && t[0].xp >= e.xp
    requires WithXp(Insert(t[1..], e), x) == WithXp(t[1..], x) + (if e.xp == x then [e] else [])
    ensures WithXp(Insert(t, e), x) == WithXp(t, x) + (if e.xp == x then [e] else [])
  {
    var rest := Insert(t[1..], e);
    var head := if t[0].xp == x then [t[0]] else [];
    var tail := if e.xp == x then [e] else [];
    assert Insert(t, e) == [t[0]] + rest;
    WithXpPrepend(t[0], rest, x);
    WithXpPrepend(t[0], t[1..], x);
    assert [t[0]] + t[1..] == t;
    calc {
      WithXp(Insert(t, e), x);
      head + WithXp(rest, x);
      head + (WithXp(t[1..], x) + tail);
      (head + WithXp(t[1..], x)) + tail;
      WithXp(t, x) + tail;
    }
  }

  /** `e` ahead of a board whose rows all have less experience. */
  lemma InsertBefore(t: seq<LeaderboardRank>, e: LeaderboardRank, x: int)
    requires Descending(t) && t != [] && t[0].xp < e.xp
    ensures WithXp([e] + t, x) == WithXp(t, x) + (if e.xp == x then [e] else [])
  {
    WithXpPrepend(e, t, x);
    if e.xp == x {
      NoneWithXp(t, x);
    }
  }

  /** Rows whose experience is below `x` throughout hold none with experience `x`. */
  lemma {:induction false} NoneWithXp(t: seq<LeaderboardRank>, x: int)
    requires forall i | 0 <= i < |t| :: t[i].xp < x
    ensures WithXp(t, x) == []
  {
    if t != [] {
      NoneWithXp(t[..|t| - 1], x);
    }
  }

  lemma {:induction false} WithXpPrepend(e: LeaderboardRank, t: seq<LeaderboardRank>, x: int)
    ensures WithXp([e] + t, x) == (if e.xp == x then [e] else []) + WithXp(t, x)
  {
    if t != [] {
      var s := [e] + t;
      assert s[..|s| - 1] == [e] + t[..|t| - 1];
      WithXpPrepend(e, t[..|t| - 1], x);
    } else {
      assert [e] + t == [e];
    }
  }

  /** The sort is stable: the rows of any one experience keep their input order. */
  lemma {:induction false} SortStable(s: seq<LeaderboardRank>, x: int)
    ensures WithXp(SortByXp(s), x) == WithXp(s, x)
  {
    if s != [] {
      SortStable(s[..|s| - 1], x);
      InsertStable(SortByXp(s[..|s| - 1]), s[|s| - 1], x);
    }
  }

  /** Each row of `s` with its rank set to its 1-based position. */
  function Ranked(s: seq<LeaderboardRank>): seq<LeaderboardRank>
  {
    seq(|s|, i requires 0 <= i < |s| => s[i].(rank := i + 1))
  }

  /** Ranking keeps the rows, their order and their experience, and numbers them from 1. */
  lemma RankedKeepsOrder(s: seq<LeaderboardRank>)
    ensures |Ranked(s)| == |s|
    ensures forall i | 0 <= i < |s| :: Ranked(s)[i].rank == i + 1 && Ranked(s)[i].xp == s[i].xp
                                       && Ranked(s)[i].deviceId == s[i].deviceId
                                       && Ranked(s)[i].isCurrentUser == s[i].isCurrentUser
    ensures Descending(s) ==> Descending(Ranked(s))
  {
  }

  /**
   * `sort_leaderboard_by_xp`: sorted by non-increasing experience, then every row's rank set
   * to its position counted from 1.
   */
  method SortLeaderboardByXp(board: seq<LeaderboardRank>) returns (r: seq<LeaderboardRank>)
    ensures r == Ranked(SortByXp(board))
    ensures |r| == |board| && Descending(r)
    ensures forall i | 0 <= i < |r| :: r[i].rank == i + 1
  {
    var sorted := SortByXp(board);
    r := sorted;
    for i := 0 to |r|
      invariant |r| == |sorted|
      invariant forall j | 0 <= j < i :: r[j] == sorted[j].(rank := j + 1)
      invariant forall j | i <= j < |r| :: r[j] == sorted[j]
    {
      r := r[i := r[i].(rank := i + 1)];
    }
    assert r == Ranked(sorted);
    RankedKeepsOrder(sorted);
  }

  /** `current_user_rank`: one more than the position of the first user with the device id. */
  function RankOf(users: seq<UserEntry>, deviceId: string): (r: Option<nat>)
    ensures r.None? <==> forall i | 0 <= i < |users| :: users[i].deviceId != deviceId
    ensures r.Some? ==> 1 <= r.value <= |users| && users[r.value - 1].deviceId == deviceId
                        && forall i | 0 <= i < r.value - 1 :: users[i].deviceId != deviceId
  {
    if users == [] then None
    else if users[0].deviceId == deviceId then Some(1)
    else match RankOf(users[1..], deviceId)
      case None => None
      case Some(k) => Some(k + 1)
  }

  /** `users[offset : offset + perPage]`, clamped to the list as Python slices are. */
  function PageOf(users: seq<UserEntry>, offset: nat, perPage: nat): (r: seq<UserEntry>)
    ensures |r| <= perPage
    ensures offset < |users| ==> |r| == (if offset + perPage <= |users| then perPage else |users| - offset)
    ensures forall i | 0 <= i < |r| :: offset + i < |users| && r[i] == users[offset + i]
  {
    if offset >= |users| then []
    else if offset + perPage <= |users| then users[offset..offset + perPage]
    else users[offset..]
  }

  /** The rows built from a page: ranked from `offset + 1`, the caller's marked. */
  function PageRows(page: seq<UserEntry>, offset: nat, deviceId: string): (r: seq<LeaderboardRank>)
    ensures |r| == |page|
    ensures forall i | 0 <= i < |r| ::
      r[i].deviceId == page[i].deviceId && r[i].xp == page[i].xp && r[i].rank == offset + i + 1
      && (r[i].isCurrentUser <==> page[i].deviceId == deviceId)
  {
    seq(|page|, i requires 0 <= i < |page| =>
      LeaderboardRank(page[i].deviceId, Some(page[i].username), page[i].xp, offset + i + 1, page[i].deviceId == deviceId))
  }

  /**
   * `generate_fake_leaderboard`: at most 30 made-up rows, each with a device id drawn from
   * 100000 to 999999, the next of the given names, experience drawn from 100 to 3000, rank 0,
   * and never the caller's.
   */
  function GenerateFakeLeaderboard(count: int, draws: seq<(nat, int)>, names: seq<string>): (r: seq<LeaderboardRank>)
    requires |draws| >= count && |names| >= count
    ensures |r| == (if count < 0 then 0 else if count < 30 then count else 30)
    ensures forall i | 0 <= i < |r| :: r[i].rank == 0 && !r[i].isCurrentUser
                                        && StartsWith(r[i].deviceId, "device_") && r[i].xp == draws[i].1
  {
    var n := if count < 0 then 0 else if count < 30 then count else 30;
    seq(n, i requires 0 <= i < n =>
      LeaderboardRank("device_" + NatToString(draws[i].0), Some(names[i]), draws[i].1, 0, false))
  }

  /** The number of generated rows the endpoint adds. */
  const FakeRows := 25

  /** Whether some row is the caller's. */
  predicate AnyCurrent(s: seq<LeaderboardRank>)
  {
    exists i | 0 <= i < |s| :: s[i].isCurrentUser
  }

  /**
   * `get_xp_leaderboard`: 404 without a stored caller; otherwise the page of the ordered users
   * with the generated rows, sorted and ranked, and the caller's own row only when the caller
   * has a rank and no row on the board is marked as the caller's. Out-of-range paging
   * parameters are refused with 422 before the handler runs.
   */
  method GetXpLeaderboard(users: seq<UserEntry>, current: Option<UserEntry>, deviceId: string, page: int,
                          perPage: int, draws: seq<(nat, int)>, names: seq<string>)
    returns (r: Result<LeaderboardResponse, HttpError>)
    requires |draws| >= FakeRows && |names| >= FakeRows
    ensures (page < 1 || perPage < 1 || perPage > 100) <==> r == Err(HttpError(422, "Unprocessable Entity"))
    ensures 1 <= page && 1 <= perPage <= 100 ==> (current.None? <==> r == Err(HttpError(404, "User not found")))
    ensures r.Ok? ==>
      var resp := r.value;
      var offset := (page - 1) * perPage;
      && resp.totalUsers == |users| && resp.page == page && resp.perPage == perPage
      && resp.topUsers == Ranked(SortByXp(PageRows(PageOf(users, offset, perPage), offset, deviceId)
                                           + GenerateFakeLeaderboard(FakeRows, draws, names)))
      && (resp.currentUser.Some? <==> RankOf(users, deviceId).Some? && !AnyCurrent(resp.topUsers))
      && (resp.currentUser.Some? ==>
            resp.currentUser.value.rank == RankOf(users, deviceId).value
            && resp.currentUser.value.isCurrentUser && resp.currentUser.value.deviceId == current.value.deviceId)
  {
    if page < 1 || perPage < 1 || perPage > 100 {
      return Err(HttpError(422, "Unprocessable Entity"));
    }
    if current.None? {
      return Err(HttpError(404, "User not found"));
    }
    var user := current.value;
    var rank := RankOf(users, deviceId);
    var offset := (page - 1) * perPage;
    var rows := PageRows(PageOf(users, offset, perPage), offset, deviceId);
    var fake := GenerateFakeLeaderboard(FakeRows, draws, names);
    var board := SortLeaderboardByXp(rows + fake);
    var currentRow: Option<LeaderboardRank> := None;
    if rank.Some? && !AnyCurrent(board) {
      currentRow := Some(LeaderboardRank(user.deviceId, Some(user.username), user.xp, rank.value, true));
    }
    return Ok(LeaderboardResponse(board, currentRow, |users|, page, perPage));
  }

  /** A caller whose row falls on the requested page is shown on the board and not again below it. */
  lemma OnPageNotRepeated(users: seq<UserEntry>, deviceId: string, page: int, perPage: int,
                          fake: seq<LeaderboardRank>)
    requires page >= 1 && 1 <= perPage
    requires RankOf(users, deviceId).Some?
    requires (page - 1) * perPage < RankOf(users, deviceId).value <= page * perPage
    ensures AnyCurrent(Ranked(SortByXp(PageRows(PageOf(users, (page - 1) * perPage, perPage), (page - 1) * perPage, deviceId) + fake)))
  {
    var offset := (page - 1) * perPage;
    var k := RankOf(users, deviceId).value - 1 - offset;
    var rows := PageRows(PageOf(users, offset, perPage), offset, deviceId);
    assert 0 <= k < |rows|;
    assert rows[k].isCurrentUser;
    var all := rows + fake;
    assert all[k] == rows[k];
    var sorted := SortByXp(all);
    assert rows[k] in multiset(sorted) by {
      assert rows[k] in multiset(all);
    }
    var m :| 0 <= m < |sorted| && sorted[m] == rows[k];
    assert Ranked(sorted)[m].isCurrentUser;
  }
}

=== FILE: lobbies_route.dfy ===
/**
 * The lobby endpoints: `join_lobby`, which creates a lobby record, lets its host or second
 * player rejoin, or seats the second player and starts a game; and `delete_lobby`, which only
 * the host may use. The lobby table is a map from code to record; the user table is given by
 * the caller's user id (none when the device is unknown) and the set of user ids that exist.
 * The game `create_game` starts is given by its session id, or none when it raises.
 *
 * The repository's delete calls a statement builder the query manager lacks, so as written a
 * delete the checks let through fails with 500 (`DeleteLobbyAsWritten`); `DeleteLobby` is the
 * intended route. A first join fetches the new lobby by the insert's row count instead of its
 * id, so as written it answers with the lobby whose id is 1 (`JoinLobbyAsWritten`);
 * `JoinLobby` is the intended route, which answers with the lobby it created.
 */
module LobbiesRoute {
  import opened Wrappers
  import opened Strings
  import opened LobbyRecordModel

  datatype JoinRequest = JoinRequest(code: string, words: seq<string>, turnTimeLimit: Option<int>)

  datatype JoinResponse = JoinResponse(sessionId: Option<string>, lobby: LobbyRecord, isHost: bool, isReady: bool)

  /** The arguments `join_lobby` passes to `create_game` when the second player is seated. */
  datatype CreateGameCall = CreateGameCall(
    p1Id: int, p2Id: int, p1Words: seq<string>, p2Words: seq<string>,
    rounds: int, wordLength: int, turnTimeLimit: int, versusAi: bool)

  /** The reply, the lobby table afterwards and the game creation requested, if any. */
  datatype JoinResult = JoinResult(reply: Result<JoinResponse, HttpError>, lobbies: map<string, LobbyRecord>,
                                   call: Option<CreateGameCall>)

  /** The default turn time limit of a lobby, in seconds. */
  const DefaultTurnTimeLimit := 120

  /** `",".join(words) + ","`: the stored form of a word list. */
  function WordsString(words: seq<string>): (s: string)
    ensures |s| >= 1 && s[|s| - 1] == ','
  {
    Join(words, ",") + ","
  }

  /** Every word has the length of the first. */
  predicate SameLengths(words: seq<string>)
  {
    forall i | 0 <= i < |words| :: |words[i]| == |words[0]|
  }

  /**
   * Storing a list of clean words and parsing it back gives the same list: what the second
   * player sends is what the game receives.
   */
  lemma ParseWordsString(words: seq<string>)
    requires forall i | 0 <= i < |words| :: CleanWord(words[i])
    ensures ParseWords(Some(WordsString(words))) == words
  {
    var s := WordsString(words);
    RStripCharAppended(Join(words, ","), ',');
    if |words| == 0 {
      assert RStripChar(s, ',') == [];
    } else {
      var last := words[|words| - 1];
      JoinEnds(words, ",");
      assert last[|last| - 1] in last;
      RStripCharNoTrail(Join(words, ","), ',');
      SplitJoin(words, ',');
      KeepStrippedClean(words);
    }
  }

  /** The record a first join creates: the caller in the first slot, the settings from the request. */
  function NewLobby(req: JoinRequest, deviceId: string, userId: int): LobbyRecord
    requires |req.words| >= 1
  {
    LobbyRecord(
      req.code, None, Some(userId), None, Some(deviceId), None, Some(WordsString(req.words)), None,
      if req.turnTimeLimit.None? || req.turnTimeLimit.value == 0 then DefaultTurnTimeLimit else req.turnTimeLimit.value,
      |req.words[0]|, |req.words|)
  }

  function Joined(lobby: LobbyRecord, isHost: bool, sessionId: Option<string>): JoinResponse
  {
    JoinResponse(sessionId, lobby, isHost, lobby.IsReady())
  }

  function Failure(lobbies: map<string, LobbyRecord>, status: int, detail: string): JoinResult
  {
    JoinResult(Err(HttpError(status, detail)), lobbies, None)
  }

  /**
   * What FastAPI checks of a `JoinLobbyRequest` before the handler runs: a code of exactly four
   * characters, at least one word, and a turn limit of at least 1 when one is given.
   */
  predicate ValidRequest(req: JoinRequest)
    ensures ValidRequest(req) ==> req.words != [] && |req.code| == 4
    ensures req.turnTimeLimit == Some(0) ==> !ValidRequest(req)
  {
    |req.code| == 4 && |req.words| >= 1 && (req.turnTimeLimit.None? || req.turnTimeLimit.value >= 1)
  }

  /**
   * `join_lobby` for the device `deviceId` whose user id is `caller`, as intended: a first join
   * answers with the lobby it creates. A request that fails
   * FastAPI's validation is refused with 422 before the handler runs, so the handler's own 400
   * for an empty word list is never reached. `users` holds the user
   * ids that can be fetched, and `created` the session id of the game started for a seated
   * second player (none when `create_game` raises, which the route reports as a 500 after the
   * record was already updated).
   */
  function JoinLobby(lobbies: map<string, LobbyRecord>, req: JoinRequest, deviceId: string, caller: Option<int>,
                     users: set<int>, created: Option<string>): (r: JoinResult)
    ensures r.reply == Err(HttpError(422, "Unprocessable Entity")) <==> !ValidRequest(req)
    ensures !ValidRequest(req) || caller.None? || !SameLengths(req.words) ==> r.lobbies == lobbies && r.call.None?
    ensures r.reply.Ok? ==> ValidRequest(req) && caller.Some? && SameLengths(req.words) && req.code in r.lobbies
                            && r.reply.value.lobby == r.lobbies[req.code]
                            && (r.reply.value.isHost <==> r.lobbies[req.code].p1Id == caller)
  {
    if !ValidRequest(req) then Failure(lobbies, 422, "Unprocessable Entity")
    else if caller.None? then Failure(lobbies, 404, "User not found")
    else if |req.words| == 0 then Failure(lobbies, 400, "Words list cannot be empty")
    else if !SameLengths(req.words) then Failure(lobbies, 400, "All words must be the same length")
    else
      var uid := caller.value;
      var wordLength := |req.words[0]|;
      var stored := WordsString(req.words);
      if req.code !in lobbies then
        var lobby := NewLobby(req, deviceId, uid);
        JoinResult(Ok(Joined(lobby, true, None)), lobbies[req.code := lobby], None)
      else
        var lobby := lobbies[req.code];
        if lobby.p1Id.None? then Failure(lobbies, 500, "Lobby exists but has no P1")
        else if lobby.p1Id == Some(uid) then
          var updated := lobby.(p1DeviceId := Some(deviceId), p1Words := Some(stored));
          JoinResult(Ok(Joined(updated, true, None)), lobbies[req.code := updated], None)
        else if lobby.p2Id.None? then
          if |req.words| != lobby.rounds then Failure(lobbies, 400, "You must provide " + IntToString(lobby.rounds) + " words to match lobby settings")
          else if wordLength != lobby.wordLength then Failure(lobbies, 400, "Words must be " + IntToString(lobby.wordLength) + " letters long to match lobby settings")
          else
            var updated := lobby.(p2Id := Some(uid), p2DeviceId := Some(deviceId), p2Words := Some(stored));
            var after := lobbies[req.code := updated];
            if updated.p1Id.value !in users || uid !in users then Failure(after, 500, "Failed to fetch player data")
            else
              var call := CreateGameCall(updated.p1Id.value, uid, updated.P1WordsList(), updated.P2WordsList(),
                                         updated.rounds, updated.wordLength, updated.turnTimeLimit, false);
              match created
              case None => JoinResult(Err(HttpError(500, "Internal server error")), after, Some(call))
              case Some(sid) => JoinResult(Ok(Joined(updated, false, Some(sid))), after, Some(call))
        else if lobby.p2Id == Some(uid) then
          var updated := lobby.(p2DeviceId := Some(deviceId), p2Words := Some(stored));
          JoinResult(Ok(Joined(updated, false, None)), lobbies[req.code := updated], None)
        else Failure(lobbies, 400, "Lobby is full")
  }

  /** Words of different lengths are refused with 400 and nothing is stored. */
  lemma JoinRejectsBadWords(lobbies: map<string, LobbyRecord>, req: JoinRequest, deviceId: string, caller: Option<int>,
                            users: set<int>, created: Option<string>)
    requires ValidRequest(req) && caller.Some?
    requires exists i | 0 <= i < |req.words| :: |req.words[i]| != |req.words[0]|
    ensures var r := JoinLobby(lobbies, req, deviceId, caller, users, created);
      r == Failure(lobbies, 400, "All words must be the same length")
  {
  }

  /**
   * A valid join under an unknown code (intended route) creates the lobby and answers with it,
   * with the caller as host and first player, as many rounds as words, the common word length,
   * and the turn limit asked for or 120 seconds.
   */
  lemma JoinCreatesLobby(lobbies: map<string, LobbyRecord>, req: JoinRequest, deviceId: string, uid: int,
                         users: set<int>, created: Option<string>)
    requires ValidRequest(req) && SameLengths(req.words) && req.code !in lobbies
    ensures var r := JoinLobby(lobbies, req, deviceId, Some(uid), users, created);
      && r.reply.Ok? && r.reply.value.isHost && r.reply.value.sessionId.None? && !r.reply.value.isReady
      && r.call.None?
      && r.lobbies.Keys == lobbies.Keys + {req.code}
      && (forall c | c in lobbies :: r.lobbies[c] == lobbies[c])
      && var l := r.lobbies[req.code];
      && l == r.reply.value.lobby
      && l.p1Id == Some(uid) && l.p1DeviceId == Some(deviceId) && l.p2Id.None?
      && l.rounds == |req.words| && l.wordLength == |req.words[0]|
      && (forall i | 0 <= i < |req.words| :: |req.words[i]| == l.wordLength)
      && l.turnTimeLimit == req.turnTimeLimit.GetOr(120)
      && ((forall i | 0 <= i < |req.words| :: CleanWord(req.words[i])) ==> l.P1WordsList() == req.words)
  {
    var l := NewLobby(req, deviceId, uid);
    JoinNewCode(lobbies, req, deviceId, uid, users, created);
    var r := JoinLobby(lobbies, req, deviceId, Some(uid), users, created);
    assert r.lobbies[req.code] == l == r.reply.value.lobby;
    if forall i | 0 <= i < |req.words| :: CleanWord(req.words[i]) {
      ParseWordsString(req.words);
      assert l.P1WordsList() == req.words;
    }
  }

  /** A valid join under an unknown code stores `NewLobby` and answers with it as its host. */
  lemma JoinNewCode(lobbies: map<string, LobbyRecord>, req: JoinRequest, deviceId: string, uid: int,
                    users: set<int>, created: Option<string>)
    requires ValidRequest(req) && SameLengths(req.words) && req.code !in lobbies
    ensures var l := NewLobby(req, deviceId, uid);
      JoinLobby(lobbies, req, deviceId, Some(uid), users, created)
        == JoinResult(Ok(Joined(l, true, None)), lobbies[req.code := l], None)
  {
  }

  /** The detail of the 500 a first join meets when no lobby has the id 1. */
  const NoRowOne := "Internal server error: 'NoneType' object has no attribute 'is_ready'"

  /**
   * `join_lobby` as written. Under an unknown code the new record is stored, and the lobby is
   * then fetched by the id `create_lobby` returns, which is the insert's row count, 1, rather
   * than the new row's id. `rowOne` is the record the table holds under id 1 at that moment:
   * the reply carries it as the caller's lobby, or is a 500 when there is none. Every other
   * case is the intended `JoinLobby`.
   */
  function JoinLobbyAsWritten(lobbies: map<string, LobbyRecord>, req: JoinRequest, deviceId: string,
                              caller: Option<int>, users: set<int>, created: Option<string>,
                              rowOne: Option<LobbyRecord>): (r: JoinResult)
    ensures var i := JoinLobby(lobbies, req, deviceId, caller, users, created);
      && r.lobbies == i.lobbies && r.call == i.call
      && (r.reply != i.reply ==> ValidRequest(req) && caller.Some? && SameLengths(req.words) && req.code !in lobbies)
  {
    if ValidRequest(req) && caller.Some? && SameLengths(req.words) && req.code !in lobbies then
      var reply := match rowOne
        case None => Err(HttpError(500, NoRowOne))
        case Some(row) => Ok(Joined(row, true, None));
      JoinResult(reply, lobbies[req.code := NewLobby(req, deviceId, caller.value)], None)
    else JoinLobby(lobbies, req, deviceId, caller, users, created)
  }

  /**
   * A first join as written stores what the intended route stores, but answers with the lobby
   * under id 1, marked as the caller's own: the same reply as the intended route exactly when
   * that lobby is the one just created, and a 500 when there is no lobby with id 1.
   */
  lemma JoinRepliesWithRowOne(lobbies: map<string, LobbyRecord>, req: JoinRequest, deviceId: string, uid: int,
                              users: set<int>, created: Option<string>, rowOne: Option<LobbyRecord>)
    requires ValidRequest(req) && SameLengths(req.words) && req.code !in lobbies
    ensures var w := JoinLobbyAsWritten(lobbies, req, deviceId, Some(uid), users, created, rowOne);
      var i := JoinLobby(lobbies, req, deviceId, Some(uid), users, created);
      && w.lobbies == i.lobbies && w.call.None?
      && (rowOne.None? ==> w.reply == Err(HttpError(500, NoRowOne)))
      && (rowOne.Some? ==> w.reply.Ok? && w.reply.value.lobby == rowOne.value && w.reply.value.isHost)
      && (w.reply == i.reply <==> rowOne == Some(i.lobbies[req.code]))
  {
    JoinCreatesLobby(lobbies, req, deviceId, uid, users, created);
  }

  /**
   * Concretely: with lobby "AAAA" of user 7 under id 1, user 8 joining under "BBBB" stores
   * "BBBB" and is told it hosts "AAAA".
   */
  lemma JoinAnswersOtherLobbyAsWritten(aaaa: LobbyRecord, deviceId: string, words: seq<string>)
    requires aaaa.code == "AAAA" && aaaa.p1Id == Some(7) && |words| >= 1 && SameLengths(words)
    ensures var req := JoinRequest("BBBB", words, None);
      var w := JoinLobbyAsWritten(map["AAAA" := aaaa], req, deviceId, Some(8), {7, 8}, None, Some(aaaa));
      && "BBBB" in w.lobbies && w.lobbies["BBBB"].p1Id == Some(8)
      && w.reply.Ok? && w.reply.value.isHost && w.reply.value.lobby.code == "AAAA"
      && w.reply.value.lobby.p1Id == Some(7)
      && w.reply != JoinLobby(map["AAAA" := aaaa], req, deviceId, Some(8), {7, 8}, None).reply
  {
    var req := JoinRequest("BBBB", words, None);
    JoinRepliesWithRowOne(map["AAAA" := aaaa], req, deviceId, 8, {7, 8}, None, Some(aaaa));
  }

  /** A host rejoining changes only its device id and its words. */
  lemma JoinRejoinsHost(lobbies: map<string, LobbyRecord>, req: JoinRequest, deviceId: string, uid: int,
                        users: set<int>, created: Option<string>)
    requires ValidRequest(req) && SameLengths(req.words) && req.code in lobbies
    requires lobbies[req.code].p1Id == Some(uid)
    ensures var r := JoinLobby(lobbies, req, deviceId, Some(uid), users, created);
      var prior := lobbies[req.code];
      && r.reply.Ok? && r.reply.value.isHost && r.call.None?
      && r.lobbies == lobbies[req.code := r.reply.value.lobby]
      && r.reply.value.lobby.p1DeviceId == Some(deviceId) && r.reply.value.lobby.p1Words == Some(WordsString(req.words))
      && r.reply.value.lobby == prior.(p1DeviceId := r.reply.value.lobby.p1DeviceId, p1Words := r.reply.value.lobby.p1Words)
  {
  }

  /** A second player rejoining changes only its device id and its words; no game is created. */
  lemma JoinRejoinsSecond(lobbies: map<string, LobbyRecord>, req: JoinRequest, deviceId: string, uid: int,
                          users: set<int>, created: Option<string>)
    requires ValidRequest(req) && SameLengths(req.words) && req.code in lobbies
    requires lobbies[req.code].p1Id.Some? && lobbies[req.code].p1Id != Some(uid) && lobbies[req.code].p2Id == Some(uid)
    ensures var r := JoinLobby(lobbies, req, deviceId, Some(uid), users, created);
      var prior := lobbies[req.code];
      && r.reply.Ok? && !r.reply.value.isHost && r.reply.value.sessionId.None? && r.call.None?
      && r.lobbies == lobbies[req.code := r.reply.value.lobby]
      && r.reply.value.lobby.p2DeviceId == Some(deviceId) && r.reply.value.lobby.p2Words == Some(WordsString(req.words))
      && r.reply.value.lobby == prior.(p2DeviceId := r.reply.value.lobby.p2DeviceId, p2Words := r.reply.value.lobby.p2Words)
  {
  }

  /**
   * A second player whose word count differs from the lobby's rounds, or whose word length
   * differs from the lobby's, is refused with 400 and nothing is stored.
   */
  lemma JoinRejectsMismatch(lobbies: map<string, LobbyRecord>, req: JoinRequest, deviceId: string, uid: int,
                            users: set<int>, created: Option<string>)
    requires ValidRequest(req) && SameLengths(req.words) && req.code in lobbies
    requires lobbies[req.code].p1Id.Some? && lobbies[req.code].p1Id != Some(uid) && lobbies[req.code].p2Id.None?
    requires |req.words| != lobbies[req.code].rounds || |req.words[0]| != lobbies[req.code].wordLength
    ensures var r := JoinLobby(lobbies, req, deviceId, Some(uid), users, created);
      r.reply.Err? && r.reply.error.status == 400 && r.lobbies == lobbies && r.call.None?
  {
  }

  /**
   * A matching second player is stored in the lobby, and the game is created from the lobby's
   * two stored word lists and its settings, never against the AI; the words it receives for the
   * second player are the ones sent, when they are clean.
   */
  lemma JoinSeatsSecondPlayer(lobbies: map<string, LobbyRecord>, req: JoinRequest, deviceId: string, uid: int,
                              users: set<int>, created: Option<string>)
    requires ValidRequest(req) && SameLengths(req.words) && req.code in lobbies
    requires lobbies[req.code].p1Id.Some? && lobbies[req.code].p1Id != Some(uid) && lobbies[req.code].p2Id.None?
    requires |req.words| == lobbies[req.code].rounds && |req.words[0]| == lobbies[req.code].wordLength
    requires lobbies[req.code].p1Id.value in users && uid in users
    ensures var r := JoinLobby(lobbies, req, deviceId, Some(uid), users, created);
      var l := r.lobbies[req.code];
      && req.code in r.lobbies && r.lobbies == lobbies[req.code := l]
      && l.p2Id == Some(uid) && l.p2DeviceId == Some(deviceId) && l.p2Words == Some(WordsString(req.words))
      && l.p1Id == lobbies[req.code].p1Id && l.p1Words == lobbies[req.code].p1Words && l.IsReady() == l.p1Words.Some?
      && r.call.Some?
      && r.call.value.p1Id == lobbies[req.code].p1Id.value && r.call.value.p2Id == uid
      && r.call.value.rounds == l.rounds && r.call.value.wordLength == l.wordLength
      && r.call.value.turnTimeLimit == l.turnTimeLimit && !r.call.value.versusAi
      && r.call.value.p1Words == l.P1WordsList()
      && ((forall i | 0 <= i < |req.words| :: CleanWord(req.words[i])) ==> r.call.value.p2Words == req.words)
      && (created.Some? <==> r.reply.Ok?)
      && (created.Some? ==> r.reply.value.sessionId == created && !r.reply.value.isHost)
  {
    if forall i | 0 <= i < |req.words| :: CleanWord(req.words[i]) {
      ParseWordsString(req.words);
    }
  }

  /** A lobby whose two slots hold other users turns the caller away with "Lobby is full". */
  lemma JoinRejectsWhenFull(lobbies: map<string, LobbyRecord>, req: JoinRequest, deviceId: string, uid: int,
                            users: set<int>, created: Option<string>)
    requires ValidRequest(req) && SameLengths(req.words) && req.code in lobbies
    requires lobbies[req.code].p1Id.Some? && lobbies[req.code].p1Id != Some(uid)
    requires lobbies[req.code].p2Id.Some? && lobbies[req.code].p2Id != Some(uid)
    ensures JoinLobby(lobbies, req, deviceId, Some(uid), users, created) == Failure(lobbies, 400, "Lobby is full")
  {
  }

  /**
   * Why `delete_lobby` turns the caller away before touching the repository, if it does: an
   * unknown device, an unknown code, or a caller who is not the host.
   */
  function DeleteRefusal(lobbies: map<string, LobbyRecord>, code: string, caller: Option<int>): (r: Option<HttpError>)
    ensures r.None? <==> caller.Some? && code in lobbies && lobbies[code].p1Id == caller
    ensures caller.Some? && code in lobbies && lobbies[code].p1Id != caller ==>
              r == Some(HttpError(403, "Only the lobby host can delete the lobby"))
  {
    if caller.None? then Some(HttpError(404, "User not found"))
    else if code !in lobbies then Some(HttpError(404, "Lobby not found"))
    else if lobbies[code].p1Id != caller then Some(HttpError(403, "Only the lobby host can delete the lobby"))
    else None
  }

  /**
   * `delete_lobby` as written. `LobbiesRepository.delete_lobby` builds its statement with
   * `QueryManager.delete`, which the query manager does not define, so once the checks pass the
   * call raises and the blanket handler answers 500; no lobby is ever deleted.
   */
  function DeleteLobbyAsWritten(lobbies: map<string, LobbyRecord>, code: string, caller: Option<int>)
    : (r: (Result<bool, HttpError>, map<string, LobbyRecord>))
    ensures r.0.Err? && r.1 == lobbies
    ensures r.0.error.status == 500 <==> caller.Some? && code in lobbies && lobbies[code].p1Id == caller
    ensures r.0.error.status == 500 ==> r.0.error.detail == "Internal server error"
  {
    var refusal := DeleteRefusal(lobbies, code, caller);
    if refusal.Some? then (Err(refusal.value), lobbies)
    else (Err(HttpError(500, "Internal server error")), lobbies)
  }

  /**
   * `delete_lobby` as intended, with a query manager that can delete: the lobby is deleted,
   * and true returned, only when the caller is known and is the lobby's first player.
   */
  function DeleteLobby(lobbies: map<string, LobbyRecord>, code: string, caller: Option<int>)
    : (r: (Result<bool, HttpError>, map<string, LobbyRecord>))
    ensures r.0.Ok? <==> caller.Some? && code in lobbies && lobbies[code].p1Id == caller
    ensures r.0.Ok? ==> r.0.value && r.1 == lobbies - {code}
    ensures r.0.Err? ==> r.1 == lobbies
    ensures caller.Some? && code in lobbies && lobbies[code].p1Id != caller ==> r.0 == Err(HttpError(403, "Only the lobby host can delete the lobby"))
  {
    var refusal := DeleteRefusal(lobbies, code, caller);
    if refusal.Some? then (Err(refusal.value), lobbies)
    else (Ok(true), lobbies - {code})
  }

  /**
   * The two routes refuse alike; where the intended route deletes the host's lobby, the route
   * as written answers 500 and the lobby stays.
   */
  lemma DeleteLobbyFailsAsWritten(lobbies: map<string, LobbyRecord>, code: string, caller: Option<int>)
    ensures var written, intended := DeleteLobbyAsWritten(lobbies, code, caller), DeleteLobby(lobbies, code, caller);
            && (intended.0.Err? ==> written == intended)
            && (intended.0.Ok? ==> written == (Err(HttpError(500, "Internal server error")), lobbies)
                                   && code in lobbies && code !in intended.1)
  {
  }
}

=== FILE: lobby.dfy ===
/**
 * The in-memory lobbies of the socket lobby flow: each lobby maps player ids to their sockets,
 * keeps the secret words the players sent, and raises its ready flag once two players are in.
 * The manager maps lobby codes to lobbies and draws fresh four-digit codes.
 */
module LobbyModel {
  import opened Wrappers
  import opened Strings

  /** A socket is only an identity here. */
  type Socket = nat

  class CustomLobby {
    const code: string
    var players: map<string, Socket>
    var secretWords: map<string, string>
    /** The `ready` event: once set, it stays set. */
    var ready: bool

    /** The flag is raised exactly when two players have joined, and words belong to players. */
    predicate Valid()
      reads this
    {
      (ready <==> |players| >= 2) && secretWords.Keys <= players.Keys
    }

    constructor (code: string)
      ensures Valid()
      ensures this.code == code && players == map[] && secretWords == map[] && !ready
    {
      this.code := code;
      players := map[];
      secretWords := map[];
      ready := false;
    }

    /**
     * `add_player`: the socket is recorded (replacing an earlier one of the same player), the
     * secret word only when one is given and it is not empty, and the flag is set when the
     * lobby now holds two players.
     */
    method AddPlayer(playerId: string, ws: Socket, secretWord: Option<string>)
      requires Valid()
      modifies this
      ensures Valid()
      ensures players == old(players)[playerId := ws]
      ensures secretWords == if secretWord.Some? && secretWord.value != [] then old(secretWords)[playerId := secretWord.value]
                             else old(secretWords)
      ensures ready == (old(ready) || |players| == 2)
      ensures |players| == if playerId in old(players) then |old(players)| else |old(players)| + 1
    {
      MapUpdateCard(players, playerId, ws);
      players := players[playerId := ws];
      if secretWord.Some? && secretWord.value != [] {
        secretWords := secretWords[playerId := secretWord.value];
      }
      if |players| == 2 {
        ready := true;
      }
    }
  }

  /** Updating a map adds one entry when the key is new and none otherwise. */
  lemma MapUpdateCard<K, V>(m: map<K, V>, k: K, v: V)
    ensures |m[k := v]| == if k in m then |m| else |m| + 1
  {
    if k in m {
      assert m[k := v].Keys == m.Keys;
    } else {
      assert m[k := v].Keys == m.Keys + {k};
    }
  }

  /** The smallest and largest code `generate_code` draws. */
  const MinCode := 1000
  const MaxCode := 9999

  class LobbyManager {
    var lobbies: map<string, CustomLobby>

    /** Every lobby is filed under its own code. */
    predicate Valid()
      reads this, lobbies.Values
    {
      forall c | c in lobbies :: lobbies[c].code == c
    }

    constructor ()
      ensures Valid() && lobbies == map[]
    {
      lobbies := map[];
    }

    /** `create_lobby`: a new empty lobby is filed under `code`, replacing any lobby there. */
    method CreateLobby(code: string) returns (lobby: CustomLobby)
      requires Valid()
      modifies this
      ensures Valid()
      ensures fresh(lobby) && lobby.Valid()
      ensures lobby.code == code && lobby.players == map[] && lobby.secretWords == map[] && !lobby.ready
      ensures lobbies == old(lobbies)[code := lobby]
    {
      lobby := new CustomLobby(code);
      lobbies := lobbies[code := lobby];
    }

    /** `get_lobby`: the lobby filed under `code`, if any. */
    function GetLobby(code: string): (r: Option<CustomLobby>)
      requires Valid()
      reads this, lobbies.Values
      ensures r.Some? <==> code in lobbies
      ensures r.Some? ==> r.value.code == code && r.value in lobbies.Values
    {
      if code in lobbies then Some(lobbies[code]) else None
    }

    /** `remove_lobby`: the code is forgotten; an unknown code is ignored. */
    method RemoveLobby(code: string)
      requires Valid()
      modifies this
      ensures Valid()
      ensures lobbies == old(lobbies) - {code}
    {
      lobbies := lobbies - {code};
    }

    /**
     * `generate_code`: the first of the random draws (each between 1000 and 9999) whose decimal
     * form is not a lobby code yet. The source draws until it finds one; here the draws are
     * given, and none is returned when every one of them is taken.
     */
    method GenerateCode(draws: seq<nat>) returns (code: Option<string>)
      requires forall i | 0 <= i < |draws| :: MinCode <= draws[i] <= MaxCode
      ensures code.Some? ==> code.value !in lobbies && |code.value| == 4
      ensures code.Some? ==> exists i | 0 <= i < |draws| :: code.value == NatToString(draws[i])
                                          && forall j | 0 <= j < i :: NatToString(draws[j]) in lobbies
      ensures code.None? <==> forall i | 0 <= i < |draws| :: NatToString(draws[i]) in lobbies
    {
      var k := 0;
      while k < |draws|
        invariant 0 <= k <= |draws|
        invariant forall j | 0 <= j < k :: NatToString(draws[j]) in lobbies
      {
        var candidate := NatToString(draws[k]);
        if candidate !in lobbies {
          FourDigits(draws[k]);
          return Some(candidate);
        }
        k := k + 1;
      }
      return None;
    }
  }
}

=== FILE: lobby_record.dfy ===
/**
 * The persisted lobby record: two player slots, each word list stored as one comma-separated
 * string, and the settings the host chose. Parsing a stored word list and the readiness test.
 */
module LobbyRecordModel {
  import opened Wrappers
  import opened Strings

  datatype LobbyRecord = LobbyRecord(
    code: string,
    sessionId: Option<string>,
    p1Id: Option<int>,
    p2Id: Option<int>,
    p1DeviceId: Option<string>,
    p2DeviceId: Option<string>,
    p1Words: Option<string>,
    p2Words: Option<string>,
    turnTimeLimit: int,
    wordLength: int,
    rounds: int)
  {
    /**
     * `get_p1_words_list`: no words while the list is unset or empty, and never an empty or
     * padded word.
     */
    function P1WordsList(): (r: seq<string>)
      ensures p1Words.None? || p1Words == Some([]) ==> r == []
      ensures forall i | 0 <= i < |r| :: Trimmed(r[i])
    {
      ParseWords(p1Words)
    }

    /**
     * `get_p2_words_list`: no words while the list is unset or empty, and never an empty or
     * padded word.
     */
    function P2WordsList(): (r: seq<string>)
      ensures p2Words.None? || p2Words == Some([]) ==> r == []
      ensures forall i | 0 <= i < |r| :: Trimmed(r[i])
    {
      ParseWords(p2Words)
    }

    /**
     * `is_ready`: both players and both word lists are set; a lobby with a free second slot or
     * no second list is never ready.
     */
    predicate IsReady()
      ensures IsReady() <==> p1Id.Some? && p2Id.Some? && p1Words.Some? && p2Words.Some?
      ensures p2Id.None? || p2Words.None? ==> !IsReady()
    {
      p1Id.Some? && p2Id.Some? && p1Words.Some? && p2Words.Some?
    }
  }

  /** A word the parser can hand back: not empty, no surrounding whitespace. */
  predicate Trimmed(w: string)
  {
    w != [] && Unpadded(w)
  }

  /** A word the parser hands back unchanged: trimmed and without a comma. */
  predicate CleanWord(w: string)
  {
    Trimmed(w) && ',' !in w
  }

  /**
   * The stored string parsed into words: nothing for a missing or empty string; otherwise the
   * trailing commas are dropped, the rest is split at commas, and every piece is stripped, with
   * the pieces that strip to nothing left out.
   */
  function ParseWords(s: Option<string>): (r: seq<string>)
    ensures forall i | 0 <= i < |r| :: Trimmed(r[i])
    ensures s.None? || s.value == [] ==> r == []
  {
    if s.None? || s.value == [] then [] else KeepStripped(Split(RStripChar(s.value, ','), ','))
  }

  /** `[w.strip() for w in parts if w.strip()]`. */
  function KeepStripped(parts: seq<string>): (r: seq<string>)
    ensures |r| <= |parts|
    ensures forall i | 0 <= i < |r| :: Trimmed(r[i])
  {
    if |parts| == 0 then []
    else
      var w := Strip(parts[0]);
      var rest := KeepStripped(parts[1..]);
      if w == [] then rest else [w] + rest
  }

  /** Pieces that are already clean pass through the comprehension unchanged. */
  lemma {:induction false} KeepStrippedClean(ws: seq<string>)
    requires forall i | 0 <= i < |ws| :: CleanWord(ws[i])
    ensures KeepStripped(ws) == ws
  {
    if |ws| > 0 {
      StripUnpadded(ws[0]);
      KeepStrippedClean(ws[1..]);
      assert [ws[0]] + ws[1..] == ws;
    }
  }

  /** A string without a trailing `c` is left alone by `rstrip(c)`. */
  lemma RStripCharNoTrail(s: string, c: char)
    requires s == [] || s[|s| - 1] != c
    ensures RStripChar(s, c) == s
  {
  }

  /** `rstrip(c)` removes an appended `c` along with any before it. */
  lemma RStripCharAppended(s: string, c: char)
    ensures RStripChar(s + [c], c) == RStripChar(s, c)
  {
    assert (s + [c])[..|s + [c]| - 1] == s;
  }
}

=== FILE: match_making_queue.dfy ===
/**
 * The matchmaking queue: a first-in first-out list of waiting players with their sockets, the
 * secret words they declared, and a table of matches waiting to be collected by the player
 * they are filed under. One call of `wait_for_match`'s polling loop is one step, with the time
 * elapsed since the wait started passed in.
 */
module MatchmakingQueueModel {
  import opened Wrappers

  /** A socket is an opaque handle; the queue only stores and returns it. */
  type Socket = nat

  datatype Entry = Entry(playerId: string, socket: Socket)

  datatype Match = Match(player1: string, player2: string)

  /** What one iteration of the polling loop ends with. */
  datatype PollResult = TimedOut | Matched(found: Match) | KeepWaiting

  /** The queue after `remove_player`: every entry of `pid` dropped, the others kept in order. */
  function Without(q: seq<Entry>, pid: string): (r: seq<Entry>)
    ensures |r| <= |q|
    ensures forall i | 0 <= i < |r| :: r[i].playerId != pid
  {
    if |q| == 0 then []
    else if q[0].playerId == pid then Without(q[1..], pid)
    else [q[0]] + Without(q[1..], pid)
  }

  /** Filtering distributes over concatenation, so `Without` keeps the relative order of the rest. */
  lemma {:induction false} WithoutAppend(a: seq<Entry>, b: seq<Entry>, pid: string)
    ensures Without(a + b, pid) == Without(a, pid) + Without(b, pid)
  {
    if |a| > 0 {
      assert (a + b)[1..] == a[1..] + b;
      WithoutAppend(a[1..], b, pid);
    } else {
      assert a + b == b;
    }
  }

  /** Every entry of another player is kept, as often as it occurred. */
  lemma {:induction false} WithoutKeepsOthers(q: seq<Entry>, pid: string, e: Entry)
    requires e.playerId != pid
    ensures multiset(Without(q, pid))[e] == multiset(q)[e]
  {
    if |q| > 0 {
      WithoutKeepsOthers(q[1..], pid, e);
      assert q == [q[0]] + q[1..];
    }
  }

  /** A queue without entries of `pid` is left as it is. */
  lemma {:induction false} WithoutAbsent(q: seq<Entry>, pid: string)
    requires forall i | 0 <= i < |q| :: q[i].playerId != pid
    ensures Without(q, pid) == q
  {
    if |q| > 0 {
      WithoutAbsent(q[1..], pid);
      assert q == [q[0]] + q[1..];
    }
  }

  /** Removing twice is removing once. */
  lemma WithoutIdempotent(q: seq<Entry>, pid: string)
    ensures Without(Without(q, pid), pid) == Without(q, pid)
  {
    WithoutAbsent(Without(q, pid), pid);
  }

  /** The first index of `pid` in the queue, if it is there. */
  function FirstPosition(q: seq<Entry>, pid: string): (r: Option<nat>)
    ensures r.Some? ==> r.value < |q| && q[r.value].playerId == pid
    ensures r.Some? ==> forall j | 0 <= j < r.value :: q[j].playerId != pid
    ensures r.None? <==> forall j | 0 <= j < |q| :: q[j].playerId != pid
  {
    if |q| == 0 then None
    else if q[0].playerId == pid then Some(0)
    else match FirstPosition(q[1..], pid)
      case None => None
      case Some(k) => Some(k + 1)
  }

  /**
   * The pair an iteration takes when the caller is first or second in a queue of at least two:
   * always the two front entries, in queue order.
   */
  function Pairing(q: seq<Entry>, pid: string): (r: Option<Match>)
    ensures r.Some? <==> |q| >= 2 && FirstPosition(q, pid).Some? && FirstPosition(q, pid).value <= 1
    ensures r.Some? ==> r.value == Match(q[0].playerId, q[1].playerId)
    ensures r.Some? ==> pid == q[0].playerId || pid == q[1].playerId
  {
    var pos := FirstPosition(q, pid);
    if pos.Some? && |q| >= 2 && pos.value <= 1 then Some(Match(q[0].playerId, q[1].playerId)) else None
  }

  /** The other player of a match formed by `pid`. */
  function Partner(m: Match, pid: string): string
  {
    if m.player1 == pid then m.player2 else m.player1
  }

  /**
   * One iteration of `wait_for_match` as written: a match formed here is filed under its first
   * player, whoever the caller is.
   */
  function PollAsWritten(q: seq<Entry>, pending: map<string, Match>, pid: string, elapsed: int, timeout: int)
    : (r: (seq<Entry>, map<string, Match>, PollResult))
    ensures r.0 == Poll(q, pending, pid, elapsed, timeout).0 && r.2 == Poll(q, pending, pid, elapsed, timeout).2
    ensures elapsed < timeout && pid !in pending && r.2.Matched? ==>
              |q| >= 2 && r.2.found.player1 == q[0].playerId && r.1 == pending[q[0].playerId := r.2.found]
  {
    if elapsed >= timeout then (q, pending, TimedOut)
    else if pid in pending then (q, pending - {pid}, Matched(pending[pid]))
    else match Pairing(q, pid)
      case None => (q, pending, KeepWaiting)
      case Some(m) => (q[2..], pending[m.player1 := m], Matched(m))
  }

  /**
   * One iteration of `wait_for_match` with the match filed under the caller's partner, so that
   * the other player of the pair collects it on its next iteration.
   */
  function Poll(q: seq<Entry>, pending: map<string, Match>, pid: string, elapsed: int, timeout: int)
    : (seq<Entry>, map<string, Match>, PollResult)
  {
    if elapsed >= timeout then (q, pending, TimedOut)
    else if pid in pending then (q, pending - {pid}, Matched(pending[pid]))
    else match Pairing(q, pid)
      case None => (q, pending, KeepWaiting)
      case Some(m) => (q[2..], pending[Partner(m, pid) := m], Matched(m))
  }

  /** Once the time is up, an iteration answers `TimedOut` and changes nothing. */
  lemma PollTimesOut(q: seq<Entry>, pending: map<string, Match>, pid: string, elapsed: int, timeout: int)
    requires elapsed >= timeout
    ensures Poll(q, pending, pid, elapsed, timeout) == (q, pending, TimedOut)
  {
  }

  /**
   * A match filed under the caller is returned and removed, so it is collected once; the queue
   * is not touched.
   */
  lemma PollCollectsOnce(q: seq<Entry>, pending: map<string, Match>, pid: string, elapsed: int, timeout: int)
    requires elapsed < timeout && pid in pending
    ensures var (q', pending', r) := Poll(q, pending, pid, elapsed, timeout);
      && r == Matched(pending[pid]) && q' == q
      && pid !in pending' && (forall k | k in pending' :: k in pending && pending'[k] == pending[k])
      && (forall k | k in pending && k != pid :: k in pending')
      && Poll(q', pending', pid, elapsed, timeout).2 == if Pairing(q, pid).Some? then Matched(Pairing(q, pid).value) else KeepWaiting
  {
  }

  /**
   * A caller first or second in a queue of at least two is paired with the front two entries in
   * queue order; both leave the queue and the partner finds the match on its next iteration.
   */
  lemma PollPairsFront(q: seq<Entry>, pending: map<string, Match>, pid: string, elapsed: int, timeout: int)
    requires elapsed < timeout && pid !in pending
    requires |q| >= 2 && (q[0].playerId == pid || q[1].playerId == pid)
    ensures var m := Match(q[0].playerId, q[1].playerId);
      var (q', pending', r) := Poll(q, pending, pid, elapsed, timeout);
      && r == Matched(m) && q' == q[2..]
      && pending' == pending[Partner(m, pid) := m]
  {
  }

  /**
   * A caller further back than second, or not queued at all, keeps waiting and changes
   * nothing.
   */
  lemma PollWaits(q: seq<Entry>, pending: map<string, Match>, pid: string, elapsed: int, timeout: int)
    requires elapsed < timeout && pid !in pending
    requires |q| < 2 || (q[0].playerId != pid && q[1].playerId != pid)
    ensures Poll(q, pending, pid, elapsed, timeout) == (q, pending, KeepWaiting)
  {
    var pos := FirstPosition(q, pid);
    if pos.Some? && |q| >= 2 {
      assert pos.value >= 2;
    }
  }

  /**
   * After a pairing, the partner's next iteration before the timeout hands it the same match
   * (for a player queued twice, its own next iteration does).
   */
  lemma PartnerCollectsMatch(q: seq<Entry>, pending: map<string, Match>, pid: string, elapsed: int, timeout: int,
                             later: int)
    requires elapsed < timeout && later < timeout
    requires Poll(q, pending, pid, elapsed, timeout).2.Matched? && pid !in pending
    ensures var (q', pending', r) := Poll(q, pending, pid, elapsed, timeout);
      var partner := Partner(r.found, pid);
      Poll(q', pending', partner, later, timeout).2 == r
  {
  }

  /**
   * As written, a caller at the front of the queue files the match under itself: the player
   * behind it leaves the queue matched, yet its own iterations never see the match and end in
   * `TimedOut`.
   */
  lemma PartnerStrandedAsWritten()
    ensures var q := [Entry("A", 1), Entry("B", 2)];
      var (q', pending', r) := PollAsWritten(q, map[], "A", 0, 10);
      && r == Matched(Match("A", "B"))
      && (forall t | 0 <= t < 10 :: PollAsWritten(q', pending', "B", t, 10).2 == KeepWaiting)
      && PollAsWritten(q', pending', "B", 10, 10).2 == TimedOut
  {
    var q := [Entry("A", 1), Entry("B", 2)];
    assert FirstPosition(q, "A") == Some(0);
    var (q', pending', r) := PollAsWritten(q, map[], "A", 0, 10);
    assert q' == [] && pending' == map["A" := Match("A", "B")];
  }

  class MatchmakingQueue {
    var queue: seq<Entry>
    var secretWords: map<string, Option<string>>
    var pendingMatches: map<string, Match>

    constructor ()
      ensures queue == [] && secretWords == map[] && pendingMatches == map[]
    {
      queue := [];
      secretWords := map[];
      pendingMatches := map[];
    }

    /** `add_player`: the player joins at the back, and the secret word (possibly none) is recorded. */
    method AddPlayer(playerId: string, ws: Socket, secretWord: Option<string>)
      modifies this
      ensures queue == old(queue) + [Entry(playerId, ws)]
      ensures secretWords == old(secretWords)[playerId := secretWord]
      ensures pendingMatches == old(pendingMatches)
    {
      queue := queue + [Entry(playerId, ws)];
      secretWords := secretWords[playerId := secretWord];
    }

    /** `get_pair`: the two front entries leave the queue in order; fewer than two leaves it as is. */
    method GetPair() returns (pair: Option<(Entry, Entry)>)
      modifies this
      ensures |old(queue)| >= 2 ==> pair == Some((old(queue)[0], old(queue)[1])) && queue == old(queue)[2..]
      ensures |old(queue)| < 2 ==> pair.None? && queue == old(queue)
      ensures secretWords == old(secretWords) && pendingMatches == old(pendingMatches)
    {
      if |queue| >= 2 {
        var first := queue[0];
        queue := queue[1..];
        var second := queue[0];
        queue := queue[1..];
        return Some((first, second));
      }
      return None;
    }

    /** The positions loop of `wait_for_match`: every index holding `pid`, in increasing order. */
    method Positions(pid: string) returns (ps: seq<nat>)
      ensures forall k | 0 <= k < |ps| :: ps[k] < |queue| && queue[ps[k]].playerId == pid
      ensures forall i | 0 <= i < |queue| && queue[i].playerId == pid :: i in ps
      ensures forall k, l | 0 <= k < l < |ps| :: ps[k] < ps[l]
      ensures |ps| > 0 <==> FirstPosition(queue, pid).Some?
      ensures |ps| > 0 ==> ps[0] == FirstPosition(queue, pid).value
    {
      ps := [];
      var i := 0;
      while i < |queue|
        invariant 0 <= i <= |queue|
        invariant forall k | 0 <= k < |ps| :: ps[k] < i && queue[ps[k]].playerId == pid
        invariant forall j | 0 <= j < i && queue[j].playerId == pid :: j in ps
        invariant forall k, l | 0 <= k < l < |ps| :: ps[k] < ps[l]
      {
        if queue[i].playerId == pid {
          ps := ps + [i];
        }
        i := i + 1;
      }
      if |ps| > 0 {
        assert queue[ps[0]].playerId == pid;
        var first := FirstPosition(queue, pid);
        assert first.value in ps;
      }
    }

    /** `_set_pending_match`. */
    method SetPendingMatch(playerId: string, m: Match)
      modifies this
      ensures pendingMatches == old(pendingMatches)[playerId := m]
      ensures queue == old(queue) && secretWords == old(secretWords)
    {
      pendingMatches := pendingMatches[playerId := m];
    }

    /**
     * One iteration of the polling loop of `wait_for_match`, `elapsed` time after the wait began:
     * the outcome and the new queue and pending table are `Poll`'s; secret words are untouched.
     */
    method WaitForMatchStep(playerId: string, elapsed: int, timeout: int) returns (r: PollResult)
      modifies this
      ensures (queue, pendingMatches, r) == Poll(old(queue), old(pendingMatches), playerId, elapsed, timeout)
      ensures secretWords == old(secretWords)
    {
      if elapsed >= timeout {
        return TimedOut;
      }
      if playerId in pendingMatches {
        var m := pendingMatches[playerId];
        pendingMatches := pendingMatches - {playerId};
        return Matched(m);
      }
      var positions := Positions(playerId);
      if |positions| > 0 && |queue| >= 2 {
        var ourPosition := positions[0];
        if ourPosition <= 1 {
          var first := queue[0];
          queue := queue[1..];
          var second := queue[0];
          queue := queue[1..];
          var m := Match(first.playerId, second.playerId);
          SetPendingMatch(Partner(m, playerId), m);
          return Matched(m);
        }
      }
      return KeepWaiting;
    }

    /** `remove_player`: every entry of the player leaves the queue, and its secret word is dropped. */
    method RemovePlayer(playerId: string)
      modifies this
      ensures queue == Without(old(queue), playerId)
      ensures secretWords == old(secretWords) - {playerId}
      ensures pendingMatches == old(pendingMatches)
    {
      queue := Without(queue, playerId);
      secretWords := secretWords - {playerId};
    }
  }
}

=== FILE: power_up_persistence.dfy ===
/**
 * The after-game handler that stores each player's remaining power-ups: once the game is over,
 * one update per player with the remaining count of each of the three power-up kinds.
 */
module PowerUpPersistenceModel {
  import opened GameSessionModel

  /** The column each power-up kind is stored in. */
  function Column(t: PowerUpType): string
  {
    match t
    case FishOut => "fish_out"
    case RevealLetter => "reveal_letter"
    case AiMeaning => "ai_meaning"
  }

  /** The three columns of an update. */
  const Columns: set<string> := {"fish_out", "reveal_letter", "ai_meaning"}

  /** The remaining count of the last power-up of kind `t` in `ps`, or 0 when there is none. */
  function LastRemaining(ps: seq<PowerUp>, t: PowerUpType): (r: int)
    ensures (forall j | 0 <= j < |ps| :: ps[j].kind != t) ==> r == 0
    ensures (exists j | 0 <= j < |ps| :: ps[j].kind == t) ==>
      exists j | 0 <= j < |ps| :: ps[j].kind == t && r == ps[j].remaining
                                 && forall k | j < k < |ps| :: ps[k].kind != t
  {
    if |ps| == 0 then 0
    else if ps[|ps| - 1].kind == t then ps[|ps| - 1].remaining
    else
      assert forall j | 0 <= j < |ps| - 1 :: ps[..|ps| - 1][j] == ps[j];
      LastRemaining(ps[..|ps| - 1], t)
  }

  /**
   * The power-up map of one player: every kind starts at 0, and each listed power-up then
   * sets its kind's count, so a later entry of the same kind wins.
   */
  method PowerUpMap(ps: seq<PowerUp>) returns (m: map<PowerUpType, int>)
    ensures m.Keys == {FishOut, RevealLetter, AiMeaning}
    ensures forall t | t in m :: m[t] == LastRemaining(ps, t)
  {
    m := map[FishOut := 0, RevealLetter := 0, AiMeaning := 0];
    for i := 0 to |ps|
      invariant m.Keys == {FishOut, RevealLetter, AiMeaning}
      invariant forall t | t in m :: m[t] == LastRemaining(ps[..i], t)
    {
      assert ps[..i + 1][..i] == ps[..i];
      assert ps[i].kind in m by {
        match ps[i].kind
        case FishOut =>
        case RevealLetter =>
        case AiMeaning =>
      }
      m := m[ps[i].kind := ps[i].remaining];
    }
    assert ps[..|ps|] == ps;
  }

  /** The update written for one device: its three columns. */
  datatype PowerUpUpdate = PowerUpUpdate(deviceId: string, updates: map<string, int>)

  /** The update for one player, from the remaining counts of its power-ups. */
  function UpdateFor(p: PlayerInfo): (u: PowerUpUpdate)
    ensures u.deviceId == p.playerId && u.updates.Keys == Columns
    ensures forall t: PowerUpType :: u.updates[Column(t)] == LastRemaining(p.powerUps, t)
  {
    PowerUpUpdate(p.playerId, map[
      "fish_out" := LastRemaining(p.powerUps, FishOut),
      "reveal_letter" := LastRemaining(p.powerUps, RevealLetter),
      "ai_meaning" := LastRemaining(p.powerUps, AiMeaning)])
  }

  /** The loop body of `handle` for one player: its power-up map written as one update. */
  method PlayerUpdate(p: PlayerInfo) returns (u: PowerUpUpdate)
    ensures u == UpdateFor(p)
  {
    var m := PowerUpMap(p.powerUps);
    var updates := map["fish_out" := m[FishOut], "reveal_letter" := m[RevealLetter], "ai_meaning" := m[AiMeaning]];
    u := PowerUpUpdate(p.playerId, updates);
  }

  /**
   * `PowerUpPersistenceAfterGameHandler.handle`: nothing unless the game is over; otherwise
   * exactly one update per player, in player order.
   */
  method Handle(game: SessionData) returns (issued: seq<PowerUpUpdate>)
    ensures game.gameState != GameOver ==> issued == []
    ensures game.gameState == GameOver ==>
      |issued| == |game.players| && forall i | 0 <= i < |issued| :: issued[i] == UpdateFor(game.players[i])
  {
    if game.gameState != GameOver {
      return [];
    }
    issued := [];
    for i := 0 to |game.players|
      invariant |issued| == i
      invariant forall j | 0 <= j < i :: issued[j] == UpdateFor(game.players[j])
    {
      var u := PlayerUpdate(game.players[i]);
      issued := issued + [u];
    }
  }

  /** A player without power-ups gets every column set to 0. */
  lemma NoPowerUpsStoresZeros(p: PlayerInfo)
    requires p.powerUps == []
    ensures UpdateFor(p).updates == map["fish_out" := 0, "reveal_letter" := 0, "ai_meaning" := 0]
  {
  }

  /** Only the last entry of a kind counts: appending one overrides what came before. */
  lemma LaterEntryWins(ps: seq<PowerUp>, q: PowerUp)
    ensures LastRemaining(ps + [q], q.kind) == q.remaining
    ensures forall t | t != q.kind :: LastRemaining(ps + [q], t) == LastRemaining(ps, t)
  {
    assert (ps + [q])[..|ps|] == ps;
  }
}

=== FILE: query_manager.dfy ===
/**
 * The SQL text builder of the persistence layer: SELECT, INSERT and UPDATE statements for one
 * table, with a `%s` placeholder for every value and the values listed in placeholder order.
 * A dictionary is a sequence of key/value pairs in insertion order. It builds no DELETE
 * statement, although the lobby and challenge repositories call one (`DeleteLobbyAsWritten`,
 * `DeleteChallengeAsWritten`).
 */
module QueryManagerModel {
  import opened Wrappers
  import opened Strings

  /** The number of `%` characters: every placeholder is `%s`, and nothing else may hold one. */
  function Percents(s: string): nat
  {
    if s == [] then 0 else (if s[0] == '%' then 1 else 0) + Percents(s[1..])
  }

  /** No `%` at all. */
  predicate Plain(s: string)
  {
    forall i | 0 <= i < |s| :: s[i] != '%'
  }

  lemma {:induction false} PercentsAppend(a: string, b: string)
    ensures Percents(a + b) == Percents(a) + Percents(b)
  {
    if a == [] {
      assert a + b == b;
    } else {
      assert (a + b)[1..] == a[1..] + b;
      PercentsAppend(a[1..], b);
    }
  }

  lemma {:induction false} NoPercents(s: string)
    requires Plain(s)
    ensures Percents(s) == 0
  {
    if s != [] {
      NoPercents(s[1..]);
    }
  }

  /** The placeholder and the assignment pattern hold one `%` each. */
  lemma Marked()
    ensures Percents("%s") == 1 && Percents(" = %s") == 1
  {
    assert "%s"[1..] == "s";
    NoPercents("s");
    assert " = %s" == " = " + "%s";
    PercentsAppend(" = ", "%s");
    NoPercents(" = ");
  }

  /** Joining pieces that hold one placeholder each, with a separator free of `%`. */
  lemma {:induction false} JoinPlaceholders(ws: seq<string>, sep: string)
    requires Plain(sep)
    requires forall i | 0 <= i < |ws| :: Percents(ws[i]) == 1
    ensures Percents(Join(ws, sep)) == |ws|
  {
    if |ws| > 1 {
      JoinPlaceholders(ws[1..], sep);
      PercentsAppend(ws[0], sep);
      PercentsAppend(ws[0] + sep, Join(ws[1..], sep));
      NoPercents(sep);
    }
  }

  /** Joining plain pieces with a plain separator gives plain text. */
  lemma {:induction false} JoinPlain(ws: seq<string>, sep: string)
    requires Plain(sep)
    requires forall i | 0 <= i < |ws| :: Plain(ws[i])
    ensures Plain(Join(ws, sep))
  {
    if |ws| > 1 {
      JoinPlain(ws[1..], sep);
      PlainCat(ws[0], sep, Join(ws[1..], sep));
    }
  }

  /** `str(n)` holds no `%`. */
  lemma IntToStringPlain(n: int)
    ensures Plain(IntToString(n))
  {
    if n < 0 {
      assert IntToString(n) == "-" + NatToString(-n);
    }
  }

  /** The keys of a dictionary, in order. */
  function Keys<V>(d: seq<(string, V)>): (r: seq<string>)
    ensures |r| == |d| && forall i | 0 <= i < |d| :: r[i] == d[i].0
  {
    seq(|d|, i requires 0 <= i < |d| => d[i].0)
  }

  /** `list(d.values())`. */
  function Values<V>(d: seq<(string, V)>): (r: seq<V>)
    ensures |r| == |d| && forall i | 0 <= i < |d| :: r[i] == d[i].1
  {
    seq(|d|, i requires 0 <= i < |d| => d[i].1)
  }

  /** No key holds a `%`, as column names do not. */
  predicate PlainKeys<V>(d: seq<(string, V)>)
  {
    forall i | 0 <= i < |d| :: Plain(d[i].0)
  }

  /** `[f"{k} = %s" for k in d]`. */
  function Assignments<V>(d: seq<(string, V)>): (r: seq<string>)
    ensures |r| == |d|
    ensures forall i | 0 <= i < |d| :: r[i] == d[i].0 + " = %s"
  {
    seq(|d|, i requires 0 <= i < |d| => d[i].0 + " = %s")
  }

  /** With plain keys, every assignment holds exactly one placeholder. */
  lemma AssignmentsMarked<V>(d: seq<(string, V)>)
    requires PlainKeys(d)
    ensures forall i | 0 <= i < |d| :: Percents(Assignments(d)[i]) == 1
  {
    Marked();
    forall i | 0 <= i < |d|
      ensures Percents(Assignments(d)[i]) == 1
    {
      PercentsAppend(d[i].0, " = %s");
      NoPercents(d[i].0);
    }
  }

  /** `["%s"] * n`. */
  function Marks(n: nat): (r: seq<string>)
    ensures |r| == n && forall i | 0 <= i < n :: r[i] == "%s"
  {
    seq(n, i => "%s")
  }

  /** Plain text around a piece adds no placeholder. */
  lemma Framed(a: string, b: string, c: string)
    requires Plain(a) && Plain(c)
    ensures Percents(a + b + c) == Percents(b)
  {
    PercentsAppend(a, b);
    PercentsAppend(a + b, c);
    NoPercents(a);
    NoPercents(c);
  }

  /** Plain text after a piece adds no placeholder. */
  lemma PlainSuffix(a: string, c: string)
    requires Plain(c)
    ensures Percents(a + c) == Percents(a)
  {
    PercentsAppend(a, c);
    NoPercents(c);
  }

  /** Plain pieces make plain text. */
  lemma PlainCat(a: string, b: string, c: string)
    requires Plain(a) && Plain(b) && Plain(c)
    ensures Plain(a + b + c)
  {
  }

  /** A statement and its values, to be handed to the driver together. */
  datatype Query<V> = Query(text: string, values: seq<V>)
  {
    /** The driver can pair every placeholder with a value. */
    predicate Balanced()
    {
      Percents(text) == |values|
    }
  }

  datatype QueryManager = QueryManager(table: string)
  {
    /** `_build_where_clause`: the conditions joined with " AND ", and the values in key order. */
    function WhereClause<V>(filters: seq<(string, V)>): (r: (string, seq<V>))
      ensures r.1 == Values(filters)
      ensures PlainKeys(filters) ==> Percents(r.0) == |filters|
    {
      var clause := Join(Assignments(filters), " AND ");
      assert PlainKeys(filters) ==> Percents(clause) == |filters| by {
        if PlainKeys(filters) {
          AssignmentsMarked(filters);
          JoinPlaceholders(Assignments(filters), " AND ");
        }
      }
      (clause, Values(filters))
    }

    /** The fixed start of every SELECT on the table. */
    function SelectFrom(): string
    {
      "SELECT * FROM " + table + " WHERE "
    }

    /** "SELECT * FROM <table> WHERE <clause>". */
    function SelectHead(clause: string): (h: string)
      ensures Plain(table) ==> Percents(h) == Percents(clause)
      ensures StartsWith(h, SelectFrom()) && h[|SelectFrom()|..] == clause
    {
      var front := SelectFrom();
      assert Plain(table) ==> Percents(front + clause) == Percents(clause) by {
        if Plain(table) {
          PlainCat("SELECT * FROM ", table, " WHERE ");
          Framed(front, clause, "");
          assert front + clause + "" == front + clause;
        }
      }
      front + clause
    }

    /** `select_one`: the first row that matches every filter. */
    function SelectOne<V>(filters: seq<(string, V)>): (q: Query<V>)
      ensures q.values == Values(filters)
      ensures Plain(table) && PlainKeys(filters) ==> q.Balanced()
      ensures StartsWith(q.text, SelectFrom() + WhereClause(filters).0) && EndsWith(q.text, " LIMIT 1;")
      ensures |q.text| == |SelectFrom() + WhereClause(filters).0| + |" LIMIT 1;"|
    {
      var (clause, values) := WhereClause(filters);
      var head := SelectHead(clause);
      Framed("", head, " LIMIT 1;");
      assert "" + head + " LIMIT 1;" == head + " LIMIT 1;";
      assert (head + " LIMIT 1;")[|head|..] == " LIMIT 1;";
      Query(head + " LIMIT 1;", values)
    }

    /** The ORDER BY part of `select_many`: nothing unless a column is named. */
    static function OrderPart(orderBy: Option<string>, ascending: bool): (t: string)
      ensures Plain(orderBy.GetOr("")) ==> Plain(t)
    {
      if orderBy.Some? && orderBy.value != [] then
        var dir := if ascending then " ASC" else " DESC";
        assert Plain(dir);
        " ORDER BY " + orderBy.value + dir
      else ""
    }

    /** The LIMIT and OFFSET part of `select_many`: the offset only inside a limit. */
    static function PagePart(limit: Option<int>, offset: Option<int>): (t: string)
      ensures Plain(t)
    {
      if limit.Some? then
        var skip := if offset.Some? then " OFFSET " + IntToString(offset.value) else "";
        assert Plain(skip) by {
          if offset.Some? {
            IntToStringPlain(offset.value);
          }
        }
        IntToStringPlain(limit.value);
        PlainCat(" LIMIT ", IntToString(limit.value), skip);
        " LIMIT " + IntToString(limit.value) + skip
      else ""
    }

    /** Everything `select_many` writes after the WHERE clause: order, page and the closing ";". */
    static function ManyTail(orderBy: Option<string>, ascending: bool, limit: Option<int>, offset: Option<int>): (t: string)
      ensures Plain(orderBy.GetOr("")) ==> Plain(t)
      ensures |t| > 0 && t[|t| - 1] == ';'
      ensures orderBy.Some? && orderBy.value != [] ==>
        StartsWith(t, " ORDER BY " + orderBy.value + (if ascending then " ASC" else " DESC"))
      ensures orderBy.None? || orderBy.value == [] ==> t == PagePart(limit, offset) + ";"
    {
      var order := OrderPart(orderBy, ascending);
      var page := PagePart(limit, offset);
      assert Plain(orderBy.GetOr("")) ==> Plain(order + page + ";") by {
        if Plain(orderBy.GetOr("")) {
          PlainCat(order, page, ";");
        }
      }
      order + page + ";"
    }

    /**
     * `select_many`: every row when there is no filter ("WHERE 1"), ordered when a column is
     * named, paged when a limit is given; always ended by ";".
     */
    function SelectMany<V>(filters: Option<seq<(string, V)>>, limit: Option<int>, offset: Option<int>,
                           orderBy: Option<string>, ascending: bool): (q: Query<V>)
      ensures filters.None? || filters.value == [] ==> q.values == []
      ensures filters.Some? ==> q.values == Values(filters.value)
      ensures Plain(table) && PlainKeys(filters.GetOr([])) && Plain(orderBy.GetOr("")) ==> q.Balanced()
      ensures EndsWith(q.text, ";")
      ensures var clause := if filters.Some? && filters.value != [] then WhereClause(filters.value).0 else "1";
        StartsWith(q.text, SelectFrom() + clause) && q.text[|SelectFrom() + clause|..] == ManyTail(orderBy, ascending, limit, offset)
    {
      var where := if filters.Some? && filters.value != [] then WhereClause(filters.value) else ("1", []);
      assert Plain("1") && Percents("1") == 0;
      var head := SelectHead(where.0);
      var tail := ManyTail(orderBy, ascending, limit, offset);
      assert Plain(orderBy.GetOr("")) ==> Percents(head + tail) == Percents(head) by {
        if Plain(orderBy.GetOr("")) {
          PlainSuffix(head, tail);
        }
      }
      assert (head + tail)[|head + tail| - 1] == ';';
      Query(head + tail, where.1)
    }

    /** Without a limit the offset is dropped. */
    lemma OffsetNeedsLimit<V>(filters: Option<seq<(string, V)>>, offset: Option<int>, orderBy: Option<string>, ascending: bool)
      ensures SelectMany(filters, None, offset, orderBy, ascending) == SelectMany(filters, None, None, orderBy, ascending)
    {
    }

    /** Without an order column the direction is dropped. */
    lemma DirectionNeedsOrder<V>(filters: Option<seq<(string, V)>>, limit: Option<int>, offset: Option<int>)
      ensures SelectMany<V>(filters, limit, offset, None, true) == SelectMany<V>(filters, limit, offset, None, false)
      ensures SelectMany<V>(filters, limit, offset, Some(""), true) == SelectMany<V>(filters, limit, offset, None, false)
    {
    }

    /** `insert`: the columns in key order and one placeholder per value. */
    function Insert<V>(data: seq<(string, V)>): (q: Query<V>)
      ensures q.values == Values(data)
      ensures Plain(table) && PlainKeys(data) ==> q.Balanced()
      ensures var front := "INSERT INTO " + table + " (" + Join(Keys(data), ", ") + ") VALUES (";
        && StartsWith(q.text, front + Join(Marks(|data|), ", ")) && EndsWith(q.text, ");")
        && |q.text| == |front + Join(Marks(|data|), ", ")| + 2
    {
      var columns := Join(Keys(data), ", ");
      var marks := Join(Marks(|data|), ", ");
      var front := "INSERT INTO " + table + " (" + columns + ") VALUES (";
      var text := front + marks + ");";
      assert Plain(table) && PlainKeys(data) ==> Percents(text) == |data| by {
        if Plain(table) && PlainKeys(data) {
          Marked();
          JoinPlaceholders(Marks(|data|), ", ");
          JoinPlain(Keys(data), ", ");
          PlainCat("INSERT INTO ", table, " (");
          PlainCat("INSERT INTO " + table + " (", columns, ") VALUES (");
          Framed(front, marks, ");");
        }
      }
      assert text[|text| - 2..] == ");";
      Query(text, Values(data))
    }

    /**
     * `update`: the assignments of `updates`, then the conditions of `filters`; the values in
     * the same order, so the SET values come before the WHERE values.
     */
    function Update<V>(updates: seq<(string, V)>, filters: seq<(string, V)>): (q: Query<V>)
      ensures q.values == Values(updates) + Values(filters)
      ensures Plain(table) && PlainKeys(updates) && PlainKeys(filters) ==> q.Balanced()
      ensures StartsWith(q.text, "UPDATE " + table + " SET " + Join(Assignments(updates), ", ") + " WHERE ")
      ensures EndsWith(q.text, " WHERE " + WhereClause(filters).0 + ";")
    {
      var setClause := Join(Assignments(updates), ", ");
      var (clause, whereValues) := WhereClause(filters);
      var front := "UPDATE " + table + " SET ";
      var text := front + setClause + (" WHERE " + clause + ";");
      assert Plain(table) && PlainKeys(updates) && PlainKeys(filters) ==> Percents(text) == |updates| + |filters| by {
        if Plain(table) && PlainKeys(updates) && PlainKeys(filters) {
          AssignmentsMarked(updates);
          JoinPlaceholders(Assignments(updates), ", ");
          PlainCat("UPDATE ", table, " SET ");
          Framed(front, setClause, "");
          assert front + setClause + "" == front + setClause;
          Framed(" WHERE ", clause, ";");
          PercentsAppend(front + setClause, " WHERE " + clause + ";");
        }
      }
      assert text[|text| - 1..] == ";";
      Query(text, Values(updates) + whereValues)
    }
  }
}

=== FILE: scoring_handler.dfy ===
/**
 * The after-game handler that rewards players: experience and coins from the number of
 * attempts and whether the player won, added to each known player's stored totals once the
 * game is over.
 */
module ScoringHandlerModel {
  import opened Wrappers
  import opened GameSessionModel

  const MaxXp := 100
  const MinXp := 20
  const ConsolationXp := 10
  const WinBaseCoins := 20
  const ConsolationCoins := 5
  const MinCoins := 5

  /**
   * `calculate_xp`: 10 for a loss; for a win 100 less 15 for every attempt after the first,
   * but never below 20.
   */
  function CalculateXp(attempts: int, won: bool): (xp: int)
    ensures !won ==> xp == ConsolationXp
    ensures won ==> xp >= MinXp && (xp == MinXp || xp == MaxXp - (attempts - 1) * 15)
    ensures won && attempts >= 1 ==> xp <= MaxXp
    ensures xp >= ConsolationXp
  {
    if !won then ConsolationXp
    else
      var xp := MaxXp - (attempts - 1) * 15;
      if xp > MinXp then xp else MinXp
  }

  /**
   * `calculate_coins`: 5 for a loss; for a win 20 less 3 for every attempt after the first,
   * but never below 5.
   */
  function CalculateCoins(attempts: int, won: bool): (coins: int)
    ensures !won ==> coins == ConsolationCoins
    ensures won ==> coins >= MinCoins && (coins == MinCoins || coins == WinBaseCoins - (attempts - 1) * 3)
    ensures won && attempts >= 1 ==> coins <= WinBaseCoins
    ensures coins >= ConsolationCoins
  {
    if !won then ConsolationCoins
    else
      var coins := WinBaseCoins - (attempts - 1) * 3;
      if coins > MinCoins then coins else MinCoins
  }

  /** A quicker win earns at least as much, and a win never earns less than a loss. */
  lemma RewardsMonotone(a: int, b: int)
    requires a <= b
    ensures CalculateXp(b, true) <= CalculateXp(a, true)
    ensures CalculateCoins(b, true) <= CalculateCoins(a, true)
    ensures CalculateXp(b, false) <= CalculateXp(a, true)
    ensures CalculateCoins(b, false) <= CalculateCoins(a, true)
  {
  }

  /** From the seventh attempt on, a win earns the least experience; the coins floor at the sixth. */
  lemma RewardsFloor(attempts: int)
    ensures attempts >= 7 ==> CalculateXp(attempts, true) == MinXp
    ensures attempts >= 6 ==> CalculateCoins(attempts, true) == MinCoins
    ensures attempts <= 6 ==> CalculateXp(attempts, true) > MinXp
  {
  }

  /** A stored user row; a missing column reads as 0. */
  datatype UserRow = UserRow(xp: Option<int>, coins: Option<int>)

  /** The update written for one device. */
  datatype ScoreUpdate = ScoreUpdate(deviceId: string, xp: int, coins: int)

  /** Whether `p` won under the outcome's winner. */
  predicate Won(winnerId: Option<string>, p: PlayerInfo)
  {
    winnerId == Some(p.playerId)
  }

  /** The new totals of a known player: the stored values plus the gains. */
  function UpdateFor(p: PlayerInfo, winnerId: Option<string>, row: UserRow): ScoreUpdate
  {
    var won := Won(winnerId, p);
    ScoreUpdate(p.playerId,
                row.xp.GetOr(0) + CalculateXp(|p.attempts|, won),
                row.coins.GetOr(0) + CalculateCoins(|p.attempts|, won))
  }

  /** The updates for the players in order, skipping those without a user row. */
  function ScoreUpdates(players: seq<PlayerInfo>, winnerId: Option<string>, users: map<string, UserRow>): seq<ScoreUpdate>
  {
    if |players| == 0 then []
    else
      var last := players[|players| - 1];
      ScoreUpdates(players[..|players| - 1], winnerId, users)
      + (if last.playerId in users then [UpdateFor(last, winnerId, users[last.playerId])] else [])
  }

  /**
   * Exactly the players with a user row get an update: every update is that of some such
   * player, and every such player has one.
   */
  lemma {:induction false} ScoreUpdatesExact(players: seq<PlayerInfo>, winnerId: Option<string>, users: map<string, UserRow>)
    ensures |ScoreUpdates(players, winnerId, users)| <= |players|
    ensures forall u | u in ScoreUpdates(players, winnerId, users) ::
      u.deviceId in users && exists p | p in players :: p.playerId == u.deviceId && u == UpdateFor(p, winnerId, users[p.playerId])
    ensures forall p | p in players && p.playerId in users :: UpdateFor(p, winnerId, users[p.playerId]) in ScoreUpdates(players, winnerId, users)
  {
    if |players| > 0 {
      var last := players[|players| - 1];
      var init := players[..|players| - 1];
      ScoreUpdatesExact(init, winnerId, users);
      assert forall p | p in players :: p in init || p == last;
      assert forall p | p in init :: p in players;
    }
  }

  /** Every update raises both totals: the experience by at least 10 and the coins by at least 5. */
  lemma UpdatesRaiseTotals(players: seq<PlayerInfo>, winnerId: Option<string>, users: map<string, UserRow>)
    ensures forall u | u in ScoreUpdates(players, winnerId, users) ::
      u.deviceId in users
      && u.xp >= users[u.deviceId].xp.GetOr(0) + ConsolationXp
      && u.coins >= users[u.deviceId].coins.GetOr(0) + ConsolationCoins
  {
    ScoreUpdatesExact(players, winnerId, users);
    forall u | u in ScoreUpdates(players, winnerId, users)
      ensures u.deviceId in users
      ensures u.xp >= users[u.deviceId].xp.GetOr(0) + ConsolationXp
      ensures u.coins >= users[u.deviceId].coins.GetOr(0) + ConsolationCoins
    {
      var p :| p in players && p.playerId == u.deviceId && u == UpdateFor(p, winnerId, users[p.playerId]);
    }
  }

  /**
   * `ScoringAfterGameHandler.handle`: nothing unless the game is over with an outcome;
   * otherwise one update per player with a user row, in player order.
   */
  method Handle(game: SessionData, users: map<string, UserRow>) returns (issued: seq<ScoreUpdate>)
    ensures game.gameState != GameOver || game.outcome.None? ==> issued == []
    ensures game.gameState == GameOver && game.outcome.Some? ==>
      issued == ScoreUpdates(game.players, game.outcome.value.winnerId, users)
  {
    if game.gameState != GameOver || game.outcome.None? {
      return [];
    }
    var winnerId := game.outcome.value.winnerId;
    issued := [];
    for i := 0 to |game.players|
      invariant issued == ScoreUpdates(game.players[..i], winnerId, users)
    {
      var p := game.players[i];
      assert game.players[..i + 1][..i] == game.players[..i];
      if p.playerId in users {
        issued := issued + [UpdateFor(p, winnerId, users[p.playerId])];
      }
    }
    assert game.players[..|game.players|] == game.players;
  }
}

=== FILE: store.dfy ===
/**
 * The power-up store: a fixed catalogue of three items and the purchase endpoint, which checks
 * the item index and the buyer's balance, then writes the new balance and the new power-up
 * count in one update. How many rows the update reports, or that it raises, is a parameter.
 */
module StoreRoute {
  import opened Wrappers
  import opened GameSessionModel
  import PowerUpPersistenceModel

  datatype StoreItem = StoreItem(kind: PowerUpType, storeProductId: string, name: string, price: int, amount: int)

  /** `POWERUP_STORE_ITEMS`. */
  const Catalogue: seq<StoreItem> := [
    StoreItem(FishOut, "", "Fisherman's Net", 150, 3),
    StoreItem(RevealLetter, "", "X-Ray Glasses", 250, 1),
    StoreItem(AiMeaning, "", "Word Scholar", 400, 1)]

  /** `get_store_items`: the catalogue, one item per power-up kind, each with a positive price and amount. */
  function GetStoreItems(): (r: seq<StoreItem>)
    ensures |r| == 3
    ensures Kinds(r) == {FishOut, RevealLetter, AiMeaning}
    ensures forall i, j | 0 <= i < j < 3 :: r[i].kind != r[j].kind
    ensures forall i | 0 <= i < 3 :: r[i].price > 0 && r[i].amount > 0
  {
    assert Catalogue[0].kind == FishOut && Catalogue[1].kind == RevealLetter && Catalogue[2].kind == AiMeaning;
    Catalogue
  }

  /** The power-up kinds items of `items` sell. */
  function Kinds(items: seq<StoreItem>): set<PowerUpType>
  {
    set i | 0 <= i < |items| :: items[i].kind
  }

  /** The stored user fields a purchase reads. */
  datatype Buyer = Buyer(deviceId: string, coins: int, fishOut: int, revealLetter: int, aiMeaning: int)

  /** The buyer's count of power-up kind `t`. */
  function Held(b: Buyer, t: PowerUpType): int
  {
    match t
    case FishOut => b.fishOut
    case RevealLetter => b.revealLetter
    case AiMeaning => b.aiMeaning
  }

  /** The buyer after an update has written `updates` over the named columns. */
  function Apply(b: Buyer, updates: map<string, int>): Buyer
  {
    Buyer(b.deviceId,
          if "coins" in updates then updates["coins"] else b.coins,
          if "fish_out" in updates then updates["fish_out"] else b.fishOut,
          if "reveal_letter" in updates then updates["reveal_letter"] else b.revealLetter,
          if "ai_meaning" in updates then updates["ai_meaning"] else b.aiMeaning)
  }

  /** What a purchase answers, and the update it asked the repository for, if any. */
  datatype Purchase = Purchase(reply: Result<bool, HttpError>, update: Option<map<string, int>>)

  /**
   * `purchase_item`: 404 for an index outside the catalogue and 400 for a balance below the
   * price, both before any update; otherwise one update of the balance and of the item's
   * power-up column, which succeeds unless the repository raises or reports no row (500).
   */
  function PurchaseItem(itemIndex: int, buyer: Buyer, affectedRows: Option<nat>): (r: Purchase)
    ensures (itemIndex < 0 || itemIndex >= 3) <==> r == Purchase(Err(HttpError(404, "Item not found")), None)
    ensures 0 <= itemIndex < 3 && buyer.coins < GetStoreItems()[itemIndex].price <==>
            r == Purchase(Err(HttpError(400, "Not enough coins for this purchase")), None)
    ensures r.update.Some? <==> 0 <= itemIndex < 3 && buyer.coins >= GetStoreItems()[itemIndex].price
    ensures r.update.Some? ==>
      var item := GetStoreItems()[itemIndex];
      && r.update.value.Keys == {"coins", PowerUpPersistenceModel.Column(item.kind)}
      && Apply(buyer, r.update.value).coins == buyer.coins - item.price
      && Held(Apply(buyer, r.update.value), item.kind) == Held(buyer, item.kind) + item.amount
      && (forall t | t != item.kind :: Held(Apply(buyer, r.update.value), t) == Held(buyer, t))
      && (r.reply.Ok? <==> affectedRows.Some? && affectedRows.value != 0)
      && (r.reply.Err? ==> r.reply.error == HttpError(500, "Failed to process purchase"))
  {
    var items := GetStoreItems();
    if itemIndex < 0 || itemIndex >= |items| then Purchase(Err(HttpError(404, "Item not found")), None)
    else
      var item := items[itemIndex];
      if buyer.coins < item.price then Purchase(Err(HttpError(400, "Not enough coins for this purchase")), None)
      else
        var updates := map["coins" := buyer.coins - item.price,
                            PowerUpPersistenceModel.Column(item.kind) := Held(buyer, item.kind) + item.amount];
        var reply := if affectedRows.Some? && affectedRows.value != 0 then Ok(true)
                     else Err(HttpError(500, "Failed to process purchase"));
        Purchase(reply, Some(updates))
  }

  /** A purchase never leaves the balance negative, and the coins spent are exactly the price. */
  lemma PurchaseSpendsPrice(itemIndex: int, buyer: Buyer, affectedRows: Option<nat>)
    requires PurchaseItem(itemIndex, buyer, affectedRows).reply.Ok?
    ensures 0 <= itemIndex < 3
    ensures var after := Apply(buyer, PurchaseItem(itemIndex, buyer, affectedRows).update.value);
            after.coins + GetStoreItems()[itemIndex].price == buyer.coins && after.coins >= 0
  {
  }

  /** A buyer with fewer coins than the cheapest item can buy nothing. */
  lemma TooPoorForAnything(itemIndex: int, buyer: Buyer, affectedRows: Option<nat>)
    requires buyer.coins < 150
    ensures PurchaseItem(itemIndex, buyer, affectedRows).reply.Err?
    ensures PurchaseItem(itemIndex, buyer, affectedRows).update.None?
  {
  }
}

=== FILE: strings.dfy ===
/**
 * Text helpers shared by the modules: ASCII case mapping (the word lists are ASCII),
 * Python's notion of whitespace, `str.strip`, `str.rstrip(c)`, `str.split(c)`,
 * `c.join(...)` and `str(int)`.
 */
module Strings {

  predicate IsLowerAscii(c: char) { 'a' <= c <= 'z' }
  predicate IsUpperAscii(c: char) { 'A' <= c <= 'Z' }
  predicate IsAsciiLetter(c: char) { IsLowerAscii(c) || IsUpperAscii(c) }

  /** `str.upper` restricted to ASCII letters; every other character is kept. */
  function Upper(c: char): (r: char)
    ensures IsLowerAscii(c) ==> IsUpperAscii(r) && r as int == c as int - 32
    ensures !IsLowerAscii(c) ==> r == c
  {
    if IsLowerAscii(c) then (c as int - 32) as char else c
  }

  /** `str.lower` restricted to ASCII letters. */
  function Lower(c: char): (r: char)
    ensures IsUpperAscii(c) ==> IsLowerAscii(r) && r as int == c as int + 32
    ensures !IsUpperAscii(c) ==> r == c
  {
    if IsUpperAscii(c) then (c as int + 32) as char else c
  }

  function UpperStr(s: string): (r: string)
    ensures |r| == |s|
    ensures forall i :: 0 <= i < |s| ==> r[i] == Upper(s[i])
  {
    seq(|s|, i requires 0 <= i < |s| => Upper(s[i]))
  }

  function LowerStr(s: string): (r: string)
    ensures |r| == |s|
    ensures forall i :: 0 <= i < |s| ==> r[i] == Lower(s[i])
  {
    seq(|s|, i requires 0 <= i < |s| => Lower(s[i]))
  }

  /** Upper-casing is idempotent: an upper-cased word compares equal to itself upper-cased again. */
  lemma UpperStrIdempotent(s: string)
    ensures UpperStr(UpperStr(s)) == UpperStr(s)
  {
  }

  /** The characters Python's `str.isspace` accepts, which `str.strip()` removes. */
  predicate IsSpace(c: char)
  {
    var n := c as int;
    (9 <= n <= 13) || (28 <= n <= 32) || n == 0x85 || n == 0xA0 || n == 0x1680
    || (0x2000 <= n <= 0x200A) || n == 0x2028 || n == 0x2029 || n == 0x202F
    || n == 0x205F || n == 0x3000
  }

  /** `s.lstrip()`. */
  function LStrip(s: string): (r: string)
    ensures |r| <= |s| && r == s[|s| - |r|..]
    ensures r == [] || !IsSpace(r[0])
    ensures forall i :: 0 <= i < |s| - |r| ==> IsSpace(s[i])
  {
    if |s| > 0 && IsSpace(s[0]) then LStrip(s[1..]) else s
  }

  /** `s.rstrip()`. */
  function RStrip(s: string): (r: string)
    ensures |r| <= |s| && r == s[..|r|]
    ensures r == [] || !IsSpace(r[|r| - 1])
    ensures forall i :: |r| <= i < |s| ==> IsSpace(s[i])
  {
    if |s| > 0 && IsSpace(s[|s| - 1]) then RStrip(s[..|s| - 1]) else s
  }

  /** `s.strip()`: no whitespace is left at either end. */
  function Strip(s: string): (r: string)
    ensures r == [] || (!IsSpace(r[0]) && !IsSpace(r[|r| - 1]))
  {
    RStrip(LStrip(s))
  }

  /** A word that `strip()` leaves as it is. */
  predicate Unpadded(w: string)
  {
    w == [] || (!IsSpace(w[0]) && !IsSpace(w[|w| - 1]))
  }

  lemma StripUnpadded(w: string)
    requires Unpadded(w)
    ensures Strip(w) == w
  {
  }

  /** `s.rstrip(c)`: removes every trailing `c`. */
  function RStripChar(s: string, c: char): (r: string)
    ensures |r| <= |s| && r == s[..|r|]
    ensures r == [] || r[|r| - 1] != c
  {
    if |s| > 0 && s[|s| - 1] == c then RStripChar(s[..|s| - 1], c) else s
  }

  predicate StartsWith(s: string, prefix: string)
  {
    |prefix| <= |s| && s[..|prefix|] == prefix
  }

  predicate EndsWith(s: string, suffix: string)
  {
    |suffix| <= |s| && s[|s| - |suffix|..] == suffix
  }

  /** `s.split(sep)`: always at least one piece, and no piece contains `sep`. */
  function Split(s: string, sep: char): (r: seq<string>)
    ensures |r| >= 1
    ensures forall i :: 0 <= i < |r| ==> sep !in r[i]
  {
    if |s| == 0 then [""]
    else
      var rest := Split(s[1..], sep);
      if s[0] == sep then [""] + rest
      else [[s[0]] + rest[0]] + rest[1..]
  }

  /** `sep.join(ws)`. */
  function Join(ws: seq<string>, sep: string): (r: string)
  {
    if |ws| == 0 then ""
    else if |ws| == 1 then ws[0]
    else ws[0] + sep + Join(ws[1..], sep)
  }

  /** Splitting a piece that is free of the separator gives that piece alone. */
  lemma {:induction false} SplitNoSep(w: string, sep: char)
    requires sep !in w
    ensures Split(w, sep) == [w]
  {
    if |w| > 0 {
      SplitNoSep(w[1..], sep);
      assert [w[0]] + w[1..] == w;
    }
  }

  /** Splitting `w + sep + t` peels off `w` when `w` is free of the separator. */
  lemma {:induction false} SplitCons(w: string, sep: char, t: string)
    requires sep !in w
    ensures Split(w + [sep] + t, sep) == [w] + Split(t, sep)
  {
    if |w| == 0 {
      assert w + [sep] + t == [sep] + t;
      assert ([sep] + t)[1..] == t;
    } else {
      var s := w + [sep] + t;
      assert s[0] == w[0];
      assert s[1..] == w[1..] + [sep] + t;
      SplitCons(w[1..], sep, t);
      assert [w[0]] + w[1..] == w;
    }
  }

  /** `s.split(sep)` undoes `sep.join(ws)` for a non-empty list of separator-free pieces. */
  lemma {:induction false} SplitJoin(ws: seq<string>, sep: char)
    requires |ws| >= 1
    requires forall i :: 0 <= i < |ws| ==> sep !in ws[i]
    ensures Split(Join(ws, [sep]), sep) == ws
  {
    if |ws| == 1 {
      SplitNoSep(ws[0], sep);
    } else {
      SplitJoin(ws[1..], sep);
      SplitCons(ws[0], sep, Join(ws[1..], [sep]));
      assert [ws[0]] + ws[1..] == ws;
    }
  }

  /** The last character of `sep.join(ws)` is the last character of the last piece. */
  lemma {:induction false} JoinEnds(ws: seq<string>, sep: string)
    requires |ws| >= 1 && |ws[|ws| - 1]| >= 1
    ensures |Join(ws, sep)| >= 1
    ensures Join(ws, sep)[|Join(ws, sep)| - 1] == ws[|ws| - 1][|ws[|ws| - 1]| - 1]
  {
    if |ws| > 1 {
      JoinEnds(ws[1..], sep);
    }
  }

  function DigitChar(d: nat): (c: char)
    requires d < 10
    ensures '0' <= c <= '9'
  {
    ('0' as int + d) as char
  }

  /** `str(n)` for a natural number: decimal digits without leading zeros. */
  function NatToString(n: nat): (r: string)
    ensures |r| >= 1
    ensures forall i :: 0 <= i < |r| ==> '0' <= r[i] <= '9'
    decreases n
  {
    if n < 10 then [DigitChar(n)] else NatToString(n / 10) + [DigitChar(n % 10)]
  }

  /** `str(n)` for any integer. */
  function IntToString(n: int): (r: string)
    ensures |r| >= 1
  {
    if n < 0 then "-" + NatToString(-n) else NatToString(n)
  }

  /** Four-digit numbers print as exactly four digits. */
  lemma FourDigits(n: nat)
    requires 1000 <= n <= 9999
    ensures |NatToString(n)| == 4
  {
    assert NatToString(n) == NatToString(n / 10) + [DigitChar(n % 10)];
    assert NatToString(n / 10) == NatToString(n / 100) + [DigitChar((n / 10) % 10)];
    assert NatToString(n / 100) == NatToString(n / 1000) + [DigitChar((n / 100) % 10)];
  }

  /** Five-digit numbers print as exactly five digits. */
  lemma FiveDigits(n: nat)
    requires 10000 <= n <= 99999
    ensures |NatToString(n)| == 5
  {
    FourDigits(n / 10);
  }
}

=== FILE: websocket_manager.dfy ===
/**
 * The connection registry of the game server: a table from device id to the connection that
 * device opened last. Sending is refused silently to bots and excluded devices, fails for
 * unknown devices, and drops the entry of a socket found closed or that closes during the send.
 * The peer decides the state of a socket at any moment, so the state a call finds and how a
 * send ends are parameters, and so is the clock. The Redis mirror of the table is not modelled.
 */
module WebSocketManagerModel {
  import opened Wrappers
  import opened Strings

  datatype SocketState = Connecting | Connected | Disconnected

  /** A client socket, known by its identity. */
  type Socket = nat

  datatype ConnectionStatus = StatusConnected | StatusDisconnected | StatusIdle

  datatype ConnectionInfo = ConnectionInfo(
    deviceId: string, socket: Socket, user: Option<string>, status: ConnectionStatus,
    connectedAt: int, lastHeartbeat: int)

  /**
   * How a send to a connected device ends: the socket is found already closed, or `send_text`
   * delivers, meets a peer that went away, or fails otherwise.
   */
  datatype SendOutcome = FoundClosed | Delivered | PeerGone | Failed

  /** The prefix of bot device ids, which have no socket. */
  const BotPrefix := "bot_"

  /** The entry a new connection gets: connected now, heartbeat now. */
  function NewInfo(deviceId: string, socket: Socket, user: Option<string>, now: int): ConnectionInfo
  {
    ConnectionInfo(deviceId, socket, user, StatusConnected, now, now)
  }

  /** `_can_send_to_device`. */
  predicate CanSendTo(excluded: set<string>, deviceId: string)
  {
    deviceId !in excluded && !StartsWith(deviceId, BotPrefix)
  }

  /**
   * `send_to_device` on the table `conns`: whether it reports success, and the table after.
   * Only the entry of `deviceId` can change: a delivery refreshes its heartbeat, a closed
   * socket or a peer that leaves during the send removes it.
   */
  function Send(conns: map<string, ConnectionInfo>, excluded: set<string>, deviceId: string,
                outcome: SendOutcome, now: int): (r: (bool, map<string, ConnectionInfo>))
    ensures !CanSendTo(excluded, deviceId) ==> r == (true, conns)
    ensures CanSendTo(excluded, deviceId) && deviceId !in conns ==> r == (false, conns)
    ensures r.0 && CanSendTo(excluded, deviceId) ==> deviceId in conns && outcome == Delivered
    ensures forall k | k != deviceId :: (k in r.1 <==> k in conns) && (k in r.1 ==> r.1[k] == conns[k])
    ensures deviceId in r.1 ==> deviceId in conns && r.1[deviceId].socket == conns[deviceId].socket
    ensures CanSendTo(excluded, deviceId) && deviceId in conns ==>
              && (r.0 <==> outcome == Delivered)
              && (deviceId !in r.1 <==> outcome == FoundClosed || outcome == PeerGone)
              && (outcome == Delivered ==> r.1[deviceId] == conns[deviceId].(lastHeartbeat := now))
              && (outcome == Failed ==> r.1 == conns)
  {
    if !CanSendTo(excluded, deviceId) then (true, conns)
    else if deviceId !in conns then (false, conns)
    else
      match outcome
      case FoundClosed => (false, conns - {deviceId})
      case Delivered => (true, conns[deviceId := conns[deviceId].(lastHeartbeat := now)])
      case PeerGone => (false, conns - {deviceId})
      case Failed => (false, conns)
  }

  /**
   * `broadcast_to_devices` on the table `conns`, one send after another with the outcomes
   * given: the ids whose send reported success, in input order, and the table after.
   */
  function Broadcast(conns: map<string, ConnectionInfo>, excluded: set<string>, ids: seq<string>,
                     outcomes: seq<SendOutcome>, now: int): (r: (seq<string>, map<string, ConnectionInfo>))
    requires |outcomes| == |ids|
    ensures |r.0| <= |ids|
    ensures forall d | d in r.0 :: d in ids
    decreases |ids|
  {
    if |ids| == 0 then ([], conns)
    else
      var first := Send(conns, excluded, ids[0], outcomes[0], now);
      var rest := Broadcast(first.1, excluded, ids[1..], outcomes[1..], now);
      ((if first.0 then [ids[0]] else []) + rest.0, rest.1)
  }

  /** Bots and excluded devices are always reported as reached. */
  lemma {:induction false} BroadcastReachesUnsendable(conns: map<string, ConnectionInfo>, excluded: set<string>,
                                                      ids: seq<string>, outcomes: seq<SendOutcome>, now: int)
    requires |outcomes| == |ids|
    ensures forall d | d in ids && !CanSendTo(excluded, d) :: d in Broadcast(conns, excluded, ids, outcomes, now).0
  {
    if |ids| > 0 {
      var first := Send(conns, excluded, ids[0], outcomes[0], now);
      BroadcastReachesUnsendable(first.1, excluded, ids[1..], outcomes[1..], now);
      forall d | d in ids && !CanSendTo(excluded, d)
        ensures d in Broadcast(conns, excluded, ids, outcomes, now).0
      {
        if d != ids[0] {
          assert d in ids[1..];
        }
      }
    }
  }

  /** A device that can be sent to is only reported when it had a connection to begin with. */
  lemma {:induction false} BroadcastReachesOnlyConnected(conns: map<string, ConnectionInfo>, excluded: set<string>,
                                                         ids: seq<string>, outcomes: seq<SendOutcome>, now: int)
    requires |outcomes| == |ids|
    ensures forall d | d in Broadcast(conns, excluded, ids, outcomes, now).0 && CanSendTo(excluded, d) :: d in conns
  {
    if |ids| > 0 {
      var first := Send(conns, excluded, ids[0], outcomes[0], now);
      BroadcastReachesOnlyConnected(first.1, excluded, ids[1..], outcomes[1..], now);
    }
  }

  class WebSocketManager {
    var connections: map<string, ConnectionInfo>
    const excluded: set<string>

    /** Every entry is filed under its own device id. */
    predicate Valid()
      reads this`connections
    {
      forall d | d in connections :: connections[d].deviceId == d
    }

    constructor ()
      ensures Valid() && connections == map[] && excluded == {}
    {
      connections := map[];
      excluded := {};
    }

    /** `_cleanup_connection`: the entry is removed; an unknown device is ignored. */
    method CleanupConnection(deviceId: string)
      requires Valid()
      modifies this`connections
      ensures Valid()
      ensures connections == old(connections) - {deviceId}
    {
      if deviceId in connections {
        connections := connections - {deviceId};
      }
    }

    /** `send_to_device`, as `Send` describes it. */
    method SendToDevice(deviceId: string, outcome: SendOutcome, now: int) returns (sent: bool)
      requires Valid()
      modifies this`connections
      ensures Valid()
      ensures (sent, connections) == Send(old(connections), excluded, deviceId, outcome, now)
    {
      if !CanSendTo(excluded, deviceId) {
        return true;
      }
      if deviceId !in connections {
        return false;
      }
      var info := connections[deviceId];
      match outcome
      case FoundClosed =>
        CleanupConnection(deviceId);
        sent := false;
      case Delivered =>
        connections := connections[deviceId := info.(lastHeartbeat := now)];
        sent := true;
      case PeerGone =>
        CleanupConnection(deviceId);
        sent := false;
      case Failed =>
        sent := false;
    }

    /**
     * `connect`: when the socket is accepted, any earlier connection of the device is closed
     * and dropped, the new one stored, and a welcome message sent to it. False, with nothing
     * changed, when accepting fails.
     */
    method Connect(socket: Socket, deviceId: string, user: Option<string>, now: int, accepted: bool,
                   welcome: SendOutcome) returns (ok: bool)
      requires Valid()
      modifies this`connections
      ensures Valid()
      ensures ok == accepted
      ensures !ok ==> connections == old(connections)
      ensures ok ==> connections == Send(old(connections)[deviceId := NewInfo(deviceId, socket, user, now)],
                                         excluded, deviceId, welcome, now).1
    {
      if !accepted {
        return false;
      }
      if deviceId in connections {
        CleanupConnection(deviceId);
      }
      connections := connections[deviceId := NewInfo(deviceId, socket, user, now)];
      var _ := SendToDevice(deviceId, welcome, now);
      return true;
    }

    /**
     * `refresh_connection`: for a socket found in `state` Connected, the device's entry is
     * replaced by a new one for it, without accepting or greeting; otherwise false and
     * nothing changes.
     */
    method RefreshConnection(socket: Socket, state: SocketState, deviceId: string, user: Option<string>, now: int)
      returns (ok: bool)
      requires Valid()
      modifies this`connections
      ensures Valid()
      ensures ok <==> state == Connected
      ensures ok ==> connections == old(connections)[deviceId := NewInfo(deviceId, socket, user, now)]
      ensures !ok ==> connections == old(connections)
    {
      if state != Connected {
        return false;
      }
      if deviceId in connections {
        CleanupConnection(deviceId);
      }
      connections := connections[deviceId := NewInfo(deviceId, socket, user, now)];
      return true;
    }

    /**
     * `disconnect`: an unknown device is ignored; otherwise its socket, found in `state`, is
     * told why and closed unless it is already closed, and the entry is dropped whatever the
     * notification did.
     */
    method Disconnect(deviceId: string, state: SocketState, notice: SendOutcome, now: int)
      requires Valid()
      modifies this`connections
      ensures Valid()
      ensures connections == old(connections) - {deviceId}
    {
      if deviceId !in connections {
        return;
      }
      if state != Disconnected {
        var _ := SendToDevice(deviceId, notice, now);
      }
      CleanupConnection(deviceId);
    }

    /** `broadcast_to_devices`, one send per id in order, as `Broadcast` describes it. */
    method BroadcastToDevices(ids: seq<string>, outcomes: seq<SendOutcome>, now: int) returns (reached: seq<string>)
      requires Valid() && |outcomes| == |ids|
      modifies this`connections
      ensures Valid()
      ensures (reached, connections) == Broadcast(old(connections), excluded, ids, outcomes, now)
    {
      reached := [];
      var i := 0;
      assert ids[0..] == ids && outcomes[0..] == outcomes;
      ghost var whole := Broadcast(connections, excluded, ids, outcomes, now);
      while i < |ids|
        invariant 0 <= i <= |ids| && Valid()
        invariant whole.0 == reached + Broadcast(connections, excluded, ids[i..], outcomes[i..], now).0
        invariant whole.1 == Broadcast(connections, excluded, ids[i..], outcomes[i..], now).1
      {
        ghost var before := connections;
        var sent := SendToDevice(ids[i], outcomes[i], now);
        assert ids[i..][1..] == ids[i + 1..] && outcomes[i..][1..] == outcomes[i + 1..];
        ghost var rest := Broadcast(connections, excluded, ids[i + 1..], outcomes[i + 1..], now);
        assert Broadcast(before, excluded, ids[i..], outcomes[i..], now) == ((if sent then [ids[i]] else []) + rest.0, rest.1);
        if sent {
          reached := reached + [ids[i]];
        }
        i := i + 1;
      }
      assert ids[i..] == [] && outcomes[i..] == [];
      assert reached + [] == reached;
    }
  }
}

=== FILE: wrappers.dfy ===
/**
 * Optional values, used wherever the source returns `None` for "not found", and results that
 * carry either a value or the error the source raises or reports.
 */
module Wrappers {
  datatype Option<+T> = None | Some(value: T)
  {
    /** The wrapped value, or `default` when there is none. */
    function GetOr(default: T): T
    {
      match this
      case Some(v) => v
      case None => default
    }
  }

  datatype Result<+T, +E> = Ok(value: T) | Err(error: E)

  /** The error an HTTP route raises: a status code and the detail sent back. */
  datatype HttpError = HttpError(status: int, detail: string)
}
